=== FILE: README.md ===
# Photo library plugin — a Dafny model of its core

This project models the platform-independent core of the Capacitor photo library
plugin: the iOS `PhotoLibraryService` (Swift) and the Android
`PhotoLibraryService` (Java). It covers:

- how both platforms normalise `getLibrary` and `pickMedia` options;
- how a library page is cut from the full row list (iOS walks an index window,
  Android queries with `LIMIT`/`OFFSET` and counts consumed rows);
- the names of cached artifacts (`<sha256>.<ext>` full-resolution files and
  `<sha256>_<W>x<H>_q<P>.jpg` thumbnails) and the fetch-or-produce step that
  fills the cache, with the cache modelled as `map<Path, seq<bv8>>` and the
  hash handed in as a function;
- Android identifiers `image:<id>` / `video:<id>` and their parsing;
- iOS picked items, which take precedence over the photo library;
- the lookup tables: MIME types, `suggestedExtension`, `guessExtension`,
  authorization states;
- the album accumulation of Android `fetchAlbums`;
- the dictionaries handed back to the client (`toDictionary`).

Platform services are values or functions passed in: PhotoKit, MediaStore,
`UTType`, image encoders, the content resolver and SHA-256. Each producer's
result is an `Outcome`: it produced the data, produced nothing, failed before
the target file was opened, refused after writing part of a file, or broke off
with an exception after a partial write.

Modules, one per file:

| file | module | models |
|---|---|---|
| results.dfy | Results | `Option` and `Result` |
| text.dfy | Text | decimal rendering, `lastPathComponent`, `pathExtension`, ASCII lower-casing |
| options.dfy | Options | the four option parsers and the contract they share |
| paging.dfy | Paging | the iOS and Android paging of `fetchLibrary` |
| identifiers.dfy | Identifiers | `ParsedIdentifier.parse`, `String.split`, `Long.parseLong` |
| lookups.dfy | Lookups | MIME and extension tables, authorization states |
| cachenames.dfy | CacheNames | artifact file names and quality rounding |
| artifactstore.dfy | ArtifactStore | the cache as a store and the fill steps of both platforms |
| assetrecords.dfy | AssetRecords | records and their dictionaries |
| ioslibrary.dfy | IosLibrary | iOS fetch filter, asset results, albums, library artifacts |
| iosservice.dfy | IosService | iOS requests by identifier and the picker flow |
| androidlibrary.dfy | AndroidLibrary | Android selection, `buildAsset`, paging, albums |
| androidservice.dfy | AndroidService | Android `findAsset` and the file requests |

Swift and Java disagree in places. In each case the model follows the code of
the platform concerned:

- iOS `%.0f` rounds ties to even and Android `Math.round` rounds ties up.
- Android reports a row that `buildAsset` drops as consumed, so `hasMore`
  can stay true at the end. iOS counts it in neither direction.
- A picked image is always stored as a JPEG encoding. Its file name and MIME
  type still come from the suggested name, so a `photo.png` suggestion gives
  a JPEG body reported as `image/png` (`IosService.PickedImageTypeFollowsName`).
- The iOS `getDouble` also reads a string `thumbnailQuality` through
  `Double(string)`; the Android `getDouble` ignores a string and keeps the
  default (0.5 for a library call, 0.7 for a pick)
  (`Options.StringQualityDisagrees`).

## Model

| member | source | states |
|---|---|---|
| Options.IosGetReal | ios/Sources/PhotoLibraryPlugin/PhotoLibrary.swift:914-928 | a number is read as it is; otherwise a string is read by `Double(string)`; otherwise nothing |
| Options.IosLibraryOptions | ios/Sources/PhotoLibraryPlugin/PhotoLibrary.swift:146-185 | a negative offset or limit is rejected with its reason; limit 0 or absent means unbounded; neither media type means images; sizes at least 0; quality, read as a number or a numeric string, clamped into [0,1]; defaults when absent |
| Options.AndroidLibraryOptions | android/src/main/java/app/capgo/plugin/photo_library/GetLibraryOptions.java:45-94 | the same contract as the iOS parser, with quality read from a number only: the same rejections, defaults and clamping |
| Options.IosPickOptions | ios/Sources/PhotoLibraryPlugin/PhotoLibrary.swift:196-220 | negative selection limit rejected; default 1; neither media type means images; sizes at least 0; quality, read as a number or a numeric string, clamped into [0,1] |
| Options.AndroidPickOptions | android/src/main/java/app/capgo/plugin/photo_library/PickMediaOptions.java:30-50 | the same pick contract as the iOS parser, with quality read from a number only |
| Options.LibraryContractDetermines | android/src/main/java/app/capgo/plugin/photo_library/GetLibraryOptions.java:45-94 | the library contract fixes the result: two results that meet it for the same quality read are equal |
| Options.PickContractDetermines | android/src/main/java/app/capgo/plugin/photo_library/PickMediaOptions.java:30-50 | the pick contract fixes the result for the same quality read |
| Options.LibraryParsersAgree | ios/Sources/PhotoLibraryPlugin/PhotoLibrary.swift:146-185 | iOS and Android normalise every `getLibrary` call that gives no string `thumbnailQuality` to the same options or the same error |
| Options.PickParsersAgree | ios/Sources/PhotoLibraryPlugin/PhotoLibrary.swift:196-220 | iOS and Android normalise every `pickMedia` call that gives no string `thumbnailQuality` identically |
| Options.StringQualityDisagrees | ios/Sources/PhotoLibraryPlugin/PhotoLibrary.swift:914-928 | a `thumbnailQuality` given only as a numeric string sets the iOS quality and leaves Android at its default, 0.5 or 0.7 |
| Options.ZeroLimitIsUnbounded | ios/Sources/PhotoLibraryPlugin/PhotoLibrary.swift:147-160 | with a valid offset, a limit of 0 and no limit both parse to an unbounded request, on both platforms |
| Options.NoMediaTypeMeansImages | ios/Sources/PhotoLibraryPlugin/PhotoLibrary.swift:162-170 | asking for neither images nor videos is the same request as asking for images |
| Options.Clamp01 | ios/Sources/PhotoLibraryPlugin/PhotoLibrary.swift:182 | the result lies in [0,1], equals q inside it and the nearer bound outside |
| Options.AtLeastZero | ios/Sources/PhotoLibraryPlugin/PhotoLibrary.swift:178-179 | negative sizes become 0, others are kept |
| Paging.Collect | ios/Sources/PhotoLibraryPlugin/PhotoLibrary.swift:355-360 | never more assets than rows |
| Paging.CollectAppend | ios/Sources/PhotoLibraryPlugin/PhotoLibrary.swift:355-360 | collecting distributes over concatenation of row lists |
| Paging.CollectKeepsAll | ios/Sources/PhotoLibraryPlugin/PhotoLibrary.swift:355-360 | when every row converts, nothing is dropped: the i-th asset is the conversion of the i-th row |
| Paging.CollectOrigins | ios/Sources/PhotoLibraryPlugin/PhotoLibrary.swift:355-360 | every asset comes from a row that converts to it, in strictly increasing row order |
| Paging.Drop | ios/Sources/PhotoLibraryPlugin/PhotoLibrary.swift:341 | the rows after the first k, element by element |
| Paging.Take | ios/Sources/PhotoLibraryPlugin/PhotoLibrary.swift:342 | at most `limit` leading rows, all rows without a limit |
| Paging.Window | ios/Sources/PhotoLibraryPlugin/PhotoLibrary.swift:341-342 | the window is empty past the end, no longer than the limit, and row i of it is row offset+i |
| Paging.IosBoundsAreWindow | ios/Sources/PhotoLibraryPlugin/PhotoLibrary.swift:341-362 | the clamped start and upper bound cover exactly the window, and `upperBound < totalCount` holds exactly when rows remain after it |
| Paging.IosPageBounds | ios/Sources/PhotoLibraryPlugin/PhotoLibrary.swift:327-369 | an iOS page has no more assets than the limit or the window, reports the full count, and `hasMore` means rows remain past the window |
| Paging.IosFetchLibrary | ios/Sources/PhotoLibraryPlugin/PhotoLibrary.swift:327-369 | the loop (with its empty-library and empty-window exits) returns exactly the iOS page |
| Paging.BuildSortOrder | android/src/main/java/app/capgo/plugin/photo_library/PhotoLibraryService.java:245-254 | a limit is rendered as `LIMIT`, and `OFFSET` appears only with a limit and a positive offset |
| Paging.QueryIsWindow | android/src/main/java/app/capgo/plugin/photo_library/PhotoLibraryService.java:245-254 | with a limit the SQL query already yields exactly the page window |
| Paging.AndroidPageBounds | android/src/main/java/app/capgo/plugin/photo_library/PhotoLibraryService.java:85-133 | an Android page has no more assets than the limit or the window, and its consumed count drives `hasMore` |
| Paging.AndroidFetchLibrary | android/src/main/java/app/capgo/plugin/photo_library/PhotoLibraryService.java:85-133 | the cursor loop (skip without a limit, stop at the limit) returns exactly the Android page |
| Paging.PagesAgree | android/src/main/java/app/capgo/plugin/photo_library/PhotoLibraryService.java:85-133 | both platforms return the same assets and count; when no row of the window is dropped they agree on `hasMore` too |
| Paging.IosPageOfWindow | ios/Sources/PhotoLibraryPlugin/PhotoLibrary.swift:327-369 | when every row of the window converts, the iOS page is the whole window converted in order, and `hasMore` holds iff the window is non-empty and ends before the last row |
| Paging.AndroidPageOfWindow | android/src/main/java/app/capgo/plugin/photo_library/PhotoLibraryService.java:85-133 | when every row of the window converts and the limit is absent or positive, the Android page is the whole window converted in order, and `hasMore` holds iff the window is non-empty and ends before the last row |
| Paging.IosDroppingKeepsCounts | ios/Sources/PhotoLibraryPlugin/PhotoLibrary.swift:355-362 | on iOS, which rows are dropped changes neither the count nor `hasMore` |
| Paging.AndroidDroppedRowLeavesHasMore | android/src/main/java/app/capgo/plugin/photo_library/PhotoLibraryService.java:121-131 | a single dropped row leaves Android's `hasMore` true while iOS reports false |
| Identifiers.ParseLong | android/src/main/java/app/capgo/plugin/photo_library/PhotoLibraryService.java:576 | an accepted id lies in the range of a Java `long` |
| Identifiers.ParseIdentifier | android/src/main/java/app/capgo/plugin/photo_library/PhotoLibraryService.java:567-584 | a parsed identifier names an image or a video and its id is a `long` |
| Identifiers.ParseLongOfDecimal | android/src/main/java/app/capgo/plugin/photo_library/PhotoLibraryService.java:576 | reading back a rendered `long` gives that value |
| Identifiers.IdentifierRoundTrip | android/src/main/java/app/capgo/plugin/photo_library/PhotoLibraryService.java:567-584 | `type + ":" + id`, as built for an image or video row, parses back to that id and media type |
| Identifiers.ParsedIdentifierShape | android/src/main/java/app/capgo/plugin/photo_library/PhotoLibraryService.java:567-584 | whatever parse accepts is a colon-free prefix, ':', the id's digits and trailing colons only; "video" gives video, any other prefix image |
| Identifiers.TrailingColonAccepted | android/src/main/java/app/capgo/plugin/photo_library/PhotoLibraryService.java:571-574 | `split` drops trailing empty pieces, so "image:5:" is accepted as image 5 |
| Identifiers.SinglePieceRejected | android/src/main/java/app/capgo/plugin/photo_library/PhotoLibraryService.java:568-574 | a missing identifier and one without a colon are rejected |
| Identifiers.ThreePiecesRejected | android/src/main/java/app/capgo/plugin/photo_library/PhotoLibraryService.java:571-574 | an identifier with three non-empty pieces is rejected |
| Identifiers.JoinPieces | android/src/main/java/app/capgo/plugin/photo_library/PhotoLibraryService.java:571 | splitting on the separator and joining again gives the original string |
| Lookups.IosMimeType | ios/Sources/PhotoLibraryPlugin/PhotoLibrary.swift:856-869 | the registry's MIME type for the resource's type identifier when it has one; otherwise the table entry for the lower-cased extension of the resource's original name, or of the fallback name when there is no resource; otherwise `application/octet-stream` |
| Lookups.MimeTypeOfFileName | ios/Sources/PhotoLibraryPlugin/PhotoLibrary.swift:234-251 | a name `stem.ext`, given as a fallback name or as the original name of a resource the registry does not know, gets the table entry for `ext` in any letter case, else octet-stream |
| Lookups.SuggestedExtension | ios/Sources/PhotoLibraryPlugin/PhotoLibrary.swift:871-886 | no resource gives "dat"; otherwise the original name's extension, and when that name has none, the registry's preferred extension for the type identifier, else "dat" |
| Lookups.SuggestedExtensionOfName | ios/Sources/PhotoLibraryPlugin/PhotoLibrary.swift:871-886 | a resource named `stem.ext` suggests `ext` |
| Lookups.SuggestedExtensionWithoutDot | ios/Sources/PhotoLibraryPlugin/PhotoLibrary.swift:871-886 | a resource whose name has no dot suggests the registry's extension for its type, else "dat" |
| Lookups.GuessExtension | android/src/main/java/app/capgo/plugin/photo_library/PhotoLibraryService.java:514-531 | always a dot-led extension; a missing type gives ".dat" |
| Lookups.GuessExtensionKnown | android/src/main/java/app/capgo/plugin/photo_library/PhotoLibraryService.java:518-528 | the five listed types get their fixed extension |
| Lookups.GuessExtensionSubtype | android/src/main/java/app/capgo/plugin/photo_library/PhotoLibraryService.java:529-530 | any other `type/sub` gets ".sub" |
| Lookups.GuessExtensionWithoutSlash | android/src/main/java/app/capgo/plugin/photo_library/PhotoLibraryService.java:529-530 | a type without a slash becomes its own extension |
| Lookups.AuthorizationStateOf | ios/Sources/PhotoLibraryPlugin/PhotoLibrary.swift:821-835 | authorized iff the status is authorized, limited iff it is limited; not determined maps to its state, and denied, restricted or unknown statuses to denied |
| Lookups.AccessGrantedExactly | ios/Sources/PhotoLibraryPlugin/PhotoLibrary.swift:272-279 | access is granted exactly for authorized and limited |
| Lookups.StateNamesDistinct | ios/Sources/PhotoLibraryPlugin/PhotoLibrary.swift:821-835 | distinct states report distinct names |
| CacheNames.ThumbnailSuffixInjective | ios/Sources/PhotoLibraryPlugin/PhotoLibrary.swift:680-683 | the `_WxH_qP.jpg` suffix determines width, height and percent |
| CacheNames.ThumbnailNameInjective | ios/Sources/PhotoLibraryPlugin/PhotoLibrary.swift:680-683 | two thumbnail names coincide exactly when digest, width, height and percent do |
| CacheNames.AndroidQualityPercent | android/src/main/java/app/capgo/plugin/photo_library/PhotoLibraryService.java:400 | the percent lies in [0,100], is quality×100 rounded half up inside [0,1], and saturates outside |
| CacheNames.IosQualityPercent | ios/Sources/PhotoLibraryPlugin/PhotoLibrary.swift:681 | the nearest whole number to quality×100, ties to even |
| CacheNames.AndroidThumbnailSharing | android/src/main/java/app/capgo/plugin/photo_library/PhotoLibraryService.java:399-403 | two Android thumbnail requests share a file exactly when identifier, size and rounded percent agree |
| CacheNames.IosThumbnailSharing | ios/Sources/PhotoLibraryPlugin/PhotoLibrary.swift:786-787 | the same on iOS, with its own rounding |
| CacheNames.AndroidQualityAboveOneShares | android/src/main/java/app/capgo/plugin/photo_library/PhotoLibraryService.java:400 | every quality of 1 or more lands in the `q100` file |
| CacheNames.IosFullNameExtension | ios/Sources/PhotoLibraryPlugin/PhotoLibrary.swift:755-758 | the extension written into a full-resolution name is the one `pathExtension` reads back |
| CacheNames.IosFullNameInjective | ios/Sources/PhotoLibraryPlugin/PhotoLibrary.swift:756-758 | full-resolution names determine digest and extension |
| CacheNames.AndroidFullNameInjective | android/src/main/java/app/capgo/plugin/photo_library/PhotoLibraryService.java:376-377 | Android full names coincide exactly when identifier and guessed extension do |
| ArtifactStore.IosExport | ios/Sources/PhotoLibraryPlugin/PhotoLibrary.swift:750-783 | a hit is served untouched; a miss stores the exported data, or leaves no file and answers nil; no other file changes |
| ArtifactStore.IosRender | ios/Sources/PhotoLibraryPlugin/PhotoLibrary.swift:785-819 | a hit is served untouched; a miss stores the rendered JPEG or changes nothing |
| ArtifactStore.IosWrite | ios/Sources/PhotoLibraryPlugin/PhotoLibrary.swift:685-706 | the rendering overwrites the file when produced, else nothing changes and nil is returned |
| ArtifactStore.IosReplace | ios/Sources/PhotoLibraryPlugin/PhotoLibrary.swift:632-640 | an existing file is removed first; a copy replaces it, a failed copy leaves no file |
| ArtifactStore.AndroidCopy | android/src/main/java/app/capgo/plugin/photo_library/PhotoLibraryService.java:375-396 | (corrected) a hit is served; a miss stores the whole stream, or leaves no file; null exactly when there is no stream, an exception otherwise |
| ArtifactStore.AndroidCompress | android/src/main/java/app/capgo/plugin/photo_library/PhotoLibraryService.java:399-444 | (corrected) a hit is served; a miss stores the encoding, or leaves no file; an exception exactly when an I/O error occurred |
| ArtifactStore.AndroidCopyAsWritten | android/src/main/java/app/capgo/plugin/photo_library/PhotoLibraryService.java:375-396 | the step as written: a hit is served; on a miss whatever was written stays at the name; served exactly when the copy completed, null exactly without a stream, an exception on every error |
| ArtifactStore.AndroidCompressAsWritten | android/src/main/java/app/capgo/plugin/photo_library/PhotoLibraryService.java:399-444 | the step as written: a hit is served; on a miss whatever was written stays at the name; served whenever `compress` ran to its end, refused or not; null exactly without a bitmap; an exception on an I/O error |
| ArtifactStore.AsWrittenKeepsWhatWasWritten | android/src/main/java/app/capgo/plugin/photo_library/PhotoLibraryService.java:382-393 | as written, after a miss a file exists at the name exactly when the target was opened, holding what the producer wrote; an error before opening leaves nothing |
| ArtifactStore.ServedIsStable | android/src/main/java/app/capgo/plugin/photo_library/PhotoLibraryService.java:378-380 | a served file is served again unchanged, whatever the producer would do |
| ArtifactStore.CompletenessPreserved | ios/Sources/PhotoLibraryPlugin/PhotoLibrary.swift:750-819 | with producers that deliver the full artifact, every iOS step and every corrected Android step keeps each cached file complete |
| ArtifactStore.AndroidCopyAsWrittenServesPartial | android/src/main/java/app/capgo/plugin/photo_library/PhotoLibraryService.java:378-393 | as written, a copy that breaks off leaves a partial file that every later request serves |
| ArtifactStore.AndroidCompressAsWrittenServesRefused | android/src/main/java/app/capgo/plugin/photo_library/PhotoLibraryService.java:403-443 | as written, an encoder that refuses after a partial write leaves a file that every later request serves |
| ArtifactStore.CorrectedStepsRetry | android/src/main/java/app/capgo/plugin/photo_library/PhotoLibraryService.java:375-444 | with the corrections, a failed attempt leaves nothing, so the next successful attempt stores the full artifact |
| ArtifactStore.CorrectionsOnlyTouchFailures | android/src/main/java/app/capgo/plugin/photo_library/PhotoLibraryService.java:375-444 | the corrected steps agree with the code as written exactly when the file was cached, or the producer succeeded, produced nothing or failed before opening the target |
| AssetRecords.IosFileSize | ios/Sources/PhotoLibraryPlugin/PhotoLibrary.swift:904-910 | the byte count of a present file, -1 exactly when it is missing |
| AssetRecords.AndroidFileLength | android/src/main/java/app/capgo/plugin/photo_library/PhotoLibraryService.java:146 | the byte count of a present file, 0 when it is missing |
| AssetRecords.FileDictionary | ios/Sources/PhotoLibraryPlugin/PhotoLibrary.swift:47-55 | exactly the keys path, webPath, mimeType and size, holding the file's values |
| AssetRecords.AssetDictionary | ios/Sources/PhotoLibraryPlugin/PhotoLibrary.swift:74-110 | the six required keys always; each optional key exactly when its value is present, holding that value |
| AssetRecords.AlbumDictionary | ios/Sources/PhotoLibraryPlugin/PhotoLibrary.swift:118-124 | exactly the keys id, title and assetCount, holding the album's values |
| AssetRecords.AssetDictionaryInjective | ios/Sources/PhotoLibraryPlugin/PhotoLibrary.swift:74-110 | when files are shown at distinct locations, distinct records give distinct dictionaries |
| AssetRecords.FileDictionaryInjective | ios/Sources/PhotoLibraryPlugin/PhotoLibrary.swift:47-55 | distinct file results give distinct dictionaries |
| AssetRecords.KeyNamesDistinct | ios/Sources/PhotoLibraryPlugin/PhotoLibrary.swift:74-110 | distinct keys have distinct names |
| IosLibrary.Matching | ios/Sources/PhotoLibraryPlugin/PhotoLibrary.swift:451-470 | exactly the assets the media and source predicate admits |
| IosLibrary.MatchingAppend | ios/Sources/PhotoLibraryPlugin/PhotoLibrary.swift:451-470 | the matches of two runs of assets are the matches of the first followed by those of the second, so library order is kept |
| IosLibrary.MatchingOne | ios/Sources/PhotoLibraryPlugin/PhotoLibrary.swift:451-470 | a single asset matches itself iff the predicate admits it |
| IosLibrary.PreferredResource | ios/Sources/PhotoLibraryPlugin/PhotoLibrary.swift:837-854 | none only without resources; otherwise the resource of least index whose kind is preferred for the asset's media type, and the first resource when no kind is preferred |
| IosLibrary.ChosenFileName | ios/Sources/PhotoLibraryPlugin/PhotoLibrary.swift:931-943 | the first resource's original name when original names are asked for and a resource exists; otherwise the asset's file name when it has one, else "asset" |
| IosLibrary.FetchAlbums | ios/Sources/PhotoLibraryPlugin/PhotoLibrary.swift:306-325 | one record per user album, then per smart album, with title defaulting to "" and the member count |
| IosLibrary.AlbumIdsAreListed | ios/Sources/PhotoLibraryPlugin/PhotoLibrary.swift:888-897 | every album id on an asset names a listed album with at least one asset |
| IosLibrary.AssetResult | ios/Sources/PhotoLibraryPlugin/PhotoLibrary.swift:472-538 | only images and videos give a result; its id, type, file name and MIME type follow the asset, width and height are the pixel size, the duration is present exactly for videos, both dates and the location's latitude and longitude are copied, album ids are the asset's albums exactly when album data is asked for, and the thumbnail and file are the ones given |
| IosLibrary.ParsedOptionsDropNothing | ios/Sources/PhotoLibraryPlugin/PhotoLibrary.swift:327-369 | with parsed options every matching asset gives an asset result |
| IosLibrary.FetchLibrary | ios/Sources/PhotoLibraryPlugin/PhotoLibrary.swift:327-369 | the count is every matching asset; the page holds no more assets than the window and no more than the limit |
| IosLibrary.PageOfMatches | ios/Sources/PhotoLibraryPlugin/PhotoLibrary.swift:327-369 | when every matching asset gives a result, the page is the whole window of matching assets, asset i the result of window row i, with `hasMore` iff the window is non-empty and ends before the last match |
| IosLibrary.FetchLibraryIsWindow | ios/Sources/PhotoLibraryPlugin/PhotoLibrary.swift:327-369 | with parsed options the page holds exactly the window of matching assets, asset i the result of window row i; the count is every matching asset, and `hasMore` holds iff the window is non-empty and ends before the last match |
| IosLibrary.FullFileExtension | ios/Sources/PhotoLibraryPlugin/PhotoLibrary.swift:755-757 | the original name's extension when it has one; otherwise the suggested extension, which is the registry's preferred extension for the type identifier, else "dat" |
| IosLibrary.FullResolutionFile | ios/Sources/PhotoLibraryPlugin/PhotoLibrary.swift:750-783 | no resource gives nothing; otherwise the file at digest.ext with its size and MIME type: a hit is served without exporting, a miss stores exactly the exported bytes, and a failed export leaves no file and the cache as it was |
| IosLibrary.ThumbnailFile | ios/Sources/PhotoLibraryPlugin/PhotoLibrary.swift:785-819 | the thumbnail at the digest/size/quality name, typed `image/jpeg`: a hit is served without rendering, a miss stores exactly the rendered bytes, and a failed render leaves the cache as it was |
| IosLibrary.FileMimeMatchesAsset | ios/Sources/PhotoLibraryPlugin/PhotoLibrary.swift:780-782 | a full-resolution file has the MIME type its asset result reports |
| IosLibrary.ArtifactsAreStable | ios/Sources/PhotoLibraryPlugin/PhotoLibrary.swift:750-819 | asking again for a served file or thumbnail answers the same without touching the cache |
| IosService.FetchAsset | ios/Sources/PhotoLibraryPlugin/PhotoLibrary.swift:745-748 | an asset with that local identifier, none exactly when no asset has it |
| IosService.FetchFullResolutionFile | ios/Sources/PhotoLibraryPlugin/PhotoLibrary.swift:405-426 | a picked item answers with its stored file; else the library asset's file; else nil |
| IosService.ThumbnailForPickedItem | ios/Sources/PhotoLibraryPlugin/PhotoLibrary.swift:721-743 | a non-positive size gives nil; a cached thumbnail is served; else images and videos are rendered and exactly the rendered bytes are stored, and other kinds or a failed render give nil and leave the cache as it was |
| IosService.FetchThumbnailFile | ios/Sources/PhotoLibraryPlugin/PhotoLibrary.swift:428-449 | a picked item is answered from its own file; else the library asset's thumbnail; else nil |
| IosService.PickedItemsTakePrecedence | ios/Sources/PhotoLibraryPlugin/PhotoLibrary.swift:405-449 | for a picked identifier the answers do not depend on the photo library, and the full-resolution answer leaves the cache alone |
| IosService.PickedThumbnail | ios/Sources/PhotoLibraryPlugin/PhotoLibrary.swift:597-600 | with no thumbnail size nothing is made; otherwise the thumbnail is written at its name |
| IosService.CreateFromPickedImage | ios/Sources/PhotoLibraryPlugin/PhotoLibrary.swift:577-624 | the encoding is stored at digest.ext and the item recorded as an image; the result carries the pixel size, the file, and the thumbnail that the picked-item thumbnail step makes in the cache holding the new file, with no duration, dates, location, albums or size; a failed encoding stores and records nothing |
| IosService.CreateFromPickedVideo | ios/Sources/PhotoLibraryPlugin/PhotoLibrary.swift:626-678 | the movie replaces any file at its name and the item is recorded as a video; the result carries the track size, the duration, the file, and the thumbnail made in the cache holding the copied movie, with no dates, location, albums or size; a failed copy leaves no file |
| IosService.AssetFromPickerResult | ios/Sources/PhotoLibraryPlugin/PhotoLibrary.swift:541-574 | the image route (the created image, or nothing when no image loads) when images are wanted and loadable; else the video route likewise when videos are wanted and a movie exists; else nothing and the service unchanged. A created asset is recorded under its identifier, other items unchanged |
| IosService.ProcessPickerResults | ios/Sources/PhotoLibraryPlugin/PhotoLibrary.swift:372-402 | at most one asset per result; every reported asset carries the identifier of one of the picked results and is recorded as picked; earlier picked items stay |
| IosService.PickerResultsInOrder | ios/Sources/PhotoLibraryPlugin/PhotoLibrary.swift:372-402 | the flow reports the asset the first result yields, if any, followed by what the remaining results yield in the service it left behind |
| IosService.NothingLoadableNothingReported | ios/Sources/PhotoLibraryPlugin/PhotoLibrary.swift:541-573 | when no result can be loaded as an enabled image or movie, the flow reports no asset and leaves the service unchanged |
| IosService.PickedImageIsServedBack | ios/Sources/PhotoLibraryPlugin/PhotoLibrary.swift:577-624 | a picked image's file and thumbnail are served back as they were created |
| IosService.PickedVideoIsServedBack | ios/Sources/PhotoLibraryPlugin/PhotoLibrary.swift:626-678 | a picked movie's file and thumbnail are served back as they were created, without rendering again |
| IosService.PickedImageTypeFollowsName | ios/Sources/PhotoLibraryPlugin/PhotoLibrary.swift:578-594 | a picked image suggested as `x.png` is stored as digest.png and typed `image/png` |
| AndroidLibrary.BuildSelection | android/src/main/java/app/capgo/plugin/photo_library/PhotoLibraryService.java:203-225 | both kinds, images only, or otherwise videos only |
| AndroidLibrary.SelectionKeepsRequestedKinds | android/src/main/java/app/capgo/plugin/photo_library/PhotoLibraryService.java:203-225 | the selection keeps a media type exactly when it was asked for; with neither flag only videos |
| AndroidLibrary.Selected | android/src/main/java/app/capgo/plugin/photo_library/PhotoLibraryService.java:103-111 | the query returns exactly the rows the selection keeps |
| AndroidLibrary.SelectedAppend | android/src/main/java/app/capgo/plugin/photo_library/PhotoLibraryService.java:103-111 | the selected rows of two runs are those of the first followed by those of the second, so cursor order is kept |
| AndroidLibrary.SelectedOne | android/src/main/java/app/capgo/plugin/photo_library/PhotoLibraryService.java:103-111 | a single row is selected iff the selection keeps its media type |
| AndroidLibrary.CreationMillis | android/src/main/java/app/capgo/plugin/photo_library/PhotoLibraryService.java:267-271 | date taken when positive, else date added in milliseconds, else none |
| AndroidLibrary.BuildAsset | android/src/main/java/app/capgo/plugin/photo_library/PhotoLibraryService.java:256-345 | only images and videos; id `type:id`, file name, octet-stream fallback, width and height, bucket album id, a video's duration in seconds, creation date and positive modification date in milliseconds, size, thumbnail and file as the options say |
| AndroidLibrary.SelectedRowsAreKept | android/src/main/java/app/capgo/plugin/photo_library/PhotoLibraryService.java:85-133 | with parsed options every selected row yields an asset |
| AndroidLibrary.FetchLibrary | android/src/main/java/app/capgo/plugin/photo_library/PhotoLibraryService.java:85-133 | the count is every selected row; the page holds no more assets than the window and no more than the limit |
| AndroidLibrary.PageOfKeptRows | android/src/main/java/app/capgo/plugin/photo_library/PhotoLibraryService.java:85-133 | when every selected row builds an asset and the limit is absent or positive, the page is the whole window of selected rows, asset i built from window row i, with `hasMore` iff the window is non-empty and ends before the last row |
| AndroidLibrary.FetchLibraryIsWindow | android/src/main/java/app/capgo/plugin/photo_library/PhotoLibraryService.java:85-133 | with parsed options the page is exactly the window of selected rows built in order, the count is every selected row, and `hasMore` holds iff the window is non-empty and ends before the last row |
| AndroidLibrary.AssetIdParsesBack | android/src/main/java/app/capgo/plugin/photo_library/PhotoLibraryService.java:288-289 | the id an asset carries parses back to its row's id and media type |
| AndroidLibrary.QueryAlbums | android/src/main/java/app/capgo/plugin/photo_library/PhotoLibraryService.java:178-201 | each bucket gets the title of its first row and the count of its rows, added to what was there |
| AndroidLibrary.FetchAlbums | android/src/main/java/app/capgo/plugin/photo_library/PhotoLibraryService.java:69-83 | an album for exactly the buckets of image or video rows, counting both tables, titled by the first row |
| AndroidLibrary.InBucketAcross | android/src/main/java/app/capgo/plugin/photo_library/PhotoLibraryService.java:69-83 | a bucket occurs in both tables together exactly when it occurs in one of them |
| AndroidLibrary.AbsentBucketCountsZero | android/src/main/java/app/capgo/plugin/photo_library/PhotoLibraryService.java:533-544 | a bucket no row names counts zero |
| AndroidLibrary.FirstTitleAcross | android/src/main/java/app/capgo/plugin/photo_library/PhotoLibraryService.java:69-83 | the first title in the image table stays first over both tables; else the first in the video table |
| AndroidService.ContentUriFor | android/src/main/java/app/capgo/plugin/photo_library/PhotoLibraryService.java:446-453 | a URI exactly for images and videos, in their own collection, carrying the id |
| AndroidService.FindAsset | android/src/main/java/app/capgo/plugin/photo_library/PhotoLibraryService.java:348-372 | a bad identifier gives nothing; otherwise an asset exactly when a row has the id, built from the first such row |
| AndroidService.GetFullResolutionFile | android/src/main/java/app/capgo/plugin/photo_library/PhotoLibraryService.java:136-153 | an unknown asset gives null; a cached file is returned as it is and the cache is untouched; else the copied file with its MIME type and size; a failed copy throws, and what it wrote stays at the name |
| AndroidService.GetThumbnailFile | android/src/main/java/app/capgo/plugin/photo_library/PhotoLibraryService.java:156-176 | an unknown asset or a non-positive size gives null; a cached JPEG is returned as it is and the cache is untouched; else the encoding when a bitmap is available, served whether `compress` succeeded or refused; what was written stays at the name |
| AndroidService.CorrectedFullResolutionFile | android/src/main/java/app/capgo/plugin/photo_library/PhotoLibraryService.java:136-153 | the request on the corrected copy: a cached file is returned untouched, a successful copy stores exactly the copied bytes, and a request that fails leaves no file |
| AndroidService.CorrectedThumbnailFile | android/src/main/java/app/capgo/plugin/photo_library/PhotoLibraryService.java:156-176 | the request on the corrected encode: a cached JPEG is returned untouched, a successful encoding stores exactly the encoded bytes; found exactly when cached or encoded successfully; otherwise no file |
| AndroidService.ListedIdentifierFindsRow | android/src/main/java/app/capgo/plugin/photo_library/PhotoLibraryService.java:348-372 | the identifier the listing reports finds its row again |
| AndroidService.FoundFilesAreStable | android/src/main/java/app/capgo/plugin/photo_library/PhotoLibraryService.java:136-176 | a found file or thumbnail is found again unchanged, whatever the producers would do |
| AndroidService.CorrectedFoundFilesAreStable | android/src/main/java/app/capgo/plugin/photo_library/PhotoLibraryService.java:136-176 | the same for the corrected requests |
| AndroidService.BrokenCopyIsServedLater | android/src/main/java/app/capgo/plugin/photo_library/PhotoLibraryService.java:378-393 | as written, a copy that breaks off fails the request, and the next request serves the truncated file |
| AndroidService.RefusedThumbnailIsServed | android/src/main/java/app/capgo/plugin/photo_library/PhotoLibraryService.java:437-443 | as written, a refused encoding is served at once with the bytes written, and again on every later request |
| AndroidService.FailuresAreRetried | android/src/main/java/app/capgo/plugin/photo_library/PhotoLibraryService.java:136-153 | with the corrected copy, after a failed request the next successful copy is served with its full size |

## Findings

| source | as written | input that shows it | evidently intended | confidence | as-written member | corrected member |
|---|---|---|---|---|---|---|
| android/src/main/java/app/capgo/plugin/photo_library/PhotoLibraryService.java:382-393 | a stream that throws mid-copy leaves the partly written target; the next call sees `target.exists()` and returns it | a fresh cache and a copy that writes some bytes, then throws `IOException` | a failed copy deletes the target, so the next call copies again | not executed | ArtifactStore.AndroidCopyAsWrittenServesPartial | ArtifactStore.CorrectedStepsRetry |
| android/src/main/java/app/capgo/plugin/photo_library/PhotoLibraryService.java:437-443 | the `false` result of `compress` is ignored, so an empty or partial JPEG stays and is served from then on | a fresh cache and an encoder that writes part of the file, then returns `false` | a refused encoding deletes the target and answers null | not executed | ArtifactStore.AndroidCompressAsWrittenServesRefused | ArtifactStore.CorrectedStepsRetry |

`ArtifactStore.AndroidCopy` and `ArtifactStore.AndroidCompress` are the
corrected steps. `AndroidService.GetFullResolutionFile` and
`AndroidService.GetThumbnailFile` are the requests as written;
`AndroidService.CorrectedFullResolutionFile` and
`AndroidService.CorrectedThumbnailFile` are the same requests on the corrected
steps.

## Left out

- PhotoKit, MediaStore, `UTType`, `AVAssetImageGenerator`, `UIImage`/`Bitmap` encoding and the content resolver are foreign calls. Their answers are parameters: rows, resources, registries and producer outcomes.
- SHA-256 is a parameter `hash`. Where injectivity matters it is assumed to print 64 lower-case hex digits. The Java `hashCode` fallback for a missing SHA-256 provider is not modelled.
- Dispatch queues, completion handlers and the picker's concurrent item loading are not modelled. `IosService.ProcessPickerResults` folds the results in picker order, whereas the source collects assets in completion order.
- IosService.ProcessPickerResults: its own contract states only that each reported asset belongs to a picked result, that it is recorded, and that earlier items stay. Which asset each result yields is stated per result by `AssetFromPickerResult`, and `PickerResultsInOrder` chains those per-result answers in picker order.
- Doubles are modelled as reals. Float imprecision, NaN and the "-0" of `%.0f` are not modelled.
- CacheNames.IosQualityPercent: assumes `%.0f` rounds ties to even, as the C library does. The binary value of `quality * 100` is not modelled.
- 32-bit `int` and 64-bit `long` arithmetic is unbounded here. This affects the overflow of `dateAdded * 1000` and sizes beyond `Int.max`; ids are kept inside the `long` range explicitly.
- Identifiers.ParseLong: accepts ASCII digits with an optional sign. The non-ASCII digits `Long.parseLong` also accepts are not modelled.
- `NSString.pathExtension` is modelled as the text after the last dot of the last path component. Its special cases for leading dots and trailing slashes are not modelled. Lower-casing is ASCII only.
- ISO-8601 date text (`ISO8601DateFormatter`) is not modelled. Dates are carried as millisecond numbers.
- Sorting by creation date is not modelled. Rows are given already in the order the query returns them.
- In library listings, the per-asset thumbnail and file are passed in as `thumbnailOf`/`fileOf`; an `IOException` from `buildAsset` aborting the whole fetch is not modelled.
- AndroidLibrary.FetchAlbums: returns a map from bucket id to album. The value order of the Java `HashMap` has no specification, so it is not modelled.
- `countItems` is taken to be the number of selected rows. A count query that disagrees with the row query is not modelled.
- A copy has no encoder that can refuse. An `Outcome` of `Refused` handed to a copy is treated like `BrokeOff`.
- Bitmap scaling, `recycle` and the pixel contents of thumbnails are not modelled; an artifact's bytes are whatever the producer delivers.
- The picked-item UUID, a movie's temporary file name, duration and pixel size are fields of the input records rather than values drawn or read at run time.
- `prepareCacheDirectories`, `requestAuthorization`, the plugin classes that bridge calls to the service, and the conversion of files to portable web paths are not modelled. `FileDictionary` takes that conversion, which on iOS is `resolver?(url) ?? url.absoluteString`, as a parameter `locate`.
- `Double(string)` is a parameter `parse` of the iOS option parsers. Which strings it accepts is not modelled.
- `PhotoLibraryPlugin.swift`, `PhotoLibraryPlugin.java` and the TypeScript definitions are glue around the services and are not part of this model.

=== FILE: androidlibrary.dfy ===
/** The Android library side of `PhotoLibraryService`: the media-type
    selection, the per-row asset object (`buildAsset`) and the album
    accumulation over the image and video tables (`queryAlbums`,
    `fetchAlbums`). The content resolver is a value: the rows of the files
    table newest first, and the bucket columns of the image and video tables. */
module AndroidLibrary {
  import opened Results
  import Text
  import Lookups
  import Options
  import Paging
  import Identifiers
  import opened AssetRecords

  /** One row of the files table with the projected columns; a column the
      provider does not have reads as 0, as `getLong`/`getInt` make it. */
  datatype MediaRow = MediaRow(
    id: int,
    displayName: Option<string>,
    mimeType: Option<string>,
    mediaType: int,
    size: int,
    dateAdded: int,
    dateModified: int,
    dateTaken: int,
    width: int,
    height: int,
    duration: int,
    bucketId: Option<string>,
    bucketName: Option<string>)

  /** `MediaStore.Files.FileColumns.MEDIA_TYPE`. */
  const MediaTypeColumn: string := "media_type"

  /** A SQL selection with `?` placeholders and its arguments. */
  datatype Selection = Selection(clause: string, args: seq<string>)

  /** `buildSelection`: both kinds, images only, or else videos only. */
  function BuildSelection(o: Options.LibraryOptions): (sel: Selection)
    ensures o.includeImages && o.includeVideos ==>
      sel.args == [Text.IntToDecimal(Identifiers.MediaTypeImage), Text.IntToDecimal(Identifiers.MediaTypeVideo)]
    ensures o.includeImages && !o.includeVideos ==> sel.args == [Text.IntToDecimal(Identifiers.MediaTypeImage)]
    ensures !o.includeImages ==> sel.args == [Text.IntToDecimal(Identifiers.MediaTypeVideo)]
  {
    if o.includeImages && o.includeVideos then
      Selection("(" + MediaTypeColumn + "=? OR " + MediaTypeColumn + "=? )",
                [Text.IntToDecimal(Identifiers.MediaTypeImage), Text.IntToDecimal(Identifiers.MediaTypeVideo)])
    else if o.includeImages then
      Selection(MediaTypeColumn + "=?", [Text.IntToDecimal(Identifiers.MediaTypeImage)])
    else
      Selection(MediaTypeColumn + "=?", [Text.IntToDecimal(Identifiers.MediaTypeVideo)])
  }

  /** A selection of `media_type=?` terms joined by `OR` keeps a row when its
      media type, as text, is one of the arguments. */
  predicate Selects(sel: Selection, mediaType: int) {
    Text.IntToDecimal(mediaType) in sel.args
  }

  /** The selection keeps exactly the requested kinds; with neither kind
      requested (which the option parsers rule out) it keeps videos. */
  lemma SelectionKeepsRequestedKinds(o: Options.LibraryOptions, mediaType: int)
    ensures o.includeImages || o.includeVideos ==>
      (Selects(BuildSelection(o), mediaType) <==>
         (o.includeImages && mediaType == Identifiers.MediaTypeImage) || (o.includeVideos && mediaType == Identifiers.MediaTypeVideo))
    ensures !o.includeImages && !o.includeVideos ==>
      (Selects(BuildSelection(o), mediaType) <==> mediaType == Identifiers.MediaTypeVideo)
  {
    var t := Text.IntToDecimal(mediaType);
    if t == Text.IntToDecimal(Identifiers.MediaTypeImage) {
      Text.IntToDecimalInjective(mediaType, Identifiers.MediaTypeImage);
    }
    if t == Text.IntToDecimal(Identifiers.MediaTypeVideo) {
      Text.IntToDecimalInjective(mediaType, Identifiers.MediaTypeVideo);
    }
  }

  /** The rows the query returns, in table order. */
  function Selected(rows: seq<MediaRow>, sel: Selection): (r: seq<MediaRow>)
    ensures |r| <= |rows|
    ensures forall i :: 0 <= i < |r| ==> Selects(sel, r[i].mediaType)
    ensures forall x :: x in r <==> x in rows && Selects(sel, x.mediaType)
  {
    if |rows| == 0 then []
    else
      var rest := Selected(rows[1..], sel);
      if Selects(sel, rows[0].mediaType) then [rows[0]] + rest else rest
  }

  /** The query keeps cursor order: the selected rows of two runs of rows
      are those of the first followed by those of the second. */
  lemma {:induction false} SelectedAppend(a: seq<MediaRow>, b: seq<MediaRow>, sel: Selection)
    ensures Selected(a + b, sel) == Selected(a, sel) + Selected(b, sel)
    decreases |a|
  {
    if |a| == 0 {
      assert a + b == b;
    } else {
      var ab := a + b;
      assert ab[0] == a[0];
      assert ab[1..] == a[1..] + b;
      SelectedAppend(a[1..], b, sel);
      var rest := Selected(a[1..], sel);
      assert Selected(ab, sel) == (if Selects(sel, a[0].mediaType) then [a[0]] else []) + rest + Selected(b, sel);
    }
  }

  /** A single row is selected itself or not at all. */
  lemma SelectedOne(x: MediaRow, sel: Selection)
    ensures Selected([x], sel) == if Selects(sel, x.mediaType) then [x] else []
  {
    assert [x][1..] == [];
  }

  /** The creation time in milliseconds: `DATE_TAKEN`, else `DATE_ADDED`
      (seconds) times 1000, else none. */
  function CreationMillis(row: MediaRow): (ms: Option<int>)
    ensures row.dateTaken > 0 ==> ms == Some(row.dateTaken)
    ensures row.dateTaken <= 0 && row.dateAdded > 0 ==> ms == Some(row.dateAdded * 1000)
    ensures ms.Some? ==> ms.value > 0
  {
    var dateTaken := if row.dateTaken <= 0 then (if row.dateAdded > 0 then row.dateAdded * 1000 else 0) else row.dateTaken;
    if dateTaken > 0 then Some(dateTaken) else None
  }

  /** `buildAsset`: rows that are neither images nor videos give nothing;
      otherwise the object with the id `type:id`, a file name from the display
      name or the id and guessed extension, the MIME type or
      `application/octet-stream`, the bucket as album only when album data is
      asked for, and the thumbnail and file the artifact steps returned. */
  function BuildAsset(row: MediaRow, o: Options.LibraryOptions, thumbnail: Option<FileResult>, file: Option<FileResult>): (r: Option<AssetRecord>)
    ensures r.Some? <==> row.mediaType == Identifiers.MediaTypeImage || row.mediaType == Identifiers.MediaTypeVideo
    ensures r.Some? ==> r.value.id == Identifiers.BuildIdentifier(row.mediaType, row.id)
    ensures r.Some? ==> r.value.kind == Identifiers.AssetType(row.mediaType)
    ensures r.Some? && row.displayName.Some? ==> r.value.fileName == row.displayName.value
    ensures r.Some? && row.displayName.None? ==> r.value.fileName == r.value.id + Lookups.GuessExtension(row.mimeType)
    ensures r.Some? ==> r.value.mimeType == row.mimeType.GetOr(Lookups.OctetStream)
    ensures r.Some? ==> (r.value.albumIds.Some? <==> row.bucketId.Some? && o.includeAlbumData)
    ensures r.Some? && r.value.albumIds.Some? ==> r.value.albumIds.value == [row.bucketId.value]
    ensures r.Some? ==> r.value.width == row.width && r.value.height == row.height
    ensures r.Some? ==> (r.value.duration.Some? <==> row.mediaType == Identifiers.MediaTypeVideo && row.duration > 0)
    ensures r.Some? && r.value.duration.Some? ==> r.value.duration.value * 1000.0 == row.duration as real
    ensures r.Some? ==> (r.value.modificationDate.Some? <==> row.dateModified > 0)
    ensures r.Some? && r.value.modificationDate.Some? ==> r.value.modificationDate.value == row.dateModified * 1000
    ensures r.Some? ==> r.value.creationDate == CreationMillis(row)
    ensures r.Some? ==> r.value.thumbnail == (if o.thumbnailWidth > 0 && o.thumbnailHeight > 0 then thumbnail else None)
    ensures r.Some? ==> r.value.file == (if o.includeFullResolutionData then file else None)
    ensures r.Some? ==> r.value.size == Some(row.size) && r.value.latitude.None? && r.value.longitude.None?
  {
    if row.mediaType != Identifiers.MediaTypeImage && row.mediaType != Identifiers.MediaTypeVideo then None
    else
      var identifier := Identifiers.BuildIdentifier(row.mediaType, row.id);
      var duration := if row.mediaType == Identifiers.MediaTypeVideo then row.duration else 0;
      var dateModified := if row.dateModified > 0 then row.dateModified * 1000 else row.dateModified;
      Some(AssetRecord(
        identifier,
        if row.displayName.Some? then row.displayName.value else identifier + Lookups.GuessExtension(row.mimeType),
        Identifiers.AssetType(row.mediaType),
        row.width,
        row.height,
        if duration > 0 then Some(duration as real / 1000.0) else None,
        CreationMillis(row),
        if dateModified > 0 then Some(dateModified) else None,
        None,
        None,
        if row.mimeType.Some? then row.mimeType.value else Lookups.OctetStream,
        if row.bucketId.Some? && o.includeAlbumData then Some([row.bucketId.value]) else None,
        if o.thumbnailWidth > 0 && o.thumbnailHeight > 0 then thumbnail else None,
        if o.includeFullResolutionData then file else None,
        Some(row.size)))
  }

  /** `fetchLibrary`: the selected rows paged by the Android cursor loop. */
  function FetchLibrary(rows: seq<MediaRow>, o: Options.LibraryOptions,
                        thumbnailOf: MediaRow -> Option<FileResult>, fileOf: MediaRow -> Option<FileResult>): (page: Paging.Page<AssetRecord>)
    ensures page.totalCount == |Selected(rows, BuildSelection(o))|
    ensures |page.assets| <= |Paging.Window(Selected(rows, BuildSelection(o)), o.offset, o.limit)|
    ensures o.limit.Some? ==> |page.assets| <= o.limit.value
  {
    Paging.AndroidPage(Selected(rows, BuildSelection(o)), o.offset, o.limit,
                       row => BuildAsset(row, o, thumbnailOf(row), fileOf(row)))
  }

  /** With parsed options every selected row is an image or a video, so
      `buildAsset` keeps every row the query returns. */
  lemma SelectedRowsAreKept(call: Options.CallArgs, rows: seq<MediaRow>,
                            thumbnailOf: MediaRow -> Option<FileResult>, fileOf: MediaRow -> Option<FileResult>)
    requires Options.AndroidLibraryOptions(call).Ok?
    ensures var o := Options.AndroidLibraryOptions(call).value;
      var selected := Selected(rows, BuildSelection(o));
      forall i :: 0 <= i < |selected| ==> BuildAsset(selected[i], o, thumbnailOf(selected[i]), fileOf(selected[i])).Some?
  {
    var o := Options.AndroidLibraryOptions(call).value;
    var selected := Selected(rows, BuildSelection(o));
    forall i | 0 <= i < |selected|
      ensures BuildAsset(selected[i], o, thumbnailOf(selected[i]), fileOf(selected[i])).Some?
    {
      SelectionKeepsRequestedKinds(o, selected[i].mediaType);
    }
  }

  /** When every selected row builds an asset and the limit is absent or
      positive, a library page is the whole window of the selected rows, one
      asset per row in cursor order; the count is every selected row and
      more remain exactly when the window is non-empty and ends before the
      last row. */
  lemma PageOfKeptRows(rows: seq<MediaRow>, o: Options.LibraryOptions,
                       thumbnailOf: MediaRow -> Option<FileResult>, fileOf: MediaRow -> Option<FileResult>)
    requires o.limit.None? || o.limit.value > 0
    requires var selected := Selected(rows, BuildSelection(o));
      forall i :: 0 <= i < |selected| ==> BuildAsset(selected[i], o, thumbnailOf(selected[i]), fileOf(selected[i])).Some?
    ensures var selected := Selected(rows, BuildSelection(o));
      var w := Paging.Window(selected, o.offset, o.limit);
      var page := FetchLibrary(rows, o, thumbnailOf, fileOf);
      && |page.assets| == |w|
      && (forall i :: 0 <= i < |w| ==> Some(page.assets[i]) == BuildAsset(w[i], o, thumbnailOf(w[i]), fileOf(w[i])))
      && page.totalCount == |selected|
      && page.hasMore == (|w| > 0 && o.offset + |w| < |selected|)
  {
    var selected := Selected(rows, BuildSelection(o));
    var w := Paging.Window(selected, o.offset, o.limit);
    var convert := row => BuildAsset(row, o, thumbnailOf(row), fileOf(row));
    assert forall i :: 0 <= i < |w| ==> w[i] == selected[o.offset + i];
    Paging.AndroidPageOfWindow(selected, o.offset, o.limit, convert);
  }

  /** With options from the parser every selected row builds an asset and
      the limit is absent or positive, so the page is the whole window of
      the selected rows. */
  lemma FetchLibraryIsWindow(call: Options.CallArgs, rows: seq<MediaRow>,
                             thumbnailOf: MediaRow -> Option<FileResult>, fileOf: MediaRow -> Option<FileResult>)
    requires Options.AndroidLibraryOptions(call).Ok?
    ensures var o := Options.AndroidLibraryOptions(call).value;
      var selected := Selected(rows, BuildSelection(o));
      var w := Paging.Window(selected, o.offset, o.limit);
      var page := FetchLibrary(rows, o, thumbnailOf, fileOf);
      && |page.assets| == |w|
      && (forall i :: 0 <= i < |w| ==> Some(page.assets[i]) == BuildAsset(w[i], o, thumbnailOf(w[i]), fileOf(w[i])))
      && page.totalCount == |selected|
      && page.hasMore == (|w| > 0 && o.offset + |w| < |selected|)
  {
    SelectedRowsAreKept(call, rows, thumbnailOf, fileOf);
    PageOfKeptRows(rows, Options.AndroidLibraryOptions(call).value, thumbnailOf, fileOf);
  }

  /** The id an asset object carries leads back to its row. */
  lemma AssetIdParsesBack(row: MediaRow, o: Options.LibraryOptions, thumbnail: Option<FileResult>, file: Option<FileResult>)
    requires BuildAsset(row, o, thumbnail, file).Some?
    requires Identifiers.LongMin <= row.id <= Identifiers.LongMax
    ensures Identifiers.ParseIdentifier(Some(BuildAsset(row, o, thumbnail, file).value.id))
         == Some(Identifiers.ParsedIdentifier(row.id, row.mediaType))
  {
    Identifiers.IdentifierRoundTrip(row.mediaType, row.id);
  }

  /** The bucket columns of one row of the image or video table. */
  datatype BucketRow = BucketRow(bucketId: Option<string>, bucketName: Option<string>)

  /** `AlbumAccumulator`: the title taken when the bucket was first seen and
      the number of rows counted so far. */
  datatype Accumulator = Accumulator(title: string, count: nat)

  /** The number of rows among the first `n` in `id`'s bucket. */
  function BucketCount(rows: seq<BucketRow>, n: nat, id: string): nat
    requires n <= |rows|
  {
    if n == 0 then 0
    else BucketCount(rows, n - 1, id) + (if rows[n - 1].bucketId == Some(id) then 1 else 0)
  }

  /** Some row among the first `n` is in `id`'s bucket. */
  predicate InBucket(rows: seq<BucketRow>, n: nat, id: string) {
    exists k :: 0 <= k < n && k < |rows| && rows[k].bucketId == Some(id)
  }

  /** `title` is the title of the first row of `id`'s bucket among the first
      `n`, or "" when that row has no bucket name. */
  predicate FirstTitleIs(rows: seq<BucketRow>, n: nat, id: string, title: string) {
    exists k :: 0 <= k < n && k < |rows| && rows[k].bucketId == Some(id)
      && (forall j :: 0 <= j < k ==> rows[j].bucketId != Some(id))
      && title == rows[k].bucketName.GetOr("")
  }

  /** What `queryAlbums` leaves in the accumulator after the first `n` rows,
      starting from `acc`: a bucket is present when it was before or some row
      names it; its count grows by its rows; a new bucket's title is its first
      row's. Rows without a bucket are skipped. */
  ghost predicate Accumulated(acc: map<string, Accumulator>, rows: seq<BucketRow>, n: nat, out: map<string, Accumulator>)
    requires n <= |rows|
  {
    && (forall id :: id in out <==> id in acc || InBucket(rows, n, id))
    && (forall id :: id in out ==> out[id].count == (if id in acc then acc[id].count else 0) + BucketCount(rows, n, id))
    && (forall id :: id in acc ==> out[id].title == acc[id].title)
    && (forall id :: id in out && id !in acc ==> FirstTitleIs(rows, n, id, out[id].title))
  }

  lemma FirstTitleStep(rows: seq<BucketRow>, n: nat, id: string)
    requires n < |rows|
    requires !InBucket(rows, n, id) && rows[n].bucketId == Some(id)
    ensures FirstTitleIs(rows, n + 1, id, rows[n].bucketName.GetOr(""))
  {
    assert forall j :: 0 <= j < n ==> rows[j].bucketId != Some(id);
  }

  /** One row added to the accumulator: a row without a bucket is skipped; a
      new bucket starts with the row's title (or "") and count 0; the
      bucket's count then goes up by one. */
  function AddRow(out: map<string, Accumulator>, row: BucketRow): map<string, Accumulator> {
    if row.bucketId.None? then out
    else
      var bucket := row.bucketId.value;
      var entry := if bucket in out then out[bucket] else Accumulator(row.bucketName.GetOr(""), 0);
      out[bucket := entry.(count := entry.count + 1)]
  }

  lemma AddRowStep(acc: map<string, Accumulator>, rows: seq<BucketRow>, n: nat, out: map<string, Accumulator>)
    requires n < |rows|
    requires Accumulated(acc, rows, n, out)
    ensures Accumulated(acc, rows, n + 1, AddRow(out, rows[n]))
  {
    var next := AddRow(out, rows[n]);
    forall id ensures id in next <==> id in acc || InBucket(rows, n + 1, id) {
      if rows[n].bucketId == Some(id) {
        assert InBucket(rows, n + 1, id);
      }
      if InBucket(rows, n + 1, id) && !InBucket(rows, n, id) {
        var k :| 0 <= k < n + 1 && k < |rows| && rows[k].bucketId == Some(id);
        assert k == n;
      }
    }
    forall id | id in next
      ensures next[id].count == (if id in acc then acc[id].count else 0) + BucketCount(rows, n + 1, id)
    {
      if id !in out {
        assert !InBucket(rows, n, id);
        AbsentBucketCountsZero(rows, n, id);
      }
    }
    forall id | id in next && id !in acc ensures FirstTitleIs(rows, n + 1, id, next[id].title) {
      if id in out {
        var k :| 0 <= k < n && k < |rows| && rows[k].bucketId == Some(id)
          && (forall j :: 0 <= j < k ==> rows[j].bucketId != Some(id))
          && out[id].title == rows[k].bucketName.GetOr("");
      } else {
        FirstTitleStep(rows, n, id);
      }
    }
  }

  /** `queryAlbums` over one table's rows. */
  method QueryAlbums(acc: map<string, Accumulator>, rows: seq<BucketRow>) returns (out: map<string, Accumulator>)
    ensures Accumulated(acc, rows, |rows|, out)
  {
    out := acc;
    var i := 0;
    while i < |rows|
      invariant 0 <= i <= |rows|
      invariant Accumulated(acc, rows, i, out)
    {
      AddRowStep(acc, rows, i, out);
      out := AddRow(out, rows[i]);
      i := i + 1;
    }
  }

  /** `fetchAlbums`: the image table, then the video table, accumulated into
      one map keyed by bucket id. */
  method FetchAlbums(imageRows: seq<BucketRow>, videoRows: seq<BucketRow>) returns (albums: map<string, AlbumRecord>)
    ensures forall id :: id in albums <==> InBucket(imageRows + videoRows, |imageRows| + |videoRows|, id)
    ensures forall id :: id in albums ==>
      albums[id].id == id && albums[id].assetCount == BucketCount(imageRows, |imageRows|, id) + BucketCount(videoRows, |videoRows|, id)
    ensures forall id :: id in albums ==> FirstTitleIs(imageRows + videoRows, |imageRows| + |videoRows|, id, albums[id].title)
  {
    var afterImages := QueryAlbums(map[], imageRows);
    var acc := QueryAlbums(afterImages, videoRows);
    forall id | id in acc && id !in afterImages ensures acc[id].count == BucketCount(imageRows, |imageRows|, id) + BucketCount(videoRows, |videoRows|, id) {
      AbsentBucketCountsZero(imageRows, |imageRows|, id);
    }
    forall id | id in acc ensures FirstTitleIs(imageRows + videoRows, |imageRows| + |videoRows|, id, acc[id].title) {
      FirstTitleAcross(imageRows, videoRows, id, acc[id].title, id in afterImages);
    }
    forall id ensures InBucket(imageRows + videoRows, |imageRows| + |videoRows|, id) <==> InBucket(imageRows, |imageRows|, id) || InBucket(videoRows, |videoRows|, id) {
      InBucketAcross(imageRows, videoRows, id);
    }
    albums := map id | id in acc :: AlbumRecord(id, acc[id].title, acc[id].count);
  }

  lemma InBucketAcross(a: seq<BucketRow>, b: seq<BucketRow>, id: string)
    ensures InBucket(a + b, |a| + |b|, id) <==> InBucket(a, |a|, id) || InBucket(b, |b|, id)
  {
    if InBucket(a + b, |a| + |b|, id) {
      var k :| 0 <= k < |a| + |b| && (a + b)[k].bucketId == Some(id);
      if k >= |a| {
        assert b[k - |a|].bucketId == Some(id);
      }
    }
    if InBucket(b, |b|, id) {
      var k :| 0 <= k < |b| && b[k].bucketId == Some(id);
      assert (a + b)[|a| + k] == b[k];
    }
    if InBucket(a, |a|, id) {
      var k :| 0 <= k < |a| && a[k].bucketId == Some(id);
      assert (a + b)[k] == a[k];
    }
  }

  /** A bucket no row names has no rows counted. */
  lemma {:induction false} AbsentBucketCountsZero(rows: seq<BucketRow>, n: nat, id: string)
    requires n <= |rows|
    requires !InBucket(rows, n, id)
    ensures BucketCount(rows, n, id) == 0
  {
    if n > 0 {
      AbsentBucketCountsZero(rows, n - 1, id);
    }
  }

  /** The first title over the image rows stays first over both tables; a
      bucket only the video table names takes its first video row's title. */
  lemma FirstTitleAcross(a: seq<BucketRow>, b: seq<BucketRow>, id: string, title: string, inFirst: bool)
    requires inFirst ==> FirstTitleIs(a, |a|, id, title)
    requires !inFirst ==> !InBucket(a, |a|, id) && FirstTitleIs(b, |b|, id, title)
    ensures FirstTitleIs(a + b, |a| + |b|, id, title)
  {
    if inFirst {
      var k :| 0 <= k < |a| && a[k].bucketId == Some(id)
        && (forall j :: 0 <= j < k ==> a[j].bucketId != Some(id)) && title == a[k].bucketName.GetOr("");
      assert (a + b)[k] == a[k];
    } else {
      var k :| 0 <= k < |b| && b[k].bucketId == Some(id)
        && (forall j :: 0 <= j < k ==> b[j].bucketId != Some(id)) && title == b[k].bucketName.GetOr("");
      assert (a + b)[|a| + k] == b[k];
      forall j | 0 <= j < |a| + k ensures (a + b)[j].bucketId != Some(id) {
        if j >= |a| {
          assert (a + b)[j] == b[j - |a|];
        }
      }
    }
  }
}

=== FILE: androidservice.dfy ===
/** The Android `PhotoLibraryService` requests by identifier: `findAsset`
    reads the identifier back and looks its row up in the files table, and
    `getFullResolutionFile` and `getThumbnailFile` answer from the cache or
    produce the file once. The producers (the content resolver's stream, the
    thumbnail loaders, the JPEG encoder) are outcomes handed in as values.
    The requests are modelled on the cache steps as written, and again on
    the corrected steps, which never leave a partial file. */
module AndroidService {
  import opened Results
  import Identifiers
  import CacheNames
  import ArtifactStore
  import AssetRecords
  import Options
  import AndroidLibrary

  /** The two media collections a content URI can point into. */
  datatype Collection = ImagesCollection | VideosCollection

  /** `ContentUris.withAppendedId(collection, id)`. */
  datatype ContentUri = ContentUri(collection: Collection, id: int)

  /** `contentUriFor`: images and videos have a collection, anything else
      has none. */
  function ContentUriFor(mediaType: int, id: int): (uri: Option<ContentUri>)
    ensures uri.Some? <==> mediaType == Identifiers.MediaTypeImage || mediaType == Identifiers.MediaTypeVideo
    ensures uri.Some? ==> uri.value.id == id
    ensures uri.Some? ==> (uri.value.collection == VideosCollection <==> mediaType == Identifiers.MediaTypeVideo)
  {
    if mediaType == Identifiers.MediaTypeImage then Some(ContentUri(ImagesCollection, id))
    else if mediaType == Identifiers.MediaTypeVideo then Some(ContentUri(VideosCollection, id))
    else None
  }

  /** `MediaAsset`: the identifier exactly as the caller wrote it, the URI,
      the media type the identifier names, and the row's MIME type and
      display name. */
  datatype MediaAsset = MediaAsset(identifier: string, uri: ContentUri, mediaType: int,
                                   mimeType: Option<string>, displayName: Option<string>)

  /** The first row of the files table with that `_ID`. */
  function FindRow(rows: seq<AndroidLibrary.MediaRow>, id: int): (r: Option<nat>)
    ensures r.Some? ==> r.value < |rows| && rows[r.value].id == id
    ensures r.Some? ==> forall j :: 0 <= j < r.value ==> rows[j].id != id
    ensures r.None? ==> forall j :: 0 <= j < |rows| ==> rows[j].id != id
  {
    if |rows| == 0 then None
    else if rows[0].id == id then Some(0)
    else
      var r := FindRow(rows[1..], id);
      if r.None? then None else Some(r.value + 1)
  }

  /** `findAsset`: an identifier that does not parse, names no collection, or
      whose id has no row gives nothing. The row is looked up by `_ID` alone,
      so the media type comes from the identifier, not from the row. */
  function FindAsset(rows: seq<AndroidLibrary.MediaRow>, identifier: string): (r: Option<MediaAsset>)
    ensures Identifiers.ParseIdentifier(Some(identifier)).None? ==> r.None?
    ensures var parsed := Identifiers.ParseIdentifier(Some(identifier));
      parsed.Some? ==>
        (r.Some? <==> exists j :: 0 <= j < |rows| && rows[j].id == parsed.value.id)
    ensures r.Some? ==>
      var parsed := Identifiers.ParseIdentifier(Some(identifier)).value;
      var j := FindRow(rows, parsed.id).value;
      r.value == MediaAsset(identifier, ContentUriFor(parsed.mediaType, parsed.id).value, parsed.mediaType,
                            rows[j].mimeType, rows[j].displayName)
  {
    var parsed := Identifiers.ParseIdentifier(Some(identifier));
    if parsed.None? then None
    else
      var uri := ContentUriFor(parsed.value.mediaType, parsed.value.id);
      if uri.None? then None
      else
        var j := FindRow(rows, parsed.value.id);
        if j.None? then None
        else Some(MediaAsset(identifier, uri.value, parsed.value.mediaType, rows[j.value].mimeType, rows[j.value].displayName))
  }

  /** The object returned for a file; a `null` MIME type is carried as none. */
  datatype FileObject = FileObject(path: CacheNames.Path, mimeType: Option<string>, size: int)

  /** A request's answer: a file, `null`, or an `IOException` thrown to the
      plugin (which rejects the call). */
  datatype Response = Found(file: FileObject) | NotFound | Failed

  datatype Answer = Answer(store: ArtifactStore.Store, response: Response)

  function Respond(fill: ArtifactStore.Fill, path: CacheNames.Path, mimeType: Option<string>): (a: Answer)
    ensures a.store == fill.store
    ensures a.response.Found? <==> fill.reply.Served?
    ensures a.response.Found? ==> a.response.file == FileObject(path, mimeType, AssetRecords.AndroidFileLength(fill.store, path))
    ensures a.response.Failed? <==> fill.reply.Raised?
  {
    match fill.reply
    case Served(_) => Answer(fill.store, Found(FileObject(path, mimeType, AssetRecords.AndroidFileLength(fill.store, path))))
    case Missing => Answer(fill.store, NotFound)
    case Raised => Answer(fill.store, Failed)
  }

  /** `getFullResolutionFile`: an unknown asset gives `null`; otherwise the
      file named by the identifier's digest and the guessed extension,
      copied from the resolver's stream on a miss (`copy`). A copy that
      breaks off raises and leaves what it wrote at that name. */
  function GetFullResolutionFile(store: ArtifactStore.Store, rows: seq<AndroidLibrary.MediaRow>, identifier: string,
                                 hash: string -> string, copy: ArtifactStore.Outcome): (a: Answer)
    ensures FindAsset(rows, identifier).None? ==> a == Answer(store, NotFound)
    ensures FindAsset(rows, identifier).Some? ==>
      var asset := FindAsset(rows, identifier).value;
      var path := CacheNames.AndroidFullPath(hash, identifier, asset.mimeType);
      && a.store - {path} == store - {path}
      && (path in store ==> a == Answer(store, Found(FileObject(path, asset.mimeType, |store[path]|))))
      && (path !in store ==> a.store == ArtifactStore.Keep(store, path, copy))
      && (a.response.Found? <==> path in store || copy.Produced?)
      && (a.response.Found? ==> path in a.store && a.response.file == FileObject(path, asset.mimeType, |a.store[path]|))
      && (a.response.Failed? <==> path !in store && (copy.NotOpened? || copy.Refused? || copy.BrokeOff?))
  {
    var asset := FindAsset(rows, identifier);
    if asset.None? then Answer(store, NotFound)
    else
      var path := CacheNames.AndroidFullPath(hash, identifier, asset.value.mimeType);
      Respond(ArtifactStore.AndroidCopyAsWritten(store, path, copy), path, asset.value.mimeType)
  }

  /** `getFullResolutionFile` on the corrected copy step: a request that
      does not succeed leaves no file at the name. */
  function CorrectedFullResolutionFile(store: ArtifactStore.Store, rows: seq<AndroidLibrary.MediaRow>, identifier: string,
                                       hash: string -> string, copy: ArtifactStore.Outcome): (a: Answer)
    ensures FindAsset(rows, identifier).None? ==> a == Answer(store, NotFound)
    ensures FindAsset(rows, identifier).Some? ==>
      var asset := FindAsset(rows, identifier).value;
      var path := CacheNames.AndroidFullPath(hash, identifier, asset.mimeType);
      && a.store - {path} == store - {path}
      && (path in store ==> a == Answer(store, Found(FileObject(path, asset.mimeType, |store[path]|))))
      && (path !in store && copy.Produced? ==> a.store == store[path := copy.data])
      && (a.response.Found? <==> path in store || copy.Produced?)
      && (a.response.Found? ==> path in a.store && a.response.file == FileObject(path, asset.mimeType, |a.store[path]|))
      && (!a.response.Found? ==> path !in a.store)
      && (a.response.Failed? <==> path !in store && (copy.NotOpened? || copy.Refused? || copy.BrokeOff?))
  {
    var asset := FindAsset(rows, identifier);
    if asset.None? then Answer(store, NotFound)
    else
      var path := CacheNames.AndroidFullPath(hash, identifier, asset.value.mimeType);
      Respond(ArtifactStore.AndroidCopy(store, path, copy), path, asset.value.mimeType)
  }

  /** Where a thumbnail bitmap may come from: `loadThumbnail` on Android Q
      and later (an `IOException` there counts as no bitmap), else the legacy
      mini-kind thumbnail of the image or video. */
  datatype ThumbnailSource = ThumbnailSource(atLeastQ: bool, loaded: bool, legacy: bool)

  /** Whether `ensureThumbnail` ends up with a bitmap. The identifier was
      parsed by `findAsset`, so the legacy branch always looks it up. */
  predicate BitmapAvailable(asset: MediaAsset, source: ThumbnailSource) {
    (source.atLeastQ && source.loaded)
      || ((asset.mediaType == Identifiers.MediaTypeImage || asset.mediaType == Identifiers.MediaTypeVideo) && source.legacy)
  }

  /** `getThumbnailFile`: an unknown asset or a non-positive size gives
      `null` and touches nothing; otherwise the thumbnail named by digest,
      size and rounded quality, encoded (`encode`) on a miss when a bitmap is
      available. A refused encoding is served as it was written. */
  function GetThumbnailFile(store: ArtifactStore.Store, rows: seq<AndroidLibrary.MediaRow>, identifier: string,
                            width: int, height: int, quality: real, hash: string -> string,
                            source: ThumbnailSource, encode: ArtifactStore.Outcome): (a: Answer)
    ensures FindAsset(rows, identifier).None? || width <= 0 || height <= 0 ==> a == Answer(store, NotFound)
    ensures FindAsset(rows, identifier).Some? && width > 0 && height > 0 ==>
      var asset := FindAsset(rows, identifier).value;
      var path := CacheNames.AndroidThumbnailPath(hash, identifier, width, height, quality);
      var available := BitmapAvailable(asset, source);
      && a.store - {path} == store - {path}
      && (path in store ==> a == Answer(store, Found(FileObject(path, Some("image/jpeg"), |store[path]|))))
      && (path !in store ==> a.store == if available then ArtifactStore.Keep(store, path, encode) else store)
      && (a.response.Found? <==> path in store || (available && (encode.Produced? || encode.Refused?)))
      && (a.response.Found? ==> path in a.store && a.response.file == FileObject(path, Some("image/jpeg"), |a.store[path]|))
      && (a.response.Failed? <==> path !in store && available && (encode.NotOpened? || encode.BrokeOff?))
  {
    var asset := FindAsset(rows, identifier);
    if asset.None? then Answer(store, NotFound)
    else if width <= 0 || height <= 0 then Answer(store, NotFound)
    else
      var path := CacheNames.AndroidThumbnailPath(hash, identifier, width, height, quality);
      var outcome := if BitmapAvailable(asset.value, source) then encode else ArtifactStore.NothingProduced;
      Respond(ArtifactStore.AndroidCompressAsWritten(store, path, outcome), path, Some("image/jpeg"))
  }

  /** `getThumbnailFile` on the corrected encode step: a refused or broken
      encoding leaves no file at the name. */
  function CorrectedThumbnailFile(store: ArtifactStore.Store, rows: seq<AndroidLibrary.MediaRow>, identifier: string,
                                  width: int, height: int, quality: real, hash: string -> string,
                                  source: ThumbnailSource, encode: ArtifactStore.Outcome): (a: Answer)
    ensures FindAsset(rows, identifier).None? || width <= 0 || height <= 0 ==> a == Answer(store, NotFound)
    ensures FindAsset(rows, identifier).Some? && width > 0 && height > 0 ==>
      var asset := FindAsset(rows, identifier).value;
      var path := CacheNames.AndroidThumbnailPath(hash, identifier, width, height, quality);
      && a.store - {path} == store - {path}
      && (path in store ==> a == Answer(store, Found(FileObject(path, Some("image/jpeg"), |store[path]|))))
      && (path !in store && BitmapAvailable(asset, source) && encode.Produced? ==> a.store == store[path := encode.data])
      && (a.response.Found? <==> path in store || (BitmapAvailable(asset, source) && encode.Produced?))
      && (a.response.Found? ==> path in a.store && a.response.file == FileObject(path, Some("image/jpeg"), |a.store[path]|))
      && (!a.response.Found? ==> path !in a.store)
  {
    var asset := FindAsset(rows, identifier);
    if asset.None? then Answer(store, NotFound)
    else if width <= 0 || height <= 0 then Answer(store, NotFound)
    else
      var path := CacheNames.AndroidThumbnailPath(hash, identifier, width, height, quality);
      var outcome := if BitmapAvailable(asset.value, source) then encode else ArtifactStore.NothingProduced;
      Respond(ArtifactStore.AndroidCompress(store, path, outcome), path, Some("image/jpeg"))
  }

  /** The identifier the library listing reports for a row finds that row
      again, provided no earlier row of the files table has the same `_ID`. */
  lemma ListedIdentifierFindsRow(rows: seq<AndroidLibrary.MediaRow>, k: nat, o: Options.LibraryOptions,
                                 thumbnail: Option<AssetRecords.FileResult>, file: Option<AssetRecords.FileResult>)
    requires k < |rows|
    requires forall j :: 0 <= j < k ==> rows[j].id != rows[k].id
    requires Identifiers.LongMin <= rows[k].id <= Identifiers.LongMax
    requires AndroidLibrary.BuildAsset(rows[k], o, thumbnail, file).Some?
    ensures var id := AndroidLibrary.BuildAsset(rows[k], o, thumbnail, file).value.id;
      FindAsset(rows, id) == Some(MediaAsset(id, ContentUriFor(rows[k].mediaType, rows[k].id).value, rows[k].mediaType,
                                             rows[k].mimeType, rows[k].displayName))
  {
    var id := AndroidLibrary.BuildAsset(rows[k], o, thumbnail, file).value.id;
    Identifiers.IdentifierRoundTrip(rows[k].mediaType, rows[k].id);
    var j := FindRow(rows, rows[k].id);
    assert j.Some? && j.value == k;
  }

  /** A file once found is found again, unchanged, whatever the producers
      would do the second time, and the cache is left alone. */
  lemma FoundFilesAreStable(store: ArtifactStore.Store, rows: seq<AndroidLibrary.MediaRow>, identifier: string,
                            width: int, height: int, quality: real, hash: string -> string,
                            copy: ArtifactStore.Outcome, again: ArtifactStore.Outcome,
                            source: ThumbnailSource, source2: ThumbnailSource, encode: ArtifactStore.Outcome)
    ensures var a := GetFullResolutionFile(store, rows, identifier, hash, copy);
      a.response.Found? ==> GetFullResolutionFile(a.store, rows, identifier, hash, again) == a
    ensures var a := GetThumbnailFile(store, rows, identifier, width, height, quality, hash, source, encode);
      a.response.Found? ==> GetThumbnailFile(a.store, rows, identifier, width, height, quality, hash, source2, again) == a
  {
  }

  /** The same for the corrected requests. */
  lemma CorrectedFoundFilesAreStable(store: ArtifactStore.Store, rows: seq<AndroidLibrary.MediaRow>, identifier: string,
                                     width: int, height: int, quality: real, hash: string -> string,
                                     copy: ArtifactStore.Outcome, again: ArtifactStore.Outcome,
                                     source: ThumbnailSource, source2: ThumbnailSource, encode: ArtifactStore.Outcome)
    ensures var a := CorrectedFullResolutionFile(store, rows, identifier, hash, copy);
      a.response.Found? ==> CorrectedFullResolutionFile(a.store, rows, identifier, hash, again) == a
    ensures var a := CorrectedThumbnailFile(store, rows, identifier, width, height, quality, hash, source, encode);
      a.response.Found? ==> CorrectedThumbnailFile(a.store, rows, identifier, width, height, quality, hash, source2, again) == a
  {
  }

  /** As written, a copy that breaks off after writing `partial` fails the
      request, and every later request for the asset is answered with the
      truncated file, whatever the stream would give then. */
  lemma BrokenCopyIsServedLater(store: ArtifactStore.Store, rows: seq<AndroidLibrary.MediaRow>, identifier: string,
                                hash: string -> string, partial: ArtifactStore.Bytes, again: ArtifactStore.Outcome)
    requires FindAsset(rows, identifier).Some?
    requires CacheNames.AndroidFullPath(hash, identifier, FindAsset(rows, identifier).value.mimeType) !in store
    ensures var a := GetFullResolutionFile(store, rows, identifier, hash, ArtifactStore.BrokeOff(partial));
      var b := GetFullResolutionFile(a.store, rows, identifier, hash, again);
      a.response.Failed? && b.response.Found? && b.response.file.size == |partial| && b.store == a.store
  {
  }

  /** As written, an encoder that refuses after writing `partial` has that
      file served as the thumbnail, at once and on every later request. */
  lemma RefusedThumbnailIsServed(store: ArtifactStore.Store, rows: seq<AndroidLibrary.MediaRow>, identifier: string,
                                 width: int, height: int, quality: real, hash: string -> string,
                                 source: ThumbnailSource, source2: ThumbnailSource, partial: ArtifactStore.Bytes,
                                 again: ArtifactStore.Outcome)
    requires FindAsset(rows, identifier).Some? && width > 0 && height > 0
    requires BitmapAvailable(FindAsset(rows, identifier).value, source)
    requires CacheNames.AndroidThumbnailPath(hash, identifier, width, height, quality) !in store
    ensures var a := GetThumbnailFile(store, rows, identifier, width, height, quality, hash, source, ArtifactStore.Refused(partial));
      && a.response.Found? && a.response.file.size == |partial|
      && GetThumbnailFile(a.store, rows, identifier, width, height, quality, hash, source2, again) == a
  {
  }

  /** With the corrected steps a request that did not succeed leaves the
      cache with no file at its name, so a later request starts over from
      the producer. */
  lemma FailuresAreRetried(store: ArtifactStore.Store, rows: seq<AndroidLibrary.MediaRow>, identifier: string,
                           hash: string -> string, failed: ArtifactStore.Outcome, full: ArtifactStore.Bytes)
    requires FindAsset(rows, identifier).Some?
    requires !CorrectedFullResolutionFile(store, rows, identifier, hash, failed).response.Found?
    ensures var a := CorrectedFullResolutionFile(store, rows, identifier, hash, failed);
      var b := CorrectedFullResolutionFile(a.store, rows, identifier, hash, ArtifactStore.Produced(full));
      b.response.Found? && b.response.file.size == |full|
  {
  }
}

=== FILE: artifactstore.dfy ===
/** The cache directories as a store of files, and the fetch-or-produce step
    every cached artifact goes through: if the file is already there it is
    returned as it is and the producer never runs; otherwise the producer
    (a PhotoKit export, an image render, a content-resolver copy, a bitmap
    encode) runs once and its outcome decides what is left on disk and what
    the caller gets.

    The platforms differ on failure. iOS writes thumbnails atomically and
    deletes a half-exported full-resolution file, so a failure leaves
    nothing behind. Android opens the target file before copying or
    encoding, so a failure part-way leaves a partial file at the canonical
    name, and the next request takes it for a finished artifact. The Android
    requests are modelled on both steps: once on the code as written and
    once on the corrected step. */
module ArtifactStore {
  import opened CacheNames
  import opened Results

  type Bytes = seq<bv8>

  /** The files in the two cache directories. */
  type Store = map<Path, Bytes>

  /** What the producer did when it ran. A copy has no encoder to refuse;
      for it `Refused` reads as `BrokeOff`. */
  datatype Outcome =
    | Produced(data: Bytes)      // the whole artifact was produced and written
    | NothingProduced            // no source (no stream, no image): nothing was opened
    | NotOpened                  // an I/O error before the target was opened
    | Refused(partial: Bytes)    // the encoder reported failure after writing `partial`
    | BrokeOff(partial: Bytes)   // an I/O error after `partial` had been written

  /** What the producer left in the target file, if it opened one. */
  function Written(outcome: Outcome): (w: Option<Bytes>)
    ensures w.None? <==> outcome.NothingProduced? || outcome.NotOpened?
    ensures outcome.Produced? ==> w == Some(outcome.data)
    ensures outcome.Refused? || outcome.BrokeOff? ==> w == Some(outcome.partial)
  {
    match outcome
    case Produced(data) => Some(data)
    case Refused(partial) => Some(partial)
    case BrokeOff(partial) => Some(partial)
    case _ => None
  }

  /** The store after a producer wrote into `path`: whatever it wrote stays. */
  function Keep(store: Store, path: Path, outcome: Outcome): Store {
    if Written(outcome).Some? then store[path := Written(outcome).value] else store
  }

  /** What the caller receives: a file, `nil`/`null`, or a thrown `IOException`. */
  datatype Reply = Served(path: Path) | Missing | Raised

  datatype Fill = Fill(store: Store, reply: Reply)

  /** The outcome delivers `full` whenever it claims success. */
  predicate Delivers(outcome: Outcome, full: Bytes) {
    outcome.Produced? ==> outcome.data == full
  }

  /** Every file in the store holds the complete artifact for its name. */
  ghost predicate Complete(store: Store, contents: Path -> Bytes) {
    forall p :: p in store ==> store[p] == contents(p)
  }

  /** iOS `fullResolutionFile`: on a miss `writeData` exports the resource; on
      an error the file is removed and `nil` returned. */
  function IosExport(store: Store, path: Path, outcome: Outcome): (f: Fill)
    ensures path in store ==> f == Fill(store, Served(path))
    ensures f.store - {path} == store - {path}
    ensures f.reply.Served? <==> path in store || outcome.Produced?
    ensures f.reply.Served? ==> f.reply.path == path && path in f.store
    ensures !f.reply.Served? ==> f.reply == Missing && path !in f.store
    ensures path !in store && outcome.Produced? ==> f.store == store[path := outcome.data]
  {
    if path in store then Fill(store, Served(path))
    else match outcome
      case Produced(data) => Fill(store[path := data], Served(path))
      case _ => Fill(store - {path}, Missing)
  }

  /** iOS `thumbnailFile` and `thumbnailForPickedItem`: on a miss the image is
      rendered and written atomically; no image or a failed write gives `nil`
      and leaves nothing behind. */
  function IosRender(store: Store, path: Path, outcome: Outcome): (f: Fill)
    ensures path in store ==> f == Fill(store, Served(path))
    ensures f.store - {path} == store - {path}
    ensures f.reply.Served? <==> path in store || outcome.Produced?
    ensures f.reply.Served? ==> f.reply.path == path && path in f.store
    ensures !f.reply.Served? ==> f == Fill(store, Missing)
    ensures path !in store && outcome.Produced? ==> f.store == store[path := outcome.data]
  {
    if path in store then Fill(store, Served(path))
    else IosWrite(store, path, outcome)
  }

  /** iOS `createThumbnail`: renders and writes atomically without looking for
      an existing file, replacing it on success. */
  function IosWrite(store: Store, path: Path, outcome: Outcome): (f: Fill)
    ensures f.store - {path} == store - {path}
    ensures f.reply.Served? <==> outcome.Produced?
    ensures outcome.Produced? ==> f == Fill(store[path := outcome.data], Served(path))
    ensures !outcome.Produced? ==> f == Fill(store, Missing)
  {
    match outcome
    case Produced(data) => Fill(store[path := data], Served(path))
    case _ => Fill(store, Missing)
  }

  /** iOS `createAssetFromPickedVideo`: an existing file is removed and the
      picked movie copied in its place; a failed copy leaves no file. */
  function IosReplace(store: Store, path: Path, outcome: Outcome): (f: Fill)
    ensures f.store - {path} == store - {path}
    ensures f.reply.Served? <==> outcome.Produced?
    ensures outcome.Produced? ==> f == Fill(store[path := outcome.data], Served(path))
    ensures !outcome.Produced? ==> f == Fill(store - {path}, Missing)
  {
    match outcome
    case Produced(data) => Fill(store[path := data], Served(path))
    case _ => Fill(store - {path}, Missing)
  }

  /** Android `ensureFullFile` as written: a `null` stream returns `null`
      before the target is opened, and `openInputStream` or the
      `FileOutputStream` constructor throwing raises before anything is
      created; otherwise the stream is copied into the opened target, and an
      error part-way propagates with the partial file left in place. */
  function AndroidCopyAsWritten(store: Store, path: Path, outcome: Outcome): (f: Fill)
    ensures path in store ==> f == Fill(store, Served(path))
    ensures path !in store ==> f.store == Keep(store, path, outcome)
    ensures f.reply.Served? <==> path in store || outcome.Produced?
    ensures f.reply.Served? ==> f.reply.path == path && path in f.store
    ensures f.reply == Missing <==> path !in store && outcome.NothingProduced?
    ensures f.reply == Raised <==> path !in store && (outcome.NotOpened? || outcome.Refused? || outcome.BrokeOff?)
  {
    if path in store then Fill(store, Served(path))
    else match outcome
      case Produced(data) => Fill(store[path := data], Served(path))
      case NothingProduced => Fill(store, Missing)
      case NotOpened => Fill(store, Raised)
      case Refused(partial) => Fill(store[path := partial], Raised)
      case BrokeOff(partial) => Fill(store[path := partial], Raised)
  }

  /** Android `ensureThumbnail` as written: no bitmap returns `null`; otherwise
      the target is opened and `compress` writes into it. Its `false` result
      is ignored, so the file is returned whatever was written, and an
      exception propagates with the partial file left in place; one from the
      `FileOutputStream` constructor leaves no file. */
  function AndroidCompressAsWritten(store: Store, path: Path, outcome: Outcome): (f: Fill)
    ensures path in store ==> f == Fill(store, Served(path))
    ensures path !in store ==> f.store == Keep(store, path, outcome)
    ensures f.reply.Served? <==> path in store || outcome.Produced? || outcome.Refused?
    ensures f.reply.Served? ==> f.reply.path == path && path in f.store
    ensures f.reply == Missing <==> path !in store && outcome.NothingProduced?
    ensures f.reply == Raised <==> path !in store && (outcome.NotOpened? || outcome.BrokeOff?)
  {
    if path in store then Fill(store, Served(path))
    else match outcome
      case Produced(data) => Fill(store[path := data], Served(path))
      case NothingProduced => Fill(store, Missing)
      case NotOpened => Fill(store, Raised)
      case Refused(partial) => Fill(store[path := partial], Served(path))
      case BrokeOff(partial) => Fill(store[path := partial], Raised)
  }

  /** As written, a miss leaves in the store exactly what the producer wrote,
      so a file exists afterwards whenever the target was opened, whether
      or not the request succeeded. */
  lemma AsWrittenKeepsWhatWasWritten(store: Store, path: Path, outcome: Outcome)
    requires path !in store
    ensures var f := AndroidCopyAsWritten(store, path, outcome);
      && f.store - {path} == store - {path}
      && (path in f.store <==> Written(outcome).Some?)
      && (path in f.store ==> f.store[path] == Written(outcome).value)
    ensures var f := AndroidCompressAsWritten(store, path, outcome);
      && f.store - {path} == store - {path}
      && (path in f.store <==> Written(outcome).Some?)
      && (path in f.store ==> f.store[path] == Written(outcome).value)
  {
    assert Keep(store, path, outcome) - {path} == store - {path};
  }

  /** `ensureFullFile` corrected: a failed copy deletes the partial file before
      the error propagates. */
  function AndroidCopy(store: Store, path: Path, outcome: Outcome): (f: Fill)
    ensures path in store ==> f == Fill(store, Served(path))
    ensures f.store - {path} == store - {path}
    ensures f.reply.Served? <==> path in store || outcome.Produced?
    ensures f.reply.Served? ==> f.reply.path == path && path in f.store
    ensures path !in store && outcome.Produced? ==> f.store == store[path := outcome.data]
    ensures !f.reply.Served? ==> path !in f.store && (f.reply == Missing <==> outcome.NothingProduced?)
  {
    if path in store then Fill(store, Served(path))
    else match outcome
      case Produced(data) => Fill(store[path := data], Served(path))
      case NothingProduced => Fill(store, Missing)
      case NotOpened => Fill(store, Raised)
      case Refused(_) => Fill(store - {path}, Raised)
      case BrokeOff(_) => Fill(store - {path}, Raised)
  }

  /** `ensureThumbnail` corrected: a `false` from `compress` deletes the file
      and returns `null`; an exception deletes it before propagating. */
  function AndroidCompress(store: Store, path: Path, outcome: Outcome): (f: Fill)
    ensures path in store ==> f == Fill(store, Served(path))
    ensures f.store - {path} == store - {path}
    ensures f.reply.Served? <==> path in store || outcome.Produced?
    ensures f.reply.Served? ==> f.reply.path == path && path in f.store
    ensures path !in store && outcome.Produced? ==> f.store == store[path := outcome.data]
    ensures !f.reply.Served? ==> path !in f.store && (f.reply == Raised <==> outcome.BrokeOff? || outcome.NotOpened?)
  {
    if path in store then Fill(store, Served(path))
    else match outcome
      case Produced(data) => Fill(store[path := data], Served(path))
      case NothingProduced => Fill(store, Missing)
      case NotOpened => Fill(store, Raised)
      case Refused(_) => Fill(store - {path}, Missing)
      case BrokeOff(_) => Fill(store - {path}, Raised)
  }

  /** Once a file has been served, asking again serves the same file, leaves
      the store alone and never consults the producer. */
  lemma ServedIsStable(store: Store, path: Path, first: Outcome, again: Outcome)
    ensures var f := IosExport(store, path, first);
      f.reply.Served? ==> IosExport(f.store, path, again) == f
    ensures var f := IosRender(store, path, first);
      f.reply.Served? ==> IosRender(f.store, path, again) == f
    ensures var f := AndroidCopy(store, path, first);
      f.reply.Served? ==> AndroidCopy(f.store, path, again) == f
    ensures var f := AndroidCompress(store, path, first);
      f.reply.Served? ==> AndroidCompress(f.store, path, again) == f
  {
  }

  /** The iOS steps and the corrected Android steps keep every cached file
      complete: if the store held only complete artifacts and the producer
      delivers the complete artifact when it succeeds, the same holds after
      the step, and a served file is complete. */
  lemma CompletenessPreserved(store: Store, path: Path, outcome: Outcome, contents: Path -> Bytes)
    requires Complete(store, contents)
    requires Delivers(outcome, contents(path))
    ensures Complete(IosExport(store, path, outcome).store, contents)
    ensures Complete(IosRender(store, path, outcome).store, contents)
    ensures Complete(IosWrite(store, path, outcome).store, contents)
    ensures Complete(IosReplace(store, path, outcome).store, contents)
    ensures Complete(AndroidCopy(store, path, outcome).store, contents)
    ensures Complete(AndroidCompress(store, path, outcome).store, contents)
  {
    var fills := [IosExport(store, path, outcome), IosRender(store, path, outcome), IosWrite(store, path, outcome),
                  IosReplace(store, path, outcome),
                  AndroidCopy(store, path, outcome), AndroidCompress(store, path, outcome)];
    forall i | 0 <= i < |fills|
      ensures Complete(fills[i].store, contents)
    {
      var s := fills[i].store;
      forall p | p in s ensures s[p] == contents(p) {
        if p != path {
          assert p in s - {path};
          assert p in store;
        }
      }
    }
    assert fills[0].store == IosExport(store, path, outcome).store;
  }

  /** `ensureFullFile` as written: a copy that breaks off after writing some
      bytes raises an error, and the next request serves the truncated file
      without reading the source again. */
  lemma AndroidCopyAsWrittenServesPartial(path: Path, full: Bytes, partial: Bytes, again: Outcome)
    requires partial != full
    ensures var first := AndroidCopyAsWritten(map[], path, BrokeOff(partial));
      var second := AndroidCopyAsWritten(first.store, path, again);
      first.reply == Raised && second.reply == Served(path) && second.store[path] == partial
    ensures !Complete(AndroidCopyAsWritten(map[], path, BrokeOff(partial)).store, _ => full)
  {
    var s := AndroidCopyAsWritten(map[], path, BrokeOff(partial)).store;
    assert path in s && s[path] != full;
  }

  /** `ensureThumbnail` as written: an encoder that refuses after writing a
      few bytes (or none) still has its file served, at once and on every
      later request. */
  lemma AndroidCompressAsWrittenServesRefused(path: Path, full: Bytes, partial: Bytes, again: Outcome)
    requires partial != full
    ensures var first := AndroidCompressAsWritten(map[], path, Refused(partial));
      var second := AndroidCompressAsWritten(first.store, path, again);
      first.reply == Served(path) && first.store[path] == partial && second == first
    ensures !Complete(AndroidCompressAsWritten(map[], path, Refused(partial)).store, _ => full)
  {
    var s := AndroidCompressAsWritten(map[], path, Refused(partial)).store;
    assert path in s && s[path] != full;
  }

  /** With the corrections a failed attempt leaves nothing behind, so the
      next attempt that succeeds serves the complete artifact. */
  lemma CorrectedStepsRetry(store: Store, path: Path, failed: Outcome, full: Bytes)
    requires path !in store
    requires !failed.Produced?
    ensures var first := AndroidCopy(store, path, failed);
      first.store == store && AndroidCopy(first.store, path, Produced(full)) == Fill(store[path := full], Served(path))
    ensures var first := AndroidCompress(store, path, failed);
      first.store == store && AndroidCompress(first.store, path, Produced(full)) == Fill(store[path := full], Served(path))
  {
    assert store - {path} == store;
  }

  /** The corrected steps agree with the code as written exactly when the
      file was there already, or the producer succeeded, produced nothing,
      or failed before opening the target: they differ only on failures that
      had already written something. */
  lemma CorrectionsOnlyTouchFailures(store: Store, path: Path, outcome: Outcome)
    ensures AndroidCopy(store, path, outcome) == AndroidCopyAsWritten(store, path, outcome)
      <==> path in store || outcome.Produced? || Written(outcome).None?
    ensures AndroidCompress(store, path, outcome) == AndroidCompressAsWritten(store, path, outcome)
      <==> path in store || outcome.Produced? || Written(outcome).None?
  {
    if path !in store && !outcome.Produced? && Written(outcome).Some? {
      assert path !in AndroidCopy(store, path, outcome).store;
      assert path in AndroidCopyAsWritten(store, path, outcome).store;
      assert path !in AndroidCompress(store, path, outcome).store;
      assert path in AndroidCompressAsWritten(store, path, outcome).store;
    }
  }
}

=== FILE: assetrecords.dfy ===
/** The records both platforms hand back to the client, and their rendering
    as a dictionary (`toDictionary` on iOS, the `JSObject` built field by
    field on Android): required keys are always present, each optional key is
    present exactly when its value is. */
module AssetRecords {
  import opened Results
  import opened CacheNames
  import ArtifactStore

  /** A cached file as reported: where it is, its MIME type and its size. */
  datatype FileResult = FileResult(path: Path, mimeType: string, size: int)

  /** One asset as reported. Dates are milliseconds since the epoch; `size`
      is reported by Android only, latitude and longitude by iOS only. */
  datatype AssetRecord = AssetRecord(
    id: string,
    fileName: string,
    kind: string,
    width: int,
    height: int,
    duration: Option<real>,
    creationDate: Option<int>,
    modificationDate: Option<int>,
    latitude: Option<real>,
    longitude: Option<real>,
    mimeType: string,
    albumIds: Option<seq<string>>,
    thumbnail: Option<FileResult>,
    file: Option<FileResult>,
    size: Option<int>)

  /** A cache after an artifact request, and the file it answered with. */
  datatype Fetched = Fetched(store: ArtifactStore.Store, file: Option<FileResult>)

  datatype AlbumRecord = AlbumRecord(id: string, title: string, assetCount: int)

  /** iOS `fileSize(at:)`: the byte count, or -1 when the file is missing. */
  function IosFileSize(store: ArtifactStore.Store, path: Path): (size: int)
    ensures size == -1 <==> path !in store
    ensures path in store ==> size == |store[path]|
  {
    if path in store then |store[path]| else -1
  }

  /** Android `File.length()`: the byte count, or 0 when the file is missing. */
  function AndroidFileLength(store: ArtifactStore.Store, path: Path): (size: int)
    ensures size >= 0
    ensures path in store ==> size == |store[path]|
    ensures path !in store ==> size == 0
  {
    if path in store then |store[path]| else 0
  }

  /** A JSON-like value as the bridge carries it. */
  datatype Json =
    | JString(text: string)
    | JInt(number: int)
    | JReal(value: real)
    | JArray(items: seq<Json>)
    | JObject(fields: map<string, Json>)

  /** Where a cached file lives as the client sees it: `url.path` and the web
      path the bridge resolves (or `absoluteString` without a resolver). The
      conversion is the platform's and is handed in to `FileDictionary`. */
  datatype FileLocation = FileLocation(path: string, webPath: string)

  const FileKeys: set<string> := {"path", "webPath", "mimeType", "size"}

  /** `PhotoLibraryFileResult.toDictionary`. */
  function FileDictionary(f: FileResult, locate: Path -> FileLocation): (d: map<string, Json>)
    ensures d.Keys == FileKeys
    ensures d["mimeType"] == JString(f.mimeType) && d["size"] == JInt(f.size)
    ensures d["path"] == JString(locate(f.path).path) && d["webPath"] == JString(locate(f.path).webPath)
  {
    map["path" := JString(locate(f.path).path),
        "webPath" := JString(locate(f.path).webPath),
        "mimeType" := JString(f.mimeType),
        "size" := JInt(f.size)]
  }

  function StringsJson(ids: seq<string>): (j: seq<Json>)
    ensures |j| == |ids|
    ensures forall i :: 0 <= i < |ids| ==> j[i] == JString(ids[i])
  {
    seq(|ids|, i requires 0 <= i < |ids| => JString(ids[i]))
  }

  /** The keys of an asset dictionary. */
  datatype AssetKey =
    | IdKey | FileNameKey | TypeKey | WidthKey | HeightKey | MimeTypeKey
    | DurationKey | CreationDateKey | ModificationDateKey | LatitudeKey | LongitudeKey
    | AlbumIdsKey | ThumbnailKey | FileKey | SizeKey

  const AllAssetKeys: set<AssetKey> := {IdKey, FileNameKey, TypeKey, WidthKey, HeightKey, MimeTypeKey,
    DurationKey, CreationDateKey, ModificationDateKey, LatitudeKey, LongitudeKey,
    AlbumIdsKey, ThumbnailKey, FileKey, SizeKey}

  /** The key as the client reads it. */
  function KeyName(k: AssetKey): string {
    match k
    case IdKey => "id"
    case FileNameKey => "fileName"
    case TypeKey => "type"
    case WidthKey => "width"
    case HeightKey => "height"
    case MimeTypeKey => "mimeType"
    case DurationKey => "duration"
    case CreationDateKey => "creationDate"
    case ModificationDateKey => "modificationDate"
    case LatitudeKey => "latitude"
    case LongitudeKey => "longitude"
    case AlbumIdsKey => "albumIds"
    case ThumbnailKey => "thumbnail"
    case FileKey => "file"
    case SizeKey => "size"
  }

  /** The six keys every asset carries. */
  predicate Required(k: AssetKey) {
    k in {IdKey, FileNameKey, TypeKey, WidthKey, HeightKey, MimeTypeKey}
  }

  /** Whether the record has a value for an optional key. */
  predicate Filled(a: AssetRecord, k: AssetKey) {
    match k
    case DurationKey => a.duration.Some?
    case CreationDateKey => a.creationDate.Some?
    case ModificationDateKey => a.modificationDate.Some?
    case LatitudeKey => a.latitude.Some?
    case LongitudeKey => a.longitude.Some?
    case AlbumIdsKey => a.albumIds.Some?
    case ThumbnailKey => a.thumbnail.Some?
    case FileKey => a.file.Some?
    case SizeKey => a.size.Some?
    case _ => false
  }

  /** The value stored under one key, if any. */
  function AssetField(a: AssetRecord, locate: Path -> FileLocation, k: AssetKey): Option<Json> {
    match k
    case IdKey => Some(JString(a.id))
    case FileNameKey => Some(JString(a.fileName))
    case TypeKey => Some(JString(a.kind))
    case WidthKey => Some(JInt(a.width))
    case HeightKey => Some(JInt(a.height))
    case MimeTypeKey => Some(JString(a.mimeType))
    case DurationKey => if a.duration.Some? then Some(JReal(a.duration.value)) else None
    case CreationDateKey => if a.creationDate.Some? then Some(JInt(a.creationDate.value)) else None
    case ModificationDateKey => if a.modificationDate.Some? then Some(JInt(a.modificationDate.value)) else None
    case LatitudeKey => if a.latitude.Some? then Some(JReal(a.latitude.value)) else None
    case LongitudeKey => if a.longitude.Some? then Some(JReal(a.longitude.value)) else None
    case AlbumIdsKey => if a.albumIds.Some? then Some(JArray(StringsJson(a.albumIds.value))) else None
    case ThumbnailKey => if a.thumbnail.Some? then Some(JObject(FileDictionary(a.thumbnail.value, locate))) else None
    case FileKey => if a.file.Some? then Some(JObject(FileDictionary(a.file.value, locate))) else None
    case SizeKey => if a.size.Some? then Some(JInt(a.size.value)) else None
  }

  /** `PhotoLibraryAssetResult.toDictionary` (and the Android `buildAsset`
      object), keyed by `KeyName`: the six required keys, then each optional
      key that has a value. Dates are carried as numbers; their ISO-8601 text
      is not modelled. */
  function AssetDictionary(a: AssetRecord, locate: Path -> FileLocation): (d: map<AssetKey, Json>)
    ensures forall k :: k in d <==> Required(k) || Filled(a, k)
    ensures forall k :: k in d ==> AssetField(a, locate, k) == Some(d[k])
  {
    map k | k in AllAssetKeys && AssetField(a, locate, k).Some? :: AssetField(a, locate, k).value
  }

  /** Distinct keys have distinct names. */
  lemma KeyNamesDistinct(j: AssetKey, k: AssetKey)
    requires KeyName(j) == KeyName(k)
    ensures j == k
  {
  }

  /** `PhotoLibraryAlbumResult.toDictionary`. */
  function AlbumDictionary(album: AlbumRecord): (d: map<string, Json>)
    ensures d.Keys == {"id", "title", "assetCount"}
    ensures d["id"] == JString(album.id) && d["title"] == JString(album.title) && d["assetCount"] == JInt(album.assetCount)
  {
    map["id" := JString(album.id), "title" := JString(album.title), "assetCount" := JInt(album.assetCount)]
  }

  /** Equal dictionaries hold equal fields. */
  lemma SameDictionarySameFields(a: AssetRecord, b: AssetRecord, locate: Path -> FileLocation, k: AssetKey)
    requires AssetDictionary(a, locate) == AssetDictionary(b, locate)
    ensures AssetField(a, locate, k) == AssetField(b, locate, k)
  {
    var d := AssetDictionary(a, locate);
    if AssetField(a, locate, k).Some? || AssetField(b, locate, k).Some? {
      assert k in AllAssetKeys;
    }
  }

  /** Nothing is lost in the rendering: when distinct files are shown at
      distinct locations, distinct records give distinct dictionaries. */
  lemma AssetDictionaryInjective(a: AssetRecord, b: AssetRecord, locate: Path -> FileLocation)
    requires forall p, q :: locate(p) == locate(q) ==> p == q
    requires AssetDictionary(a, locate) == AssetDictionary(b, locate)
    ensures a == b
  {
    ScalarFieldsAgree(a, b, locate);
    assert a.albumIds == b.albumIds by {
      SameDictionarySameFields(a, b, locate, AlbumIdsKey);
      if a.albumIds.Some? {
        var x, y := a.albumIds.value, b.albumIds.value;
        assert StringsJson(x) == StringsJson(y);
        assert |x| == |StringsJson(x)| == |y|;
        forall i | 0 <= i < |x| ensures x[i] == y[i] {
          assert StringsJson(x)[i] == StringsJson(y)[i];
        }
        assert x == y;
      }
    }
    assert a.thumbnail == b.thumbnail by {
      SameDictionarySameFields(a, b, locate, ThumbnailKey);
      if a.thumbnail.Some? {
        FileDictionaryInjective(a.thumbnail.value, b.thumbnail.value, locate);
      }
    }
    assert a.file == b.file by {
      SameDictionarySameFields(a, b, locate, FileKey);
      if a.file.Some? {
        FileDictionaryInjective(a.file.value, b.file.value, locate);
      }
    }
  }

  /** Equal dictionaries agree on every field held as a plain value. */
  lemma ScalarFieldsAgree(a: AssetRecord, b: AssetRecord, locate: Path -> FileLocation)
    requires AssetDictionary(a, locate) == AssetDictionary(b, locate)
    ensures a.id == b.id && a.fileName == b.fileName && a.kind == b.kind
    ensures a.width == b.width && a.height == b.height && a.mimeType == b.mimeType
    ensures a.duration == b.duration && a.creationDate == b.creationDate && a.modificationDate == b.modificationDate
    ensures a.latitude == b.latitude && a.longitude == b.longitude && a.size == b.size
  {
    SameDictionarySameFields(a, b, locate, IdKey);
    SameDictionarySameFields(a, b, locate, FileNameKey);
    SameDictionarySameFields(a, b, locate, TypeKey);
    SameDictionarySameFields(a, b, locate, WidthKey);
    SameDictionarySameFields(a, b, locate, HeightKey);
    SameDictionarySameFields(a, b, locate, MimeTypeKey);
    SameDictionarySameFields(a, b, locate, DurationKey);
    SameDictionarySameFields(a, b, locate, CreationDateKey);
    SameDictionarySameFields(a, b, locate, ModificationDateKey);
    SameDictionarySameFields(a, b, locate, LatitudeKey);
    SameDictionarySameFields(a, b, locate, LongitudeKey);
    SameDictionarySameFields(a, b, locate, SizeKey);
  }

  lemma FileDictionaryInjective(f: FileResult, g: FileResult, locate: Path -> FileLocation)
    requires forall p, q :: locate(p) == locate(q) ==> p == q
    requires FileDictionary(f, locate) == FileDictionary(g, locate)
    ensures f == g
  {
    var d := FileDictionary(f, locate);
    assert locate(f.path) == FileLocation(d["path"].text, d["webPath"].text) == locate(g.path);
  }
}

=== FILE: cachenames.dfy ===
/** Names of the cached artifacts. Both platforms keep two directories under
    their cache root (`CapPhotoLibrary` on iOS, `photoLibrary` on Android):
    `thumbnails`, holding `<digest>_<W>x<H>_q<P>.jpg`, and `files`, holding
    `<digest>.<ext>` (iOS) or `<digest><guessed extension>` (Android). The
    digest is the SHA-256 of the asset identifier in lower-case hex; the model
    takes the hash as a parameter and asks only that it print 64 hex digits. */
module CacheNames {
  import opened Results
  import Text
  import Lookups

  const IosCacheRoot: string := "CapPhotoLibrary"
  const AndroidCacheRoot: string := "photoLibrary"

  datatype Directory = Thumbnails | Files

  function DirectoryName(d: Directory): string {
    match d
    case Thumbnails => "thumbnails"
    case Files => "files"
  }

  /** A cache entry: a file name inside one of the two directories. */
  datatype Path = Path(directory: Directory, name: string)

  const HexDigits: string := "0123456789abcdef"

  /** What `hashedIdentifier` and `hashed` print: 32 bytes as `%02x`. */
  predicate IsHexDigest(h: string) {
    |h| == 64 && forall i :: 0 <= i < |h| ==> h[i] in HexDigits
  }

  /** A hash that, like SHA-256 printed in hex, always yields 64 hex digits. */
  ghost predicate IsDigestFunction(hash: string -> string) {
    forall s :: IsHexDigest(hash(s))
  }

  /** The part of a thumbnail name after the digest: `_<W>x<H>_q<P>.jpg`. */
  function ThumbnailSuffix(width: int, height: int, percent: int): string {
    "_" + (Text.IntToDecimal(width) + ("x" + (Text.IntToDecimal(height) + ("_q" + (Text.IntToDecimal(percent) + ".jpg")))))
  }

  /** `%@_%dx%d_q%.0f.jpg` (iOS) and `%s_%dx%d_q%d.jpg` (Android), once the
      quality has been turned into a whole percent. */
  function ThumbnailName(digest: string, width: int, height: int, percent: int): string {
    digest + ThumbnailSuffix(width, height, percent)
  }

  /** A decimal number followed by a character that is neither a digit nor a
      minus can be read off uniquely. */
  lemma SplitDecimal(a: int, b: int, rest1: string, rest2: string, c: char)
    requires !Text.IsDigit(c) && c != '-'
    requires Text.IntToDecimal(a) + ([c] + rest1) == Text.IntToDecimal(b) + ([c] + rest2)
    ensures a == b && rest1 == rest2
  {
    var A, B := Text.IntToDecimal(a), Text.IntToDecimal(b);
    assert A + ([c] + rest1) == A + [c] + rest1;
    assert B + ([c] + rest2) == B + [c] + rest2;
    Text.SplitAtSeparator(A, rest1, B, rest2, c);
    Text.IntToDecimalInjective(a, b);
  }

  /** The suffix determines width, height and percent. */
  lemma ThumbnailSuffixInjective(w1: int, h1: int, p1: int, w2: int, h2: int, p2: int)
    requires ThumbnailSuffix(w1, h1, p1) == ThumbnailSuffix(w2, h2, p2)
    ensures w1 == w2 && h1 == h2 && p1 == p2
  {
    var rest1 := Text.IntToDecimal(h1) + ("_q" + (Text.IntToDecimal(p1) + ".jpg"));
    var rest2 := Text.IntToDecimal(h2) + ("_q" + (Text.IntToDecimal(p2) + ".jpg"));
    assert ThumbnailSuffix(w1, h1, p1)[1..] == Text.IntToDecimal(w1) + ("x" + rest1);
    assert ThumbnailSuffix(w2, h2, p2)[1..] == Text.IntToDecimal(w2) + ("x" + rest2);
    SplitDecimal(w1, w2, rest1, rest2, 'x');
    HeightSuffixInjective(h1, p1, h2, p2);
  }

  /** `<H>_q<P>.jpg` determines height and percent. */
  lemma HeightSuffixInjective(h1: int, p1: int, h2: int, p2: int)
    requires Text.IntToDecimal(h1) + ("_q" + (Text.IntToDecimal(p1) + ".jpg"))
          == Text.IntToDecimal(h2) + ("_q" + (Text.IntToDecimal(p2) + ".jpg"))
    ensures h1 == h2 && p1 == p2
  {
    var quality1 := Text.IntToDecimal(p1) + ".jpg";
    var quality2 := Text.IntToDecimal(p2) + ".jpg";
    TwoCharPrefix('_', 'q', quality1);
    TwoCharPrefix('_', 'q', quality2);
    SplitDecimal(h1, h2, ['q'] + quality1, ['q'] + quality2, '_');
    assert quality1 == (['q'] + quality1)[1..];
    assert quality2 == (['q'] + quality2)[1..];
    PercentSuffixInjective(p1, p2);
  }

  lemma TwoCharPrefix(a: char, b: char, x: string)
    ensures [a, b] + x == [a] + ([b] + x)
  {
    assert ([a, b] + x)[1..] == [b] + x;
  }

  /** `<P>.jpg` determines the percent. */
  lemma PercentSuffixInjective(p1: int, p2: int)
    requires Text.IntToDecimal(p1) + ".jpg" == Text.IntToDecimal(p2) + ".jpg"
    ensures p1 == p2
  {
    assert ".jpg" == "." + "jpg";
    SplitDecimal(p1, p2, "jpg", "jpg", '.');
  }

  /** Two thumbnail names coincide exactly when digest, width, height and
      percent all do: each request size and quality has its own file. */
  lemma ThumbnailNameInjective(d1: string, w1: int, h1: int, p1: int, d2: string, w2: int, h2: int, p2: int)
    requires IsHexDigest(d1) && IsHexDigest(d2)
    ensures ThumbnailName(d1, w1, h1, p1) == ThumbnailName(d2, w2, h2, p2) <==>
              d1 == d2 && w1 == w2 && h1 == h2 && p1 == p2
  {
    if ThumbnailName(d1, w1, h1, p1) == ThumbnailName(d2, w2, h2, p2) {
      var n := ThumbnailName(d1, w1, h1, p1);
      assert d1 == n[..64] == d2;
      assert ThumbnailSuffix(w1, h1, p1) == n[64..] == ThumbnailSuffix(w2, h2, p2);
      ThumbnailSuffixInjective(w1, h1, p1, w2, h2, p2);
    }
  }

  /** Android: `(int) max(0, min(100, Math.round(quality * 100)))`, where
      `Math.round` rounds half up. */
  function AndroidQualityPercent(quality: real): (percent: int)
    ensures 0 <= percent <= 100
    ensures 0.0 <= quality <= 1.0 ==> percent as real <= quality * 100.0 + 0.5 < percent as real + 1.0
    ensures quality < 0.0 ==> percent == 0
    ensures quality > 1.0 ==> percent == 100
  {
    var rounded := (quality * 100.0 + 0.5).Floor;
    if rounded < 0 then 0 else if rounded > 100 then 100 else rounded
  }

  /** iOS: `%.0f` of `quality * 100`, the nearest whole number with ties to
      even; not clamped, so `getThumbnail` with quality 1.5 names `q150`. */
  function IosQualityPercent(quality: real): (percent: int)
    ensures percent as real - 0.5 <= quality * 100.0 <= percent as real + 0.5
    ensures (quality * 100.0 == percent as real - 0.5 || quality * 100.0 == percent as real + 0.5) ==> percent % 2 == 0
  {
    var scaled := quality * 100.0;
    var below := scaled.Floor;
    var fraction := scaled - below as real;
    if fraction < 0.5 then below
    else if fraction > 0.5 then below + 1
    else if below % 2 == 0 then below
    else below + 1
  }

  /** The Android thumbnail for an identifier at a size and quality. */
  function AndroidThumbnailPath(hash: string -> string, identifier: string, width: int, height: int, quality: real): (p: Path)
    ensures p.directory == Thumbnails
  {
    Path(Thumbnails, ThumbnailName(hash(identifier), width, height, AndroidQualityPercent(quality)))
  }

  /** The iOS thumbnail (`thumbnailURL`, `thumbnailFile`) for an identifier. */
  function IosThumbnailPath(hash: string -> string, identifier: string, width: int, height: int, quality: real): (p: Path)
    ensures p.directory == Thumbnails
  {
    Path(Thumbnails, ThumbnailName(hash(identifier), width, height, IosQualityPercent(quality)))
  }

  /** On Android two qualities share a thumbnail exactly when they round to
      the same percent; size and identifier digest must match as well. */
  lemma AndroidThumbnailSharing(hash: string -> string, id1: string, w1: int, h1: int, q1: real,
                                id2: string, w2: int, h2: int, q2: real)
    requires IsDigestFunction(hash)
    ensures AndroidThumbnailPath(hash, id1, w1, h1, q1) == AndroidThumbnailPath(hash, id2, w2, h2, q2) <==>
              hash(id1) == hash(id2) && w1 == w2 && h1 == h2 && AndroidQualityPercent(q1) == AndroidQualityPercent(q2)
  {
    ThumbnailNameInjective(hash(id1), w1, h1, AndroidQualityPercent(q1), hash(id2), w2, h2, AndroidQualityPercent(q2));
  }

  /** The same on iOS, with its own rounding. */
  lemma IosThumbnailSharing(hash: string -> string, id1: string, w1: int, h1: int, q1: real,
                            id2: string, w2: int, h2: int, q2: real)
    requires IsDigestFunction(hash)
    ensures IosThumbnailPath(hash, id1, w1, h1, q1) == IosThumbnailPath(hash, id2, w2, h2, q2) <==>
              hash(id1) == hash(id2) && w1 == w2 && h1 == h2 && IosQualityPercent(q1) == IosQualityPercent(q2)
  {
    ThumbnailNameInjective(hash(id1), w1, h1, IosQualityPercent(q1), hash(id2), w2, h2, IosQualityPercent(q2));
  }

  /** Every quality above 1 lands in the Android `q100` file. */
  lemma AndroidQualityAboveOneShares(hash: string -> string, identifier: string, width: int, height: int, q: real)
    requires q >= 1.0
    ensures AndroidThumbnailPath(hash, identifier, width, height, q) == AndroidThumbnailPath(hash, identifier, width, height, 1.0)
  {
  }

  /** The iOS full-resolution name `<digest>.<ext>`; picked images and videos
      are stored under the same scheme. */
  function IosFullName(digest: string, ext: string): (name: string)
    ensures |name| == |digest| + 1 + |ext|
  {
    digest + "." + ext
  }

  /** The iOS full-resolution file for an identifier. */
  function IosFullPath(hash: string -> string, identifier: string, ext: string): (p: Path)
    ensures p.directory == Files
  {
    Path(Files, IosFullName(hash(identifier), ext))
  }

  /** The Android full-resolution file: `hashed(identifier) + guessExtension(mimeType)`. */
  function AndroidFullPath(hash: string -> string, identifier: string, mimeType: Option<string>): (p: Path)
    ensures p.directory == Files
  {
    Path(Files, hash(identifier) + Lookups.GuessExtension(mimeType))
  }

  /** The extension written into an iOS file name is the one `pathExtension`
      reads back, so the MIME fallback sees it. */
  lemma IosFullNameExtension(digest: string, ext: string)
    requires IsHexDigest(digest)
    requires '/' !in ext && '.' !in ext
    ensures Text.PathExtension(IosFullName(digest, ext)) == ext
  {
    assert '/' !in digest by {
      forall i | 0 <= i < |digest| ensures digest[i] != '/' {
        assert digest[i] in HexDigits;
      }
    }
    Text.PathExtensionOfJoin(digest, ext);
  }

  /** iOS full names determine digest and extension. */
  lemma IosFullNameInjective(d1: string, e1: string, d2: string, e2: string)
    requires IsHexDigest(d1) && IsHexDigest(d2)
    ensures IosFullName(d1, e1) == IosFullName(d2, e2) <==> d1 == d2 && e1 == e2
  {
    if IosFullName(d1, e1) == IosFullName(d2, e2) {
      var n := IosFullName(d1, e1);
      assert d1 == n[..64] == d2;
      assert e1 == n[65..] == e2;
    }
  }

  /** Android full names determine digest and guessed extension. */
  lemma AndroidFullNameInjective(hash: string -> string, id1: string, m1: Option<string>, id2: string, m2: Option<string>)
    requires IsDigestFunction(hash)
    ensures AndroidFullPath(hash, id1, m1) == AndroidFullPath(hash, id2, m2) <==>
              hash(id1) == hash(id2) && Lookups.GuessExtension(m1) == Lookups.GuessExtension(m2)
  {
    if AndroidFullPath(hash, id1, m1) == AndroidFullPath(hash, id2, m2) {
      var n := AndroidFullPath(hash, id1, m1).name;
      assert |hash(id1)| == 64 && |hash(id2)| == 64;
      assert hash(id1) == n[..64] == hash(id2);
      assert Lookups.GuessExtension(m1) == n[64..] == Lookups.GuessExtension(m2);
    }
  }

  /** A thumbnail never shadows a full-resolution file. */
  lemma ThumbnailsAndFilesApart(hash: string -> string, id1: string, w: int, h: int, q: real, id2: string, ext: string, mime: Option<string>)
    ensures IosThumbnailPath(hash, id1, w, h, q) != IosFullPath(hash, id2, ext)
    ensures AndroidThumbnailPath(hash, id1, w, h, q) != AndroidFullPath(hash, id2, mime)
  {
  }
}

=== FILE: identifiers.dfy ===
/** Android asset identifiers: `buildAsset` names an asset `type + ":" + id`
    and `ParsedIdentifier.parse` reads such a name back with Java's
    `String.split(":")` and `Long.parseLong`. Both library routines are
    written out with their edge cases: `split` drops trailing empty pieces
    (but keeps a string without the separator whole), and `parseLong`
    accepts a leading sign and rejects values outside 64 bits. */
module Identifiers {
  import opened Results
  import Text

  /** `MediaStore.Files.FileColumns.MEDIA_TYPE_IMAGE` and `MEDIA_TYPE_VIDEO`. */
  const MediaTypeImage: int := 1
  const MediaTypeVideo: int := 3

  /** The range of a Java `long`. */
  const LongMin: int := -0x8000_0000_0000_0000
  const LongMax: int := 0x7fff_ffff_ffff_ffff

  /** Every piece between separators, empty pieces included. */
  function Pieces(s: string, c: char): (ps: seq<string>)
    ensures |ps| >= 1
    ensures forall i :: 0 <= i < |ps| ==> c !in ps[i]
    decreases |s|
  {
    if |s| == 0 then [""]
    else
      var rest := Pieces(s[1..], c);
      if s[0] == c then [""] + rest else [[s[0]] + rest[0]] + rest[1..]
  }

  /** The pieces glued back together with the separator. */
  function Join(ps: seq<string>, c: char): string
    requires |ps| >= 1
  {
    if |ps| == 1 then ps[0] else ps[0] + [c] + Join(ps[1..], c)
  }

  /** `k` empty strings. */
  function Empties(k: nat): seq<string> {
    seq(k, _ => "")
  }

  function DropTrailingEmpty(ps: seq<string>): (r: seq<string>)
    ensures |r| <= |ps|
    ensures |r| > 0 ==> r[|r| - 1] != ""
    ensures forall i :: 0 <= i < |r| ==> r[i] == ps[i]
  {
    if |ps| == 0 then []
    else if ps[|ps| - 1] == "" then DropTrailingEmpty(ps[..|ps| - 1])
    else ps
  }

  /** `String.split` with a one-character separator and no limit. */
  function JavaSplit(s: string, c: char): seq<string> {
    if c !in s then [s] else DropTrailingEmpty(Pieces(s, c))
  }

  /** `Long.parseLong` over ASCII decimal digits. */
  function ParseLong(s: string): (r: Option<int>)
    ensures r.Some? ==> LongMin <= r.value <= LongMax
  {
    if |s| == 0 then None
    else
      var digits := if s[0] == '-' || s[0] == '+' then s[1..] else s;
      if |digits| == 0 || !Text.AllDigits(digits) then None
      else
        var magnitude: int := Text.DigitsValue(digits);
        var v: int := if s[0] == '-' then -magnitude else magnitude;
        if LongMin <= v <= LongMax then Some(v) else None
  }

  datatype ParsedIdentifier = ParsedIdentifier(id: int, mediaType: int)

  /** `ParsedIdentifier.parse`: exactly two pieces, the second a `long`; the
      prefix `video` selects video and every other prefix selects image. */
  function ParseIdentifier(identifier: Option<string>): (r: Option<ParsedIdentifier>)
    ensures r.Some? ==> r.value.mediaType == MediaTypeImage || r.value.mediaType == MediaTypeVideo
    ensures r.Some? ==> LongMin <= r.value.id <= LongMax
  {
    if identifier.None? then None
    else
      var parts := JavaSplit(identifier.value, ':');
      if |parts| != 2 then None
      else
        var id := ParseLong(parts[1]);
        if id.None? then None
        else Some(ParsedIdentifier(id.value, if parts[0] == "video" then MediaTypeVideo else MediaTypeImage))
  }

  /** The type word `buildAsset` writes for a media type. */
  function AssetType(mediaType: int): string {
    if mediaType == MediaTypeImage then "image" else "video"
  }

  /** `assetType + ":" + id`. */
  function BuildIdentifier(mediaType: int, id: int): string {
    AssetType(mediaType) + ":" + Text.IntToDecimal(id)
  }

  /** Reading a rendered `long` back gives it. */
  lemma ParseLongOfDecimal(x: int)
    requires LongMin <= x <= LongMax
    ensures ParseLong(Text.IntToDecimal(x)) == Some(x)
  {
    var s := Text.IntToDecimal(x);
    if x < 0 {
      assert s[1..] == Text.NatToDecimal(-x);
      Text.DigitsValueOfDecimal(-x);
    } else {
      Text.DigitsValueOfDecimal(x);
    }
  }

  /** A string without the separator is one piece. */
  lemma {:induction false} PiecesWithoutSeparator(s: string, c: char)
    requires c !in s
    ensures Pieces(s, c) == [s]
    decreases |s|
  {
    if |s| > 0 {
      assert s[0] != c && s == [s[0]] + s[1..];
      assert c !in s[1..];
      PiecesWithoutSeparator(s[1..], c);
    }
  }

  /** A separator-free prefix becomes the first piece. */
  lemma {:induction false} PiecesAfterPrefix(a: string, b: string, c: char)
    requires c !in a
    ensures Pieces(a + [c] + b, c) == [a] + Pieces(b, c)
    decreases |a|
  {
    var s := a + [c] + b;
    if |a| == 0 {
      assert s[0] == c && s[1..] == b;
      assert a == "";
    } else {
      assert s[1..] == a[1..] + [c] + b;
      PiecesAfterPrefix(a[1..], b, c);
      assert [s[0]] + a[1..] == a;
    }
  }

  /** Splitting and joining again gives the original string. */
  lemma {:induction false} JoinPieces(s: string, c: char)
    ensures Join(Pieces(s, c), c) == s
    decreases |s|
  {
    if |s| > 0 {
      var rest := Pieces(s[1..], c);
      JoinPieces(s[1..], c);
      if s[0] == c {
        assert Pieces(s, c)[1..] == rest;
        assert s == [c] + s[1..];
      } else {
        var ps := Pieces(s, c);
        if |rest| == 1 {
          assert s == [s[0]] + s[1..];
        } else {
          assert ps[1..] == rest[1..];
          assert Join(rest, c) == rest[0] + [c] + Join(rest[1..], c);
          assert s == [s[0]] + s[1..];
        }
      }
    }
  }

  /** What `DropTrailingEmpty` removed is a run of empty pieces. */
  lemma {:induction false} DropTrailingEmptySplit(ps: seq<string>) returns (k: nat)
    ensures ps == DropTrailingEmpty(ps) + Empties(k)
    decreases |ps|
  {
    if |ps| == 0 || ps[|ps| - 1] != "" {
      k := 0;
      assert ps + Empties(0) == ps;
    } else {
      var k' := DropTrailingEmptySplit(ps[..|ps| - 1]);
      k := k' + 1;
      assert Empties(k) == Empties(k') + [""];
      assert ps == ps[..|ps| - 1] + [""];
    }
  }

  /** A piece followed by `k` empty pieces joins to that piece and `k`
      separators. */
  lemma {:induction false} JoinTrailingEmpties(d: string, k: nat, c: char)
    ensures Join([d] + Empties(k), c) == d + seq(k, _ => c)
    decreases k
  {
    if k == 0 {
      assert [d] + Empties(0) == [d];
      assert d + seq(0, _ => c) == d;
    } else {
      var ps := [d] + Empties(k);
      assert ps[1..] == [""] + Empties(k - 1);
      JoinTrailingEmpties("", k - 1, c);
      assert seq(k, _ => c) == [c] + seq(k - 1, _ => c);
    }
  }

  /** Round trip: an identifier built for an image or video row parses back to
      that row's id and media type. */
  lemma IdentifierRoundTrip(mediaType: int, id: int)
    requires mediaType == MediaTypeImage || mediaType == MediaTypeVideo
    requires LongMin <= id <= LongMax
    ensures ParseIdentifier(Some(BuildIdentifier(mediaType, id))) == Some(ParsedIdentifier(id, mediaType))
  {
    var name := AssetType(mediaType);
    var digits := Text.IntToDecimal(id);
    var s := BuildIdentifier(mediaType, id);
    assert s == name + [':'] + digits;
    assert ':' !in name;
    assert ':' !in digits by {
      forall i | 0 <= i < |digits| ensures digits[i] != ':' {
      }
    }
    PiecesAfterPrefix(name, digits, ':');
    PiecesWithoutSeparator(digits, ':');
    assert s[|name|] == ':';
    assert JavaSplit(s, ':') == [name, digits];
    ParseLongOfDecimal(id);
  }

  /** Conversely, everything `parse` accepts has the shape
      `prefix ":" digits` followed by zero or more further colons, where the
      digits are a `long` and the prefix decides the media type. */
  lemma ParsedIdentifierShape(s: string) returns (prefix: string, digits: string, k: nat)
    requires ParseIdentifier(Some(s)).Some?
    ensures s == prefix + ":" + digits + seq(k, _ => ':')
    ensures ':' !in prefix && ':' !in digits
    ensures ParseLong(digits) == Some(ParseIdentifier(Some(s)).value.id)
    ensures ParseIdentifier(Some(s)).value.mediaType == if prefix == "video" then MediaTypeVideo else MediaTypeImage
  {
    var ps := Pieces(s, ':');
    k := DropTrailingEmptySplit(ps);
    var kept := DropTrailingEmpty(ps);
    assert ':' in s;
    assert JavaSplit(s, ':') == kept;
    prefix, digits := kept[0], kept[1];
    assert ps == [prefix] + ([digits] + Empties(k));
    JoinPieces(s, ':');
    JoinTrailingEmpties(digits, k, ':');
    assert Join(ps, ':') == prefix + [':'] + Join([digits] + Empties(k), ':');
  }

  /** Trailing colons are dropped by `split`, so `image:5:` still names
      image 5. */
  lemma TrailingColonAccepted()
    ensures ParseIdentifier(Some("image:5:")) == Some(ParsedIdentifier(5, MediaTypeImage))
  {
    TrailingColonSplit();
    ParseLongOfDecimal(5);
    assert Text.IntToDecimal(5) == "5";
  }

  lemma TrailingColonSplit()
    ensures JavaSplit("image:5:", ':') == ["image", "5"]
  {
    TrailingColonPieces();
    var ps: seq<string> := ["image", "5", ""];
    assert "image:5:"[5] == ':';
    assert DropTrailingEmpty(ps) == DropTrailingEmpty(ps[..2]);
    assert ps[..2] == ["image", "5"];
  }

  lemma TrailingColonPieces()
    ensures Pieces("image:5:", ':') == ["image", "5", ""]
  {
    var tail := "5" + [':'] + "";
    assert "image:5:" == "image" + [':'] + tail;
    PiecesAfterPrefix("image", tail, ':');
    PiecesAfterPrefix("5", "", ':');
    assert Pieces("", ':') == [""];
  }

  /** A bare name without a colon is rejected, and so is a missing id. */
  lemma SinglePieceRejected()
    ensures ParseIdentifier(Some("5")) == None
    ensures ParseIdentifier(None) == None
  {
    assert ':' !in "5";
  }

  /** Three non-empty pieces are rejected. */
  lemma ThreePiecesRejected()
    ensures ParseIdentifier(Some("image:5:6")) == None
  {
    var s := "image:5:6";
    var tail := "5" + [':'] + "6";
    assert s == "image" + [':'] + tail;
    PiecesAfterPrefix("image", tail, ':');
    PiecesAfterPrefix("5", "6", ':');
    PiecesWithoutSeparator("6", ':');
    assert |Pieces(s, ':')| == 3;
    assert Pieces(s, ':')[2] == "6";
  }
}

=== FILE: ioslibrary.dfy ===
/** The iOS library side of `PhotoLibraryService`: the fetch filter built from
    the options, the per-asset result (`assetResult`), the preferred resource,
    album membership and album listing, and the two per-asset artifacts
    (`fullResolutionFile`, `thumbnailFile`). PhotoKit itself is a value: a
    sequence of assets already in the fetch's newest-first order, and the
    album collections. */
module IosLibrary {
  import opened Results
  import Text
  import Lookups
  import Options
  import Paging
  import CacheNames
  import ArtifactStore
  import opened AssetRecords

  datatype MediaType = ImageMedia | VideoMedia | AudioMedia | UnknownMedia

  /** `PHAssetSourceType`. */
  datatype SourceType = UserLibrary | CloudShared | ITunesSynced

  datatype Location = Location(latitude: real, longitude: real)

  /** A `PHAsset` as the plugin reads it; `fileName` is the private
      `filename` key, dates are milliseconds since the epoch. */
  datatype LibraryAsset = LibraryAsset(
    localIdentifier: string,
    mediaType: MediaType,
    sourceType: SourceType,
    resources: seq<Lookups.Resource>,
    fileName: Option<string>,
    pixelWidth: int,
    pixelHeight: int,
    duration: real,
    creationDate: Option<int>,
    modificationDate: Option<int>,
    location: Option<Location>)

  /** A `PHAssetCollection` and the identifiers of the assets in it. */
  datatype Collection = Collection(localIdentifier: string, localizedTitle: Option<string>, members: seq<string>)

  /** The photo library: assets newest first, then the user albums and the
      smart albums (`albumCollectionTypes` is `[.album, .smartAlbum]`). */
  datatype Library = Library(assets: seq<LibraryAsset>, albums: seq<Collection>, smartAlbums: seq<Collection>)

  /** The media part of `buildFetchOptions`' predicate. */
  predicate MediaAdmitted(o: Options.LibraryOptions, t: MediaType) {
    if o.includeImages && o.includeVideos then t == ImageMedia || t == VideoMedia
    else if o.includeImages then t == ImageMedia
    else if o.includeVideos then t == VideoMedia
    else true
  }

  /** Without cloud data only the user library and iTunes-synced sources. */
  predicate SourceAdmitted(o: Options.LibraryOptions, s: SourceType) {
    o.includeCloudData || s == UserLibrary || s == ITunesSynced
  }

  predicate Admits(o: Options.LibraryOptions, a: LibraryAsset) {
    MediaAdmitted(o, a.mediaType) && SourceAdmitted(o, a.sourceType)
  }

  /** `PHAsset.fetchAssets(with: buildFetchOptions(options))`: the admitted
      assets in library order. */
  function Matching(assets: seq<LibraryAsset>, o: Options.LibraryOptions): (r: seq<LibraryAsset>)
    ensures |r| <= |assets|
    ensures forall i :: 0 <= i < |r| ==> Admits(o, r[i]) && r[i] in assets
    ensures forall a :: a in assets && Admits(o, a) ==> a in r
  {
    if |assets| == 0 then []
    else
      var rest := Matching(assets[1..], o);
      assert forall a :: a in assets[1..] ==> a in assets;
      if Admits(o, assets[0]) then [assets[0]] + rest else rest
  }

  /** The fetch keeps library order: the matches of two runs of assets are
      the matches of the first followed by those of the second. */
  lemma {:induction false} MatchingAppend(a: seq<LibraryAsset>, b: seq<LibraryAsset>, o: Options.LibraryOptions)
    ensures Matching(a + b, o) == Matching(a, o) + Matching(b, o)
    decreases |a|
  {
    if |a| == 0 {
      assert a + b == b;
    } else {
      var ab := a + b;
      assert ab[0] == a[0];
      assert ab[1..] == a[1..] + b;
      MatchingAppend(a[1..], b, o);
      var rest := Matching(a[1..], o);
      assert Matching(ab, o) == (if Admits(o, a[0]) then [a[0]] else []) + rest + Matching(b, o);
    }
  }

  /** A single asset matches itself or nothing. */
  lemma MatchingOne(x: LibraryAsset, o: Options.LibraryOptions)
    ensures Matching([x], o) == if Admits(o, x) then [x] else []
  {
    assert [x][1..] == [];
  }

  /** The kinds `preferredResource` looks for first. */
  function PreferredKinds(t: MediaType): set<Lookups.ResourceKind> {
    match t
    case ImageMedia => {Lookups.Photo, Lookups.FullSizePhoto, Lookups.AlternatePhoto}
    case VideoMedia => {Lookups.Video, Lookups.FullSizeVideo}
    case _ => {}
  }

  /** Index of the first resource of one of `kinds`, or -1. */
  function FirstOfKinds(rs: seq<Lookups.Resource>, kinds: set<Lookups.ResourceKind>): (i: int)
    ensures -1 <= i < |rs|
    ensures i >= 0 ==> rs[i].kind in kinds
    ensures forall j :: 0 <= j < |rs| && (i == -1 || j < i) ==> rs[j].kind !in kinds
  {
    if |rs| == 0 then -1
    else if rs[0].kind in kinds then 0
    else
      var i := FirstOfKinds(rs[1..], kinds);
      if i == -1 then -1 else i + 1
  }

  /** `preferredResource(for:)`: the first resource of the asset's own kind,
      else the first resource, else none. */
  function PreferredResource(a: LibraryAsset): (r: Option<Lookups.Resource>)
    ensures r.None? <==> |a.resources| == 0
    ensures r.Some? ==> r.value in a.resources
    ensures forall i :: 0 <= i < |a.resources| ==>
              (a.resources[i].kind in PreferredKinds(a.mediaType)
               && (forall j :: 0 <= j < i ==> a.resources[j].kind !in PreferredKinds(a.mediaType))) ==>
              r == Some(a.resources[i])
    ensures |a.resources| > 0 && (forall j :: 0 <= j < |a.resources| ==> a.resources[j].kind !in PreferredKinds(a.mediaType)) ==>
              r == Some(a.resources[0])
  {
    var i := FirstOfKinds(a.resources, PreferredKinds(a.mediaType));
    if i >= 0 then Some(a.resources[i])
    else if |a.resources| > 0 then Some(a.resources[0])
    else None
  }

  /** `PHAsset.originalFileName`: the first resource's original file name. */
  function OriginalFileName(a: LibraryAsset): Option<string> {
    if |a.resources| > 0 then Some(a.resources[0].originalFilename) else None
  }

  /** The reported file name: the original one when asked for and known,
      else the library's `filename`, else `asset`. */
  function ChosenFileName(o: Options.LibraryOptions, a: LibraryAsset): (name: string)
    ensures name == "asset" || Some(name) == a.fileName || (o.useOriginalFileNames && Some(name) == OriginalFileName(a))
    ensures !o.useOriginalFileNames && a.fileName.Some? ==> name == a.fileName.value
    ensures o.useOriginalFileNames && |a.resources| > 0 ==> name == a.resources[0].originalFilename
    ensures (!o.useOriginalFileNames || |a.resources| == 0) && a.fileName.Some? ==> name == a.fileName.value
    ensures (!o.useOriginalFileNames || |a.resources| == 0) && a.fileName.None? ==> name == "asset"
  {
    if o.useOriginalFileNames && OriginalFileName(a).Some? then OriginalFileName(a).value
    else if a.fileName.Some? then a.fileName.value
    else "asset"
  }

  /** Identifiers of the collections that contain `id`, in order. */
  function Containing(cs: seq<Collection>, id: string): (ids: seq<string>)
    ensures forall x :: x in ids <==> exists c :: c in cs && c.localIdentifier == x && id in c.members
  {
    if |cs| == 0 then []
    else
      var rest := Containing(cs[1..], id);
      assert forall c :: c in cs <==> c == cs[0] || c in cs[1..];
      if id in cs[0].members then [cs[0].localIdentifier] + rest else rest
  }

  /** `albumIdentifiers(for:)`: user albums, then smart albums, containing
      the asset. */
  function AlbumIdentifiers(lib: Library, a: LibraryAsset): seq<string> {
    Containing(lib.albums + lib.smartAlbums, a.localIdentifier)
  }

  /** `fetchAlbums`: one record per collection, title defaulting to "" and
      the count of assets in it. */
  function FetchAlbums(lib: Library): (albums: seq<AlbumRecord>)
    ensures |albums| == |lib.albums| + |lib.smartAlbums|
    ensures forall i :: 0 <= i < |albums| ==>
      var c := (lib.albums + lib.smartAlbums)[i];
      albums[i] == AlbumRecord(c.localIdentifier, c.localizedTitle.GetOr(""), |c.members|)
  {
    var cs := lib.albums + lib.smartAlbums;
    seq(|cs|, i requires 0 <= i < |cs| => AlbumRecord(cs[i].localIdentifier, cs[i].localizedTitle.GetOr(""), |cs[i].members|))
  }

  /** Every album id reported on an asset names an album `getAlbums` lists,
      and that album counts at least one asset. */
  lemma AlbumIdsAreListed(lib: Library, a: LibraryAsset, x: string)
    requires x in AlbumIdentifiers(lib, a)
    ensures exists album :: album in FetchAlbums(lib) && album.id == x && album.assetCount >= 1
  {
    var cs := lib.albums + lib.smartAlbums;
    var c :| c in cs && c.localIdentifier == x && a.localIdentifier in c.members;
    var i :| 0 <= i < |cs| && cs[i] == c;
    assert FetchAlbums(lib)[i].id == x;
  }

  /** `assetResult(for:options:)`: assets that are neither images nor videos
      are dropped; the thumbnail and file are attached only when asked for,
      and are whatever the artifact steps returned for this asset. */
  function AssetResult(lib: Library, a: LibraryAsset, o: Options.LibraryOptions, registry: Lookups.TypeRegistry,
                       thumbnail: Option<FileResult>, file: Option<FileResult>): (r: Option<AssetRecord>)
    ensures r.Some? <==> a.mediaType == ImageMedia || a.mediaType == VideoMedia
    ensures r.Some? ==> r.value.id == a.localIdentifier && r.value.kind == (if a.mediaType == ImageMedia then "image" else "video")
    ensures r.Some? ==> r.value.fileName == ChosenFileName(o, a)
    ensures r.Some? ==> r.value.mimeType == Lookups.IosMimeType(PreferredResource(a), ChosenFileName(o, a), registry)
    ensures r.Some? ==> r.value.width == a.pixelWidth && r.value.height == a.pixelHeight
    ensures r.Some? ==> r.value.duration == (if a.mediaType == VideoMedia then Some(a.duration) else None)
    ensures r.Some? ==> r.value.creationDate == a.creationDate && r.value.modificationDate == a.modificationDate
    ensures r.Some? ==> (r.value.latitude.Some? <==> a.location.Some?) && (r.value.longitude.Some? <==> a.location.Some?)
    ensures r.Some? && a.location.Some? ==>
              r.value.latitude.value == a.location.value.latitude && r.value.longitude.value == a.location.value.longitude
    ensures r.Some? ==> r.value.albumIds == (if o.includeAlbumData then Some(AlbumIdentifiers(lib, a)) else None)
    ensures r.Some? ==> r.value.thumbnail == (if o.thumbnailWidth > 0 && o.thumbnailHeight > 0 then thumbnail else None)
    ensures r.Some? ==> r.value.file == (if o.includeFullResolutionData then file else None)
    ensures r.Some? ==> r.value.size.None?
  {
    if a.mediaType != ImageMedia && a.mediaType != VideoMedia then None
    else
      var fileName := ChosenFileName(o, a);
      Some(AssetRecord(
        a.localIdentifier,
        fileName,
        if a.mediaType == ImageMedia then "image" else "video",
        a.pixelWidth,
        a.pixelHeight,
        if a.mediaType == VideoMedia then Some(a.duration) else None,
        a.creationDate,
        a.modificationDate,
        if a.location.Some? then Some(a.location.value.latitude) else None,
        if a.location.Some? then Some(a.location.value.longitude) else None,
        Lookups.IosMimeType(PreferredResource(a), fileName, registry),
        if o.includeAlbumData then Some(AlbumIdentifiers(lib, a)) else None,
        if o.thumbnailWidth > 0 && o.thumbnailHeight > 0 then thumbnail else None,
        if o.includeFullResolutionData then file else None,
        None))
  }

  /** `fetchLibrary`: the admitted assets paged by the iOS window. The count
      is that of every admitted asset, and the page holds results of
      admitted assets only, no more than the window has. */
  function FetchLibrary(lib: Library, o: Options.LibraryOptions, registry: Lookups.TypeRegistry,
                        thumbnailOf: LibraryAsset -> Option<FileResult>, fileOf: LibraryAsset -> Option<FileResult>): (page: Paging.Page<AssetRecord>)
    ensures page.totalCount == |Matching(lib.assets, o)|
    ensures |page.assets| <= |Paging.Window(Matching(lib.assets, o), o.offset, o.limit)|
    ensures o.limit.Some? ==> |page.assets| <= o.limit.value
  {
    Paging.IosPage(Matching(lib.assets, o), o.offset, o.limit,
                   a => AssetResult(lib, a, o, registry, thumbnailOf(a), fileOf(a)))
  }

  /** Options that went through either parser select images or videos, so
      every asset the fetch admits yields a result and nothing in a page is
      dropped. */
  lemma ParsedOptionsDropNothing(call: Options.CallArgs, parse: string -> Option<real>, lib: Library, registry: Lookups.TypeRegistry,
                                 thumbnailOf: LibraryAsset -> Option<FileResult>, fileOf: LibraryAsset -> Option<FileResult>)
    requires Options.IosLibraryOptions(call, parse).Ok?
    ensures var o := Options.IosLibraryOptions(call, parse).value;
      forall a :: a in Matching(lib.assets, o) ==> AssetResult(lib, a, o, registry, thumbnailOf(a), fileOf(a)).Some?
  {
    var o := Options.IosLibraryOptions(call, parse).value;
    forall a | a in Matching(lib.assets, o)
      ensures AssetResult(lib, a, o, registry, thumbnailOf(a), fileOf(a)).Some?
    {
      var r := Matching(lib.assets, o);
      var i :| 0 <= i < |r| && r[i] == a;
      assert Admits(o, r[i]);
    }
  }

  /** When every admitted asset gives a result, a library page is the whole
      window of the admitted assets, one result per asset in library order;
      the count is every admitted asset and more remain exactly when the
      window is non-empty and ends before the last. */
  lemma PageOfMatches(lib: Library, o: Options.LibraryOptions, registry: Lookups.TypeRegistry,
                      thumbnailOf: LibraryAsset -> Option<FileResult>, fileOf: LibraryAsset -> Option<FileResult>)
    requires forall a :: a in Matching(lib.assets, o) ==> AssetResult(lib, a, o, registry, thumbnailOf(a), fileOf(a)).Some?
    ensures var matching := Matching(lib.assets, o);
      var w := Paging.Window(matching, o.offset, o.limit);
      var page := FetchLibrary(lib, o, registry, thumbnailOf, fileOf);
      && |page.assets| == |w|
      && (forall i :: 0 <= i < |w| ==> Some(page.assets[i]) == AssetResult(lib, w[i], o, registry, thumbnailOf(w[i]), fileOf(w[i])))
      && page.totalCount == |matching|
      && page.hasMore == (|w| > 0 && o.offset + |w| < |matching|)
  {
    var matching := Matching(lib.assets, o);
    var w := Paging.Window(matching, o.offset, o.limit);
    var convert := a => AssetResult(lib, a, o, registry, thumbnailOf(a), fileOf(a));
    assert forall i :: 0 <= i < |w| ==> w[i] == matching[o.offset + i];
    Paging.IosPageOfWindow(matching, o.offset, o.limit, convert);
  }

  /** With options from the parser every admitted asset gives a result, so
      the page is the whole window of the admitted assets. */
  lemma FetchLibraryIsWindow(call: Options.CallArgs, parse: string -> Option<real>, lib: Library, registry: Lookups.TypeRegistry,
                             thumbnailOf: LibraryAsset -> Option<FileResult>, fileOf: LibraryAsset -> Option<FileResult>)
    requires Options.IosLibraryOptions(call, parse).Ok?
    ensures var o := Options.IosLibraryOptions(call, parse).value;
      var matching := Matching(lib.assets, o);
      var w := Paging.Window(matching, o.offset, o.limit);
      var page := FetchLibrary(lib, o, registry, thumbnailOf, fileOf);
      && |page.assets| == |w|
      && (forall i :: 0 <= i < |w| ==> Some(page.assets[i]) == AssetResult(lib, w[i], o, registry, thumbnailOf(w[i]), fileOf(w[i])))
      && page.totalCount == |matching|
      && page.hasMore == (|w| > 0 && o.offset + |w| < |matching|)
  {
    ParsedOptionsDropNothing(call, parse, lib, registry, thumbnailOf, fileOf);
    PageOfMatches(lib, Options.IosLibraryOptions(call, parse).value, registry, thumbnailOf, fileOf);
  }

  /** The extension `fullResolutionFile` writes: the original file name's,
      else the suggested one. */
  function FullFileExtension(resource: Lookups.Resource, registry: Lookups.TypeRegistry): (ext: string)
    ensures Text.PathExtension(resource.originalFilename) != "" ==> ext == Text.PathExtension(resource.originalFilename)
    ensures Text.PathExtension(resource.originalFilename) == "" ==>
              ext == Lookups.SuggestedExtension(Some(resource), registry)
              && ext == registry.extensionOf(resource.uniformTypeIdentifier).GetOr("dat")
  {
    var fileExtension := Text.PathExtension(resource.originalFilename);
    if fileExtension == "" then Lookups.SuggestedExtension(Some(resource), registry) else fileExtension
  }

  /** `fullResolutionFile(for:)`: no resource gives nothing; otherwise the
      export runs only on a cache miss, and a failed export leaves no file. */
  function FullResolutionFile(store: ArtifactStore.Store, a: LibraryAsset, hash: string -> string,
                              registry: Lookups.TypeRegistry, exporting: ArtifactStore.Outcome): (r: Fetched)
    ensures PreferredResource(a).None? ==> r == Fetched(store, None)
    ensures PreferredResource(a).Some? ==>
      var path := CacheNames.IosFullPath(hash, a.localIdentifier, FullFileExtension(PreferredResource(a).value, registry));
      && r.store - {path} == store - {path}
      && (path in store ==> r == Fetched(store, r.file) && r.file.Some?)
      && (r.file.Some? <==> path in store || exporting.Produced?)
      && (r.file.Some? ==> path in r.store && r.file.value == FileResult(path, Lookups.IosMimeType(PreferredResource(a), path.name, registry), |r.store[path]|))
      && (r.file.None? ==> r.store == store && path !in r.store)
      && (path !in store && exporting.Produced? ==> r.store == store[path := exporting.data])
  {
    var resource := PreferredResource(a);
    if resource.None? then Fetched(store, None)
    else
      var path := CacheNames.IosFullPath(hash, a.localIdentifier, FullFileExtension(resource.value, registry));
      var fill := ArtifactStore.IosExport(store, path, exporting);
      if fill.reply.Served? then
        Fetched(fill.store, Some(FileResult(path, Lookups.IosMimeType(resource, path.name, registry), IosFileSize(fill.store, path))))
      else Fetched(fill.store, None)
  }

  /** `thumbnailFile(for:)`: the render runs only on a cache miss and a
      failed render leaves nothing. The size is not checked here. */
  function ThumbnailFile(store: ArtifactStore.Store, a: LibraryAsset, width: int, height: int, quality: real,
                         hash: string -> string, render: ArtifactStore.Outcome): (r: Fetched)
    ensures var path := CacheNames.IosThumbnailPath(hash, a.localIdentifier, width, height, quality);
      && r.store - {path} == store - {path}
      && (path in store ==> r.store == store && r.file.Some?)
      && (r.file.Some? <==> path in store || render.Produced?)
      && (r.file.None? ==> r.store == store)
      && (r.file.Some? ==> path in r.store && r.file.value == FileResult(path, "image/jpeg", |r.store[path]|))
      && (path !in store && render.Produced? ==> r.store == store[path := render.data])
  {
    var path := CacheNames.IosThumbnailPath(hash, a.localIdentifier, width, height, quality);
    var fill := ArtifactStore.IosRender(store, path, render);
    if fill.reply.Served? then Fetched(fill.store, Some(FileResult(path, "image/jpeg", IosFileSize(fill.store, path))))
    else Fetched(fill.store, None)
  }

  /** The file's MIME type is the one the asset result reports: both come
      from the same preferred resource. */
  lemma FileMimeMatchesAsset(store: ArtifactStore.Store, lib: Library, a: LibraryAsset, o: Options.LibraryOptions,
                             hash: string -> string, registry: Lookups.TypeRegistry, exporting: ArtifactStore.Outcome,
                             thumbnail: Option<FileResult>, file: Option<FileResult>)
    requires AssetResult(lib, a, o, registry, thumbnail, file).Some?
    requires FullResolutionFile(store, a, hash, registry, exporting).file.Some?
    ensures FullResolutionFile(store, a, hash, registry, exporting).file.value.mimeType
         == AssetResult(lib, a, o, registry, thumbnail, file).value.mimeType
  {
  }

  /** Asking again for a file that was served serves the same file, whatever
      the producer would do, and changes nothing. */
  lemma ArtifactsAreStable(store: ArtifactStore.Store, a: LibraryAsset, width: int, height: int, quality: real,
                           hash: string -> string, registry: Lookups.TypeRegistry, first: ArtifactStore.Outcome, again: ArtifactStore.Outcome)
    ensures var r := FullResolutionFile(store, a, hash, registry, first);
      r.file.Some? ==> FullResolutionFile(r.store, a, hash, registry, again) == r
    ensures var r := ThumbnailFile(store, a, width, height, quality, hash, first);
      r.file.Some? ==> ThumbnailFile(r.store, a, width, height, quality, hash, again) == r
  {
  }
}

=== FILE: iosservice.dfy ===
/** The iOS `PhotoLibraryService` requests by identifier and the picker
    ingestion that feeds them. Items the system picker returned are copied
    into the cache and remembered in `pickedItems`; a later request for
    their identifier is answered from that record before the photo library
    is consulted. The work queue is modelled as sequential steps, and every
    PhotoKit, UIKit or AVFoundation call is an outcome handed in as a value. */
module IosService {
  import opened Results
  import Text
  import Lookups
  import Options
  import CacheNames
  import ArtifactStore
  import opened AssetRecords
  import IosLibrary

  /** `PickedItem`: where the picked file was stored, its MIME type, and
      `"image"` or `"video"`. */
  datatype PickedItem = PickedItem(file: CacheNames.Path, mimeType: string, kind: string)

  /** The service's state: the picked items and the cache directories. */
  datatype Service = Service(picked: map<string, PickedItem>, store: ArtifactStore.Store)

  /** `fetchAsset(with:)`: the first asset with that local identifier. */
  function FetchAsset(lib: IosLibrary.Library, id: string): (r: Option<IosLibrary.LibraryAsset>)
    ensures r.Some? ==> r.value in lib.assets && r.value.localIdentifier == id
    ensures r.None? <==> forall i :: 0 <= i < |lib.assets| ==> lib.assets[i].localIdentifier != id
  {
    FindIn(lib.assets, id)
  }

  function FindIn(assets: seq<IosLibrary.LibraryAsset>, id: string): (r: Option<IosLibrary.LibraryAsset>)
    ensures r.Some? ==> r.value in assets && r.value.localIdentifier == id
    ensures r.None? <==> forall i :: 0 <= i < |assets| ==> assets[i].localIdentifier != id
  {
    if |assets| == 0 then None
    else if assets[0].localIdentifier == id then Some(assets[0])
    else
      var r := FindIn(assets[1..], id);
      assert r.None? ==> forall i :: 1 <= i < |assets| ==> assets[i].localIdentifier == assets[1..][i - 1].localIdentifier;
      r
  }

  /** The file result for a stored file. */
  function Described(store: ArtifactStore.Store, path: CacheNames.Path, mimeType: string): FileResult {
    FileResult(path, mimeType, IosFileSize(store, path))
  }

  /** `fetchFullResolutionFile`: a picked item answers with its stored file,
      whether or not it is still there; otherwise the library asset's file,
      or nothing when there is no such asset. */
  function FetchFullResolutionFile(s: Service, lib: IosLibrary.Library, id: string, hash: string -> string,
                                   registry: Lookups.TypeRegistry, exporting: ArtifactStore.Outcome): (r: Fetched)
    ensures id in s.picked ==> r == Fetched(s.store, Some(Described(s.store, s.picked[id].file, s.picked[id].mimeType)))
    ensures id !in s.picked && FetchAsset(lib, id).None? ==> r == Fetched(s.store, None)
    ensures id !in s.picked && FetchAsset(lib, id).Some? ==>
      r == IosLibrary.FullResolutionFile(s.store, FetchAsset(lib, id).value, hash, registry, exporting)
  {
    if id in s.picked then
      var picked := s.picked[id];
      Fetched(s.store, Some(Described(s.store, picked.file, picked.mimeType)))
    else
      var asset := FetchAsset(lib, id);
      if asset.None? then Fetched(s.store, None)
      else IosLibrary.FullResolutionFile(s.store, asset.value, hash, registry, exporting)
  }

  /** `thumbnailForPickedItem`: a non-positive size gives nothing; a cached
      thumbnail is returned whatever the item's kind; otherwise an image or
      video item is rendered (no image or a failed write gives nothing) and
      any other kind gives nothing. */
  function ThumbnailForPickedItem(store: ArtifactStore.Store, id: string, item: PickedItem, width: int, height: int,
                                  quality: real, hash: string -> string, render: ArtifactStore.Outcome): (r: Fetched)
    ensures width <= 0 || height <= 0 ==> r == Fetched(store, None)
    ensures var path := CacheNames.IosThumbnailPath(hash, id, width, height, quality);
      && r.store - {path} == store - {path}
      && (r.file.Some? <==>
            width > 0 && height > 0 && (path in store || ((item.kind == "image" || item.kind == "video") && render.Produced?)))
      && (r.file.None? ==> r.store == store)
      && (r.file.Some? ==> path in r.store && r.file.value == FileResult(path, "image/jpeg", |r.store[path]|))
      && (width > 0 && height > 0 && path in store ==> r.store == store)
      && (width > 0 && height > 0 && path !in store && (item.kind == "image" || item.kind == "video") && render.Produced? ==>
            r.store == store[path := render.data])
  {
    if width <= 0 || height <= 0 then Fetched(store, None)
    else
      var path := CacheNames.IosThumbnailPath(hash, id, width, height, quality);
      if path in store then Fetched(store, Some(Described(store, path, "image/jpeg")))
      else if item.kind == "image" || item.kind == "video" then
        var fill := ArtifactStore.IosWrite(store, path, render);
        if fill.reply.Served? then Fetched(fill.store, Some(Described(fill.store, path, "image/jpeg")))
        else Fetched(fill.store, None)
      else Fetched(store, None)
  }

  /** `fetchThumbnailFile`: a picked item is answered by
      `thumbnailForPickedItem`; otherwise by the library asset's thumbnail,
      or nothing when there is no such asset. */
  function FetchThumbnailFile(s: Service, lib: IosLibrary.Library, id: string, width: int, height: int, quality: real,
                              hash: string -> string, render: ArtifactStore.Outcome): (r: Fetched)
    ensures id in s.picked ==> r == ThumbnailForPickedItem(s.store, id, s.picked[id], width, height, quality, hash, render)
    ensures id !in s.picked && FetchAsset(lib, id).None? ==> r == Fetched(s.store, None)
    ensures id !in s.picked && FetchAsset(lib, id).Some? ==>
      r == IosLibrary.ThumbnailFile(s.store, FetchAsset(lib, id).value, width, height, quality, hash, render)
  {
    if id in s.picked then ThumbnailForPickedItem(s.store, id, s.picked[id], width, height, quality, hash, render)
    else
      var asset := FetchAsset(lib, id);
      if asset.None? then Fetched(s.store, None)
      else IosLibrary.ThumbnailFile(s.store, asset.value, width, height, quality, hash, render)
  }

  /** A picked identifier shadows the photo library: the answer does not
      depend on the library or on the export, and the full-resolution answer
      leaves the cache as it was. */
  lemma PickedItemsTakePrecedence(s: Service, lib1: IosLibrary.Library, lib2: IosLibrary.Library, id: string,
                                  width: int, height: int, quality: real, hash: string -> string,
                                  registry: Lookups.TypeRegistry, e1: ArtifactStore.Outcome, e2: ArtifactStore.Outcome,
                                  render: ArtifactStore.Outcome)
    requires id in s.picked
    ensures FetchFullResolutionFile(s, lib1, id, hash, registry, e1) == FetchFullResolutionFile(s, lib2, id, hash, registry, e2)
    ensures FetchFullResolutionFile(s, lib1, id, hash, registry, e1).store == s.store
    ensures FetchThumbnailFile(s, lib1, id, width, height, quality, hash, render)
         == FetchThumbnailFile(s, lib2, id, width, height, quality, hash, render)
  {
  }

  /** A decoded picked image: its pixel size, the outcome of encoding it as
      JPEG and writing it atomically (nothing produced when `jpegData` gives
      nil), and the outcome of rendering and writing its thumbnail. */
  datatype LoadedImage = LoadedImage(pixelWidth: int, pixelHeight: int, full: ArtifactStore.Outcome, thumbnail: ArtifactStore.Outcome)

  /** A picked movie's temporary file: its name (the URL's last path
      component), the outcome of copying it into the cache, the duration when
      it is finite, the track's natural size, and the outcome of rendering
      its thumbnail. */
  datatype LoadedMovie = LoadedMovie(tempName: string, copy: ArtifactStore.Outcome, duration: Option<real>,
                                     width: int, height: int, thumbnail: ArtifactStore.Outcome)

  /** One `PHPickerResult`. `uuid` stands for the random UUID drawn when the
      result has no asset identifier; `image` and `movie` are what loading
      the object or the file representation delivered, if anything. */
  datatype PickerResult = PickerResult(
    assetIdentifier: Option<string>,
    uuid: string,
    suggestedName: Option<string>,
    canLoadImage: bool,
    hasMovie: bool,
    image: Option<LoadedImage>,
    movie: Option<LoadedMovie>)

  /** The identifier a picker result is known by. */
  function PickedIdentifier(result: PickerResult): string {
    if result.assetIdentifier.Some? then result.assetIdentifier.value else "picked-" + result.uuid
  }

  /** The suggested name when there is a non-empty one, else `fallback`. */
  function BaseName(suggestedName: Option<string>, fallback: string): (name: string)
    ensures suggestedName.Some? && suggestedName.value != "" ==> name == suggestedName.value
    ensures suggestedName.None? || suggestedName.value == "" ==> name == fallback
  {
    if suggestedName.None? || suggestedName.value == "" then fallback else suggestedName.value
  }

  /** The base name's extension, or `default` when it has none. */
  function StoredExtension(baseName: string, default: string): (ext: string)
    ensures Text.PathExtension(baseName) != "" ==> ext == Text.PathExtension(baseName)
    ensures Text.PathExtension(baseName) == "" ==> ext == default
  {
    if Text.PathExtension(baseName) == "" then default else Text.PathExtension(baseName)
  }

  /** The thumbnail a picked item is created with when the options ask for
      one: rendered and written without looking for an existing file. */
  function PickedThumbnail(store: ArtifactStore.Store, id: string, o: Options.PickOptions, hash: string -> string,
                           render: ArtifactStore.Outcome): (r: Fetched)
    ensures !(o.thumbnailWidth > 0 && o.thumbnailHeight > 0) ==> r == Fetched(store, None)
    ensures var path := CacheNames.IosThumbnailPath(hash, id, o.thumbnailWidth, o.thumbnailHeight, o.thumbnailQuality);
      && r.store - {path} == store - {path}
      && (r.file.Some? <==> o.thumbnailWidth > 0 && o.thumbnailHeight > 0 && render.Produced?)
      && (r.file.None? ==> r.store == store)
      && (r.file.Some? ==> path in r.store && r.store[path] == render.data && r.file.value == FileResult(path, "image/jpeg", |render.data|))
  {
    if o.thumbnailWidth > 0 && o.thumbnailHeight > 0 then
      var path := CacheNames.IosThumbnailPath(hash, id, o.thumbnailWidth, o.thumbnailHeight, o.thumbnailQuality);
      var fill := ArtifactStore.IosWrite(store, path, render);
      if fill.reply.Served? then Fetched(fill.store, Some(Described(fill.store, path, "image/jpeg")))
      else Fetched(fill.store, None)
    else Fetched(store, None)
  }

  /** `createAssetFromPickedImage`: the JPEG encoding is stored under the
      identifier's digest with the base name's extension (`jpg` by default);
      on failure nothing changes. On success the thumbnail is created when
      asked for and the item is recorded as an image. */
  function CreateFromPickedImage(s: Service, id: string, suggestedName: Option<string>, image: LoadedImage,
                                 o: Options.PickOptions, hash: string -> string, registry: Lookups.TypeRegistry): (r: (Service, Option<AssetRecord>))
    ensures var baseName := BaseName(suggestedName, id + ".jpg");
      var path := CacheNames.IosFullPath(hash, id, StoredExtension(baseName, "jpg"));
      var mime := Lookups.IosMimeType(None, path.name, registry);
      && (r.1.Some? <==> image.full.Produced?)
      && (r.1.None? ==> r.0 == s)
      && (r.1.Some? ==>
            && r.0.picked == s.picked[id := PickedItem(path, mime, "image")]
            && path in r.0.store && r.0.store[path] == image.full.data
            && r.1.value.id == id && r.1.value.fileName == baseName && r.1.value.kind == "image"
            && r.1.value.mimeType == mime
            && r.1.value.width == image.pixelWidth && r.1.value.height == image.pixelHeight
            && r.1.value.file == Some(FileResult(path, mime, |image.full.data|))
            && r.1.value.albumIds.None? && r.1.value.creationDate.None?
            && r.1.value.duration.None? && r.1.value.modificationDate.None?
            && r.1.value.latitude.None? && r.1.value.longitude.None? && r.1.value.size.None?
            && var thumb := PickedThumbnail(s.store[path := image.full.data], id, o, hash, image.thumbnail);
               r.1.value.thumbnail == thumb.file && r.0.store == thumb.store)
  {
    var baseName := BaseName(suggestedName, id + ".jpg");
    var path := CacheNames.IosFullPath(hash, id, StoredExtension(baseName, "jpg"));
    var written := ArtifactStore.IosWrite(s.store, path, image.full);
    if !written.reply.Served? then (s, None)
    else
      var mime := Lookups.IosMimeType(None, path.name, registry);
      var file := Described(written.store, path, mime);
      var thumb := PickedThumbnail(written.store, id, o, hash, image.thumbnail);
      var thumbPath := CacheNames.IosThumbnailPath(hash, id, o.thumbnailWidth, o.thumbnailHeight, o.thumbnailQuality);
      assert path in thumb.store && thumb.store[path] == written.store[path] by {
        assert thumbPath.directory != path.directory;
        assert path in written.store - {thumbPath};
      }
      (Service(s.picked[id := PickedItem(path, mime, "image")], thumb.store),
       Some(AssetRecord(id, baseName, "image", image.pixelWidth, image.pixelHeight, None, None, None, None, None,
                        mime, None, thumb.file, Some(file), None)))
  }

  /** `createAssetFromPickedVideo`: the movie is copied over any file of the
      same name, with the base name's extension (`mov` by default); a failed
      copy records nothing and leaves no file. On success the thumbnail is
      created when asked for and the item is recorded as a video. */
  function CreateFromPickedVideo(s: Service, id: string, suggestedName: Option<string>, movie: LoadedMovie,
                                 o: Options.PickOptions, hash: string -> string, registry: Lookups.TypeRegistry): (r: (Service, Option<AssetRecord>))
    ensures var baseName := BaseName(suggestedName, movie.tempName);
      var path := CacheNames.IosFullPath(hash, id, StoredExtension(baseName, "mov"));
      var mime := Lookups.IosMimeType(None, path.name, registry);
      && (r.1.Some? <==> movie.copy.Produced?)
      && (r.1.None? ==> r.0 == Service(s.picked, s.store - {path}))
      && (r.1.Some? ==>
            && r.0.picked == s.picked[id := PickedItem(path, mime, "video")]
            && path in r.0.store && r.0.store[path] == movie.copy.data
            && r.1.value.id == id && r.1.value.fileName == baseName && r.1.value.kind == "video"
            && r.1.value.mimeType == mime && r.1.value.duration == movie.duration
            && r.1.value.file == Some(FileResult(path, mime, |movie.copy.data|))
            && r.1.value.width == movie.width && r.1.value.height == movie.height
            && r.1.value.albumIds.None? && r.1.value.creationDate.None? && r.1.value.modificationDate.None?
            && r.1.value.latitude.None? && r.1.value.longitude.None? && r.1.value.size.None?
            && var thumb := PickedThumbnail(s.store[path := movie.copy.data], id, o, hash, movie.thumbnail);
               r.1.value.thumbnail == thumb.file && r.0.store == thumb.store)
  {
    var baseName := BaseName(suggestedName, movie.tempName);
    var path := CacheNames.IosFullPath(hash, id, StoredExtension(baseName, "mov"));
    var copied := ArtifactStore.IosReplace(s.store, path, movie.copy);
    if !copied.reply.Served? then (Service(s.picked, copied.store), None)
    else
      var mime := Lookups.IosMimeType(None, path.name, registry);
      var file := Described(copied.store, path, mime);
      var thumb := PickedThumbnail(copied.store, id, o, hash, movie.thumbnail);
      (Service(s.picked[id := PickedItem(path, mime, "video")], thumb.store),
       Some(AssetRecord(id, baseName, "video", movie.width, movie.height, movie.duration, None, None, None, None,
                        mime, None, thumb.file, Some(file), None)))
  }

  /** `assetFromPickerResult`: the image route when images are wanted and the
      provider can load one, else the movie route when videos are wanted and
      the provider has a movie, else nothing. A route whose load delivers
      nothing gives nothing and changes nothing. */
  function AssetFromPickerResult(s: Service, result: PickerResult, o: Options.PickOptions,
                                 hash: string -> string, registry: Lookups.TypeRegistry): (r: (Service, Option<AssetRecord>))
    ensures r.1.Some? ==> r.1.value.id == PickedIdentifier(result) && PickedIdentifier(result) in r.0.picked
    ensures r.1.Some? ==> r.1.value.kind == r.0.picked[PickedIdentifier(result)].kind
    ensures r.1.Some? && r.1.value.kind == "image" ==> o.includeImages && result.canLoadImage
    ensures r.1.Some? && r.1.value.kind == "video" ==> o.includeVideos && result.hasMovie && !(o.includeImages && result.canLoadImage)
    ensures r.1.Some? ==> r.1.value.kind == "image" || r.1.value.kind == "video"
    ensures r.1.None? ==> r.0.picked == s.picked
    ensures forall k :: k in s.picked && k != PickedIdentifier(result) ==> k in r.0.picked && r.0.picked[k] == s.picked[k]
    ensures o.includeImages && result.canLoadImage ==>
              r == if result.image.None? then (s, None)
                   else CreateFromPickedImage(s, PickedIdentifier(result), result.suggestedName, result.image.value, o, hash, registry)
    ensures !(o.includeImages && result.canLoadImage) && o.includeVideos && result.hasMovie ==>
              r == if result.movie.None? then (s, None)
                   else CreateFromPickedVideo(s, PickedIdentifier(result), result.suggestedName, result.movie.value, o, hash, registry)
    ensures !Loadable(result, o) ==> r == (s, None)
  {
    var id := PickedIdentifier(result);
    if o.includeImages && result.canLoadImage then
      if result.image.None? then (s, None)
      else CreateFromPickedImage(s, id, result.suggestedName, result.image.value, o, hash, registry)
    else if o.includeVideos && result.hasMovie then
      if result.movie.None? then (s, None)
      else CreateFromPickedVideo(s, id, result.suggestedName, result.movie.value, o, hash, registry)
    else (s, None)
  }

  /** Whether `assetFromPickerResult` takes a route for the result at all. */
  predicate Loadable(result: PickerResult, o: Options.PickOptions) {
    (o.includeImages && result.canLoadImage) || (o.includeVideos && result.hasMovie)
  }

  /** The identifiers the results are known by. */
  function IdentifiersOf(results: seq<PickerResult>): set<string> {
    set r | r in results :: PickedIdentifier(r)
  }

  /** One picker result turned into an asset, as `assetFromPickerResult`
      does it. */
  type PickStep = (Service, PickerResult) -> (Service, Option<AssetRecord>)

  /** A step that reports an asset under the result's identifier, records it
      as picked, and keeps the items picked before. */
  ghost predicate WellBehaved(step: PickStep) {
    forall t, x ::
      && (step(t, x).1.Some? ==> step(t, x).1.value.id == PickedIdentifier(x) && PickedIdentifier(x) in step(t, x).0.picked)
      && (forall k :: k in t.picked ==> k in step(t, x).0.picked)
  }

  /** The results handed to `step` one after another, in picker order. */
  function FoldResults(s: Service, results: seq<PickerResult>, step: PickStep): (r: (Service, seq<AssetRecord>))
    ensures |r.1| <= |results|
    ensures WellBehaved(step) ==> forall k :: k in s.picked ==> k in r.0.picked
    ensures WellBehaved(step) ==> forall i :: 0 <= i < |r.1| ==> r.1[i].id in r.0.picked && r.1[i].id in IdentifiersOf(results)
    decreases |results|
  {
    if |results| == 0 then (s, [])
    else
      var first := step(s, results[0]);
      var rest := FoldResults(first.0, results[1..], step);
      assert IdentifiersOf(results[1..]) <= IdentifiersOf(results);
      (rest.0, if first.1.Some? then [first.1.value] + rest.1 else rest.1)
  }

  /** `processPickerResults`, with the results completing in picker order:
      every asset that was created is reported, and nothing else. */
  function ProcessPickerResults(s: Service, results: seq<PickerResult>, o: Options.PickOptions,
                                hash: string -> string, registry: Lookups.TypeRegistry): (r: (Service, seq<AssetRecord>))
    ensures |r.1| <= |results|
    ensures forall k :: k in s.picked ==> k in r.0.picked
    ensures forall i :: 0 <= i < |r.1| ==> r.1[i].id in r.0.picked && r.1[i].id in IdentifiersOf(results)
  {
    var step := (t: Service, x: PickerResult) => AssetFromPickerResult(t, x, o, hash, registry);
    assert WellBehaved(step);
    FoldResults(s, results, step)
  }

  /** The picker flow reports, in order, the asset `assetFromPickerResult`
      yields for the first result, if any, followed by what the remaining
      results yield in the service that first result left behind. */
  lemma PickerResultsInOrder(s: Service, x: PickerResult, rest: seq<PickerResult>, o: Options.PickOptions,
                             hash: string -> string, registry: Lookups.TypeRegistry)
    ensures var (s1, first) := AssetFromPickerResult(s, x, o, hash, registry);
      var (s2, later) := ProcessPickerResults(s1, rest, o, hash, registry);
      ProcessPickerResults(s, [x] + rest, o, hash, registry)
        == (s2, if first.Some? then [first.value] + later else later)
  {
    assert ([x] + rest)[0] == x;
    assert ([x] + rest)[1..] == rest;
  }

  /** Results the picker flow takes no route for report nothing and change
      nothing. */
  lemma {:induction false} NothingLoadableNothingReported(s: Service, results: seq<PickerResult>, o: Options.PickOptions,
                                                         hash: string -> string, registry: Lookups.TypeRegistry)
    requires forall j :: 0 <= j < |results| ==> !Loadable(results[j], o)
    ensures ProcessPickerResults(s, results, o, hash, registry) == (s, [])
    decreases |results|
  {
    if |results| > 0 {
      assert AssetFromPickerResult(s, results[0], o, hash, registry) == (s, None);
      NothingLoadableNothingReported(s, results[1..], o, hash, registry);
    }
  }

  /** A picked image is served back as ingested: asking for its
      full-resolution file right after returns the file the asset reported,
      wherever the library is, and asking for a thumbnail of the size it was
      created with returns the thumbnail it reported, without rendering. */
  lemma PickedImageIsServedBack(s: Service, id: string, suggestedName: Option<string>, image: LoadedImage,
                                o: Options.PickOptions, hash: string -> string, registry: Lookups.TypeRegistry,
                                lib: IosLibrary.Library, exporting: ArtifactStore.Outcome, render: ArtifactStore.Outcome)
    requires image.full.Produced?
    ensures var (s', asset) := CreateFromPickedImage(s, id, suggestedName, image, o, hash, registry);
      FetchFullResolutionFile(s', lib, id, hash, registry, exporting) == Fetched(s'.store, asset.value.file)
    ensures var (s', asset) := CreateFromPickedImage(s, id, suggestedName, image, o, hash, registry);
      asset.value.thumbnail.Some? ==>
        FetchThumbnailFile(s', lib, id, o.thumbnailWidth, o.thumbnailHeight, o.thumbnailQuality, hash, render)
          == Fetched(s'.store, asset.value.thumbnail)
  {
    var (s', asset) := CreateFromPickedImage(s, id, suggestedName, image, o, hash, registry);
    var baseName := BaseName(suggestedName, id + ".jpg");
    var path := CacheNames.IosFullPath(hash, id, StoredExtension(baseName, "jpg"));
    var thumbPath := CacheNames.IosThumbnailPath(hash, id, o.thumbnailWidth, o.thumbnailHeight, o.thumbnailQuality);
    CacheNames.ThumbnailsAndFilesApart(hash, id, o.thumbnailWidth, o.thumbnailHeight, o.thumbnailQuality, id,
                                       StoredExtension(baseName, "jpg"), None);
    assert path != thumbPath;
  }

  /** A picked movie is served back as ingested: asking for its
      full-resolution file right after returns the file the asset reported,
      and asking for a thumbnail of the size it was created with returns the
      thumbnail it reported, without rendering again. */
  lemma PickedVideoIsServedBack(s: Service, id: string, suggestedName: Option<string>, movie: LoadedMovie,
                                o: Options.PickOptions, hash: string -> string, registry: Lookups.TypeRegistry,
                                lib: IosLibrary.Library, exporting: ArtifactStore.Outcome, render: ArtifactStore.Outcome)
    requires movie.copy.Produced?
    ensures var (s', asset) := CreateFromPickedVideo(s, id, suggestedName, movie, o, hash, registry);
      FetchFullResolutionFile(s', lib, id, hash, registry, exporting) == Fetched(s'.store, asset.value.file)
    ensures var (s', asset) := CreateFromPickedVideo(s, id, suggestedName, movie, o, hash, registry);
      asset.value.thumbnail.Some? ==>
        FetchThumbnailFile(s', lib, id, o.thumbnailWidth, o.thumbnailHeight, o.thumbnailQuality, hash, render)
          == Fetched(s'.store, asset.value.thumbnail)
  {
    var (s', asset) := CreateFromPickedVideo(s, id, suggestedName, movie, o, hash, registry);
    var baseName := BaseName(suggestedName, movie.tempName);
    var path := CacheNames.IosFullPath(hash, id, StoredExtension(baseName, "mov"));
    var thumbPath := CacheNames.IosThumbnailPath(hash, id, o.thumbnailWidth, o.thumbnailHeight, o.thumbnailQuality);
    CacheNames.ThumbnailsAndFilesApart(hash, id, o.thumbnailWidth, o.thumbnailHeight, o.thumbnailQuality, id,
                                       StoredExtension(baseName, "mov"), None);
    assert path != thumbPath;
  }

  /** A picked image's MIME type and stored extension follow its suggested
      name, not the JPEG encoding that is written: a `.png` name is stored as
      `<digest>.png` and reported as `image/png`. */
  lemma PickedImageTypeFollowsName(s: Service, id: string, stem: string, image: LoadedImage,
                                   o: Options.PickOptions, hash: string -> string, registry: Lookups.TypeRegistry)
    requires image.full.Produced?
    requires |stem| > 0 && '/' !in stem
    requires |hash(id)| > 0 && '/' !in hash(id)
    ensures var asset := CreateFromPickedImage(s, id, Some(stem + ".png"), image, o, hash, registry).1.value;
      asset.mimeType == "image/png" && asset.file.value.path.name == hash(id) + ".png"
  {
    var baseName := stem + ".png";
    DotPng(stem);
    Text.PathExtensionOfJoin(stem, "png");
    var ext := StoredExtension(BaseName(Some(baseName), id + ".jpg"), "jpg");
    assert ext == "png";
    var path := CacheNames.IosFullPath(hash, id, ext);
    var r := CreateFromPickedImage(s, id, Some(baseName), image, o, hash, registry);
    assert r.1.Some? && r.1.value.mimeType == Lookups.IosMimeType(None, path.name, registry);
    DotPng(hash(id));
    assert r.1.value.file.value.path == path;
    PngFileName(hash(id), registry);
  }

  lemma DotPng(a: string)
    ensures a + "." + "png" == a + ".png"
  {
  }

  lemma LowerPng()
    ensures Text.AsciiLower("png") == "png"
  {
    var l := Text.AsciiLower("png");
    assert l[0] == 'p' && l[1] == 'n' && l[2] == 'g';
  }

  /** A `.png` name is reported as `image/png`. */
  lemma PngFileName(stem: string, registry: Lookups.TypeRegistry)
    requires |stem| > 0 && '/' !in stem
    ensures Lookups.IosMimeType(None, stem + "." + "png", registry) == "image/png"
  {
    LowerPng();
    Lookups.MimeTypeOfFileName(stem, "png", registry, Lookups.Photo, "");
  }
}

=== FILE: lookups.dfy ===
/** The small total lookup tables: the iOS MIME type and file-extension
    choices for a PhotoKit resource, the Android extension guessed from a MIME
    type, and the iOS mapping from PhotoKit authorization status to the
    plugin's four states. */
module Lookups {
  import opened Results
  import Text

  /** What iOS knows about a `PHAssetResource`. */
  datatype ResourceKind = Photo | FullSizePhoto | AlternatePhoto | Video | FullSizeVideo | OtherResource
  datatype Resource = Resource(kind: ResourceKind, originalFilename: string, uniformTypeIdentifier: string)

  /** The system's uniform-type registry (`UTType`), seen as two partial
      tables: preferred MIME type and preferred file extension by type id. */
  datatype TypeRegistry = TypeRegistry(mimeOf: string -> Option<string>, extensionOf: string -> Option<string>)

  const OctetStream: string := "application/octet-stream"

  /** The iOS fallback table, keyed by lower-case extension. */
  const MimeTable: map<string, string> := map[
    "flv" := "video/x-flv",
    "mp4" := "video/mp4",
    "m3u8" := "application/x-mpegURL",
    "ts" := "video/MP2T",
    "3gp" := "video/3gpp",
    "mov" := "video/quicktime",
    "avi" := "video/x-msvideo",
    "wmv" := "video/x-ms-wmv",
    "gif" := "image/gif",
    "jpg" := "image/jpeg",
    "jpeg" := "image/jpeg",
    "png" := "image/png",
    "tiff" := "image/tiff",
    "tif" := "image/tiff",
    "heic" := "image/heic",
    "heif" := "image/heif"
  ]

  /** The fallback table's answer for a file name: the entry for its
      lower-cased extension, else `application/octet-stream`. */
  function TableMime(name: string): (mime: string)
    ensures mime in MimeTable.Values || mime == OctetStream
  {
    var ext := Text.AsciiLower(Text.PathExtension(name));
    if ext in MimeTable then MimeTable[ext] else OctetStream
  }

  /** `mimeType(for:fallbackName:)`: the registry's MIME type for the
      resource's type id; otherwise the table entry for the lower-cased
      extension of the resource's original file name (or of `fallbackName`
      when there is no resource); otherwise `application/octet-stream`. */
  function IosMimeType(resource: Option<Resource>, fallbackName: string, registry: TypeRegistry): (mime: string)
    ensures resource.Some? && registry.mimeOf(resource.value.uniformTypeIdentifier).Some? ==>
              mime == registry.mimeOf(resource.value.uniformTypeIdentifier).value
    ensures resource.Some? && registry.mimeOf(resource.value.uniformTypeIdentifier).None? ==>
              mime == TableMime(resource.value.originalFilename)
    ensures resource.None? ==> mime == TableMime(fallbackName)
  {
    if resource.Some? && registry.mimeOf(resource.value.uniformTypeIdentifier).Some? then
      registry.mimeOf(resource.value.uniformTypeIdentifier).value
    else
      var fallbackFilename := if resource.Some? then resource.value.originalFilename else fallbackName;
      var ext := Text.AsciiLower(Text.PathExtension(fallbackFilename));
      if ext in MimeTable then MimeTable[ext] else OctetStream
  }

  /** A file named `stem.ext` gets the table entry for `ext` whatever its
      letter case, and `application/octet-stream` when `ext` is unknown;
      so does a resource of that name the registry has no MIME type for. */
  lemma MimeTypeOfFileName(stem: string, ext: string, registry: TypeRegistry, kind: ResourceKind, uti: string)
    requires |stem| > 0 && '/' !in stem
    requires '/' !in ext && '.' !in ext
    ensures Text.AsciiLower(ext) in MimeTable ==>
              IosMimeType(None, stem + "." + ext, registry) == MimeTable[Text.AsciiLower(ext)]
    ensures Text.AsciiLower(ext) !in MimeTable ==>
              IosMimeType(None, stem + "." + ext, registry) == OctetStream
    ensures registry.mimeOf(uti).None? && Text.AsciiLower(ext) in MimeTable ==>
              IosMimeType(Some(Resource(kind, stem + "." + ext, uti)), "", registry) == MimeTable[Text.AsciiLower(ext)]
    ensures registry.mimeOf(uti).None? && Text.AsciiLower(ext) !in MimeTable ==>
              IosMimeType(Some(Resource(kind, stem + "." + ext, uti)), "", registry) == OctetStream
  {
    Text.PathExtensionOfJoin(stem, ext);
  }

  /** `suggestedExtension(for:)`: the extension of the original file name,
      else the registry's preferred extension for the type id, else `dat`. */
  function SuggestedExtension(resource: Option<Resource>, registry: TypeRegistry): (ext: string)
    ensures resource.None? ==> ext == "dat"
    ensures resource.Some? && Text.PathExtension(resource.value.originalFilename) != "" ==>
              ext == Text.PathExtension(resource.value.originalFilename)
    ensures resource.Some? && Text.PathExtension(resource.value.originalFilename) == "" ==>
              ext == registry.extensionOf(resource.value.uniformTypeIdentifier).GetOr("dat")
  {
    if resource.Some? && resource.value.originalFilename != "" && Text.PathExtension(resource.value.originalFilename) != "" then
      Text.PathExtension(resource.value.originalFilename)
    else if resource.Some? && registry.extensionOf(resource.value.uniformTypeIdentifier).Some? then
      registry.extensionOf(resource.value.uniformTypeIdentifier).value
    else
      "dat"
  }

  /** A resource named `stem.ext` is suggested `ext`, whatever the registry
      says. */
  lemma SuggestedExtensionOfName(stem: string, ext: string, kind: ResourceKind, uti: string, registry: TypeRegistry)
    requires |stem| > 0 && '/' !in stem
    requires |ext| > 0 && '/' !in ext && '.' !in ext
    ensures SuggestedExtension(Some(Resource(kind, stem + "." + ext, uti)), registry) == ext
  {
    Text.PathExtensionOfJoin(stem, ext);
  }

  /** A resource whose name has no dot is suggested the registry's
      extension, or `dat`. */
  lemma SuggestedExtensionWithoutDot(name: string, kind: ResourceKind, uti: string, registry: TypeRegistry)
    requires '/' !in name && '.' !in name
    ensures SuggestedExtension(Some(Resource(kind, name, uti)), registry) == registry.extensionOf(uti).GetOr("dat")
  {
    Text.NoDotNoExtension(name);
  }

  /** Index of the first occurrence of `c` in `s`, or -1 (`String.indexOf`). */
  function IndexOf(s: string, c: char): (i: int)
    ensures -1 <= i < |s|
    ensures i >= 0 ==> s[i] == c
    ensures forall k :: 0 <= k < |s| && (i == -1 || k < i) ==> s[k] != c
    decreases |s|
  {
    if |s| == 0 then -1
    else if s[0] == c then 0
    else
      var j := IndexOf(s[1..], c);
      if j == -1 then -1 else j + 1
  }

  /** The five MIME types Android maps to a fixed extension. */
  const KnownExtensions: map<string, string> := map[
    "image/jpeg" := ".jpg",
    "image/png" := ".png",
    "image/gif" := ".gif",
    "video/mp4" := ".mp4",
    "video/quicktime" := ".mov"
  ]

  /** `guessExtension`: `.dat` for a missing type, a fixed extension for the
      five known types, otherwise a dot and the text after the first `/`. */
  function GuessExtension(mimeType: Option<string>): (ext: string)
    ensures |ext| >= 1 && ext[0] == '.'
    ensures mimeType.None? ==> ext == ".dat"
  {
    if mimeType.None? then ".dat"
    else
      var m := mimeType.value;
      if m == "image/jpeg" then ".jpg"
      else if m == "image/png" then ".png"
      else if m == "image/gif" then ".gif"
      else if m == "video/mp4" then ".mp4"
      else if m == "video/quicktime" then ".mov"
      else "." + m[IndexOf(m, '/') + 1..]
  }

  /** The five known types get their fixed extension. */
  lemma GuessExtensionKnown(m: string)
    requires m in KnownExtensions
    ensures GuessExtension(Some(m)) == KnownExtensions[m]
  {
  }

  /** For any other type `t/sub` the extension is `.sub`. */
  lemma GuessExtensionSubtype(t: string, sub: string)
    requires '/' !in t
    requires t + "/" + sub !in KnownExtensions
    ensures GuessExtension(Some(t + "/" + sub)) == "." + sub
  {
    var m := t + "/" + sub;
    assert m[|t|] == '/';
    assert forall k :: 0 <= k < |t| ==> m[k] == t[k];
    assert IndexOf(m, '/') == |t|;
    assert m[|t| + 1..] == sub;
  }

  /** A type with no `/` at all becomes its own extension. */
  lemma GuessExtensionWithoutSlash(m: string)
    requires '/' !in m
    requires m !in KnownExtensions
    ensures GuessExtension(Some(m)) == "." + m
  {
    assert IndexOf(m, '/') == -1;
  }

  /** PhotoKit's `PHAuthorizationStatus`; `Unknown` stands for any status a
      later system adds. */
  datatype PHAuthorizationStatus = NotDetermined | Restricted | Denied | Authorized | Limited | Unknown(raw: int)

  /** The plugin's four states. */
  datatype AuthorizationState = StateAuthorized | StateLimited | StateDenied | StateNotDetermined

  /** The state name reported to the client. */
  function StateName(state: AuthorizationState): string {
    match state
    case StateAuthorized => "authorized"
    case StateLimited => "limited"
    case StateDenied => "denied"
    case StateNotDetermined => "notDetermined"
  }

  /** `authorizationState(from:)`. */
  function AuthorizationStateOf(status: PHAuthorizationStatus): (state: AuthorizationState)
    ensures state == StateNotDetermined <==> status == NotDetermined
    ensures state == StateDenied <==> status == Denied || status == Restricted || status.Unknown?
    ensures state == StateAuthorized <==> status == Authorized
    ensures state == StateLimited <==> status == Limited
  {
    match status
    case Authorized => StateAuthorized
    case Denied => StateDenied
    case Restricted => StateDenied
    case NotDetermined => StateNotDetermined
    case Limited => StateLimited
    case Unknown(_) => StateDenied
  }

  /** `isAccessGranted`: authorized or limited. */
  predicate IsAccessGranted(state: AuthorizationState) {
    match state
    case StateAuthorized => true
    case StateLimited => true
    case StateDenied => false
    case StateNotDetermined => false
  }

  /** Access is granted exactly for a full or a limited grant. */
  lemma AccessGrantedExactly(status: PHAuthorizationStatus)
    ensures IsAccessGranted(AuthorizationStateOf(status)) <==> status == Authorized || status == Limited
  {
  }

  /** Distinct states report distinct names. */
  lemma StateNamesDistinct(a: AuthorizationState, b: AuthorizationState)
    requires StateName(a) == StateName(b)
    ensures a == b
  {
  }
}

=== FILE: options.dfy ===
/** Normalisation of the two request-option records, `getLibrary` options and
    `pickMedia` options, once as the iOS initialisers write it and once as the
    Android `fromCall` factories write it. Both platforms are stated against
    one shared normalised record and one contract per record, and the
    contracts pin the result down, so the two platforms agree on every call
    that gives `thumbnailQuality` as a number. They part on a string: the
    iOS `getDouble` parses it, the Android one ignores it. */
module Options {
  import opened Results

  /** The option values a bridge call carries, by key and by type. A key that
      is missing, or present with a value of another type, is absent from the
      map of that type, which is how `getInt`/`getBool`/`getDouble` see it;
      `reals` holds every numeric value, integers included. `strings` holds
      the string values. */
  datatype CallArgs = CallArgs(ints: map<string, int>, bools: map<string, bool>, reals: map<string, real>,
                               strings: map<string, string>)

  function GetInt(call: CallArgs, key: string): Option<int> {
    if key in call.ints then Some(call.ints[key]) else None
  }

  function GetBool(call: CallArgs, key: string, default: bool): bool {
    if key in call.bools then call.bools[key] else default
  }

  /** The Android `getDouble`: a number, else nothing. */
  function GetReal(call: CallArgs, key: string): Option<real> {
    if key in call.reals then Some(call.reals[key]) else None
  }

  /** The iOS `getDouble` extension: a number, else a string read by
      `Double(string)` (passed in as `parse`), else nothing. */
  function IosGetReal(call: CallArgs, key: string, parse: string -> Option<real>): (r: Option<real>)
    ensures key in call.reals ==> r == GetReal(call, key)
    ensures key !in call.strings ==> r == GetReal(call, key)
    ensures key !in call.reals && key in call.strings ==> r == parse(call.strings[key])
  {
    if key in call.reals then Some(call.reals[key])
    else if key in call.strings then parse(call.strings[key])
    else None
  }

  /** Library thumbnail defaults, shared by both platforms. */
  const DefaultThumbnailWidth: int := 512
  const DefaultThumbnailHeight: int := 384
  const DefaultThumbnailQuality: real := 0.5

  /** Picker thumbnail and selection defaults. */
  const PickThumbnailSize: int := 256
  const PickThumbnailQuality: real := 0.7
  const DefaultSelectionLimit: int := 1

  /** The `invalidOptions` / `IllegalArgumentException` cases. */
  datatype OptionsError = NegativeOffset | NegativeLimit | NegativeSelectionLimit

  /** The reason text both platforms attach to the rejection. */
  function Reason(e: OptionsError): string {
    match e
    case NegativeOffset => "offset must be greater than or equal to 0"
    case NegativeLimit => "limit must be greater than or equal to 0"
    case NegativeSelectionLimit => "selectionLimit must be greater than or equal to 0"
  }

  /** Normalised `getLibrary` options. A `None` limit means unbounded. */
  datatype LibraryOptions = LibraryOptions(
    offset: nat,
    limit: Option<nat>,
    includeImages: bool,
    includeVideos: bool,
    includeAlbumData: bool,
    includeCloudData: bool,
    useOriginalFileNames: bool,
    thumbnailWidth: nat,
    thumbnailHeight: nat,
    thumbnailQuality: real,
    includeFullResolutionData: bool)

  /** Normalised `pickMedia` options. */
  datatype PickOptions = PickOptions(
    selectionLimit: nat,
    includeImages: bool,
    includeVideos: bool,
    thumbnailWidth: nat,
    thumbnailHeight: nat,
    thumbnailQuality: real)

  /** `max(0.0, min(1.0, q))`. */
  function Clamp01(q: real): (r: real)
    ensures 0.0 <= r <= 1.0
    ensures 0.0 <= q <= 1.0 ==> r == q
    ensures q < 0.0 ==> r == 0.0
    ensures q > 1.0 ==> r == 1.0
  {
    if q < 0.0 then 0.0 else if q > 1.0 then 1.0 else q
  }

  /** `max(0, v)`. */
  function AtLeastZero(v: int): (r: nat)
    ensures v >= 0 ==> r == v
    ensures v < 0 ==> r == 0
  {
    if v < 0 then 0 else v
  }

  predicate GivenNegative(call: CallArgs, key: string) {
    GetInt(call, key).Some? && GetInt(call, key).value < 0
  }

  /** Media-type selection: both flags as given, except that when neither is
      selected images are switched on. */
  ghost predicate MediaSelection(call: CallArgs, images: bool, videos: bool) {
    var askedImages := GetBool(call, "includeImages", true);
    var askedVideos := GetBool(call, "includeVideos", false);
    && (images || videos)
    && videos == askedVideos
    && (images <==> askedImages || !askedVideos)
  }

  /** What every `getLibrary` parser promises for a call, given the value
      its `getDouble` read for `thumbnailQuality`. */
  ghost predicate LibraryContract(call: CallArgs, quality: Option<real>, r: Result<LibraryOptions, OptionsError>) {
    && (r.Err? <==> GivenNegative(call, "offset") || GivenNegative(call, "limit"))
    && (r.Err? ==> r.error == if GivenNegative(call, "offset") then NegativeOffset else NegativeLimit)
    && (r.Ok? ==>
          var o := r.value;
          && o.offset == GetInt(call, "offset").GetOr(0)
          && (o.limit.None? <==> GetInt(call, "limit").GetOr(0) == 0)
          && (o.limit.Some? ==> o.limit.value > 0 && GetInt(call, "limit") == Some(o.limit.value))
          && MediaSelection(call, o.includeImages, o.includeVideos)
          && o.includeAlbumData == GetBool(call, "includeAlbumData", false)
          && o.includeCloudData == GetBool(call, "includeCloudData", true)
          && o.useOriginalFileNames == GetBool(call, "useOriginalFileNames", false)
          && o.includeFullResolutionData == GetBool(call, "includeFullResolutionData", false)
          && o.thumbnailWidth == AtLeastZero(GetInt(call, "thumbnailWidth").GetOr(DefaultThumbnailWidth))
          && o.thumbnailHeight == AtLeastZero(GetInt(call, "thumbnailHeight").GetOr(DefaultThumbnailHeight))
          && o.thumbnailQuality == Clamp01(quality.GetOr(DefaultThumbnailQuality)))
  }

  /** What every `pickMedia` parser promises for a call. */
  ghost predicate PickContract(call: CallArgs, quality: Option<real>, r: Result<PickOptions, OptionsError>) {
    && (r.Err? <==> GivenNegative(call, "selectionLimit"))
    && (r.Err? ==> r.error == NegativeSelectionLimit)
    && (r.Ok? ==>
          var o := r.value;
          && o.selectionLimit == GetInt(call, "selectionLimit").GetOr(DefaultSelectionLimit)
          && MediaSelection(call, o.includeImages, o.includeVideos)
          && o.thumbnailWidth == AtLeastZero(GetInt(call, "thumbnailWidth").GetOr(PickThumbnailSize))
          && o.thumbnailHeight == AtLeastZero(GetInt(call, "thumbnailHeight").GetOr(PickThumbnailSize))
          && o.thumbnailQuality == Clamp01(quality.GetOr(PickThumbnailQuality)))
  }

  /** `PhotoLibraryGetLibraryOptions.init(from:)` on iOS. */
  function IosLibraryOptions(call: CallArgs, parse: string -> Option<real>): (r: Result<LibraryOptions, OptionsError>)
    ensures LibraryContract(call, IosGetReal(call, "thumbnailQuality", parse), r)
    ensures r.Ok? ==> r.value.includeImages || r.value.includeVideos
    ensures r.Ok? ==> 0.0 <= r.value.thumbnailQuality <= 1.0
  {
    var offset := GetInt(call, "offset").GetOr(0);
    if offset < 0 then Err(NegativeOffset)
    else
      var limitArg := GetInt(call, "limit");
      if limitArg.Some? && limitArg.value < 0 then Err(NegativeLimit)
      else
        var limit: Option<nat> :=
          if limitArg.Some? then (if limitArg.value == 0 then None else Some(limitArg.value)) else None;
        var images := GetBool(call, "includeImages", true);
        var videos := GetBool(call, "includeVideos", false);
        var images' := if !images && !videos then true else images;
        var width := GetInt(call, "thumbnailWidth").GetOr(DefaultThumbnailWidth);
        var height := GetInt(call, "thumbnailHeight").GetOr(DefaultThumbnailHeight);
        var quality := IosGetReal(call, "thumbnailQuality", parse).GetOr(DefaultThumbnailQuality);
        Ok(LibraryOptions(
          offset, limit, images', videos,
          GetBool(call, "includeAlbumData", false),
          GetBool(call, "includeCloudData", true),
          GetBool(call, "useOriginalFileNames", false),
          AtLeastZero(width), AtLeastZero(height), Clamp01(quality),
          GetBool(call, "includeFullResolutionData", false)))
  }

  /** `GetLibraryOptions.fromCall` on Android; an `IllegalArgumentException`
      is an `Err`. */
  function AndroidLibraryOptions(call: CallArgs): (r: Result<LibraryOptions, OptionsError>)
    ensures LibraryContract(call, GetReal(call, "thumbnailQuality"), r)
  {
    var offset := GetInt(call, "offset").GetOr(0);
    if offset < 0 then Err(NegativeOffset)
    else
      var limitValue := GetInt(call, "limit");
      if limitValue.Some? && limitValue.value < 0 then Err(NegativeLimit)
      else
        var limit: Option<nat> := if limitValue.Some? && limitValue.value > 0 then Some(limitValue.value) else None;
        var includeImages := GetBool(call, "includeImages", true);
        var includeVideos := GetBool(call, "includeVideos", false);
        var includeImages' := includeImages || !includeVideos;
        Ok(LibraryOptions(
          offset, limit, includeImages', includeVideos,
          GetBool(call, "includeAlbumData", false),
          GetBool(call, "includeCloudData", true),
          GetBool(call, "useOriginalFileNames", false),
          AtLeastZero(GetInt(call, "thumbnailWidth").GetOr(DefaultThumbnailWidth)),
          AtLeastZero(GetInt(call, "thumbnailHeight").GetOr(DefaultThumbnailHeight)),
          Clamp01(GetReal(call, "thumbnailQuality").GetOr(DefaultThumbnailQuality)),
          GetBool(call, "includeFullResolutionData", false)))
  }

  /** `PhotoLibraryPickOptions.init(from:)` on iOS. */
  function IosPickOptions(call: CallArgs, parse: string -> Option<real>): (r: Result<PickOptions, OptionsError>)
    ensures PickContract(call, IosGetReal(call, "thumbnailQuality", parse), r)
    ensures r.Ok? ==> r.value.includeImages || r.value.includeVideos
  {
    var selectionLimit := GetInt(call, "selectionLimit").GetOr(DefaultSelectionLimit);
    if selectionLimit < 0 then Err(NegativeSelectionLimit)
    else
      var images := GetBool(call, "includeImages", true);
      var videos := GetBool(call, "includeVideos", false);
      var images' := if !images && !videos then true else images;
      var width := GetInt(call, "thumbnailWidth").GetOr(PickThumbnailSize);
      var height := GetInt(call, "thumbnailHeight").GetOr(PickThumbnailSize);
      var quality := IosGetReal(call, "thumbnailQuality", parse).GetOr(PickThumbnailQuality);
      Ok(PickOptions(selectionLimit, images', videos, AtLeastZero(width), AtLeastZero(height), Clamp01(quality)))
  }

  /** `PickMediaOptions.fromCall` on Android. */
  function AndroidPickOptions(call: CallArgs): (r: Result<PickOptions, OptionsError>)
    ensures PickContract(call, GetReal(call, "thumbnailQuality"), r)
  {
    var limit := GetInt(call, "selectionLimit").GetOr(DefaultSelectionLimit);
    if limit < 0 then Err(NegativeSelectionLimit)
    else
      var includeImages := GetBool(call, "includeImages", true);
      var includeVideos := GetBool(call, "includeVideos", false);
      Ok(PickOptions(
        limit, includeImages || !includeVideos, includeVideos,
        AtLeastZero(GetInt(call, "thumbnailWidth").GetOr(PickThumbnailSize)),
        AtLeastZero(GetInt(call, "thumbnailHeight").GetOr(PickThumbnailSize)),
        Clamp01(GetReal(call, "thumbnailQuality").GetOr(PickThumbnailQuality))))
  }

  /** The library contract leaves no freedom: two results that meet it for
      the same call and the same quality read are equal. */
  lemma LibraryContractDetermines(call: CallArgs, quality: Option<real>,
                                  r1: Result<LibraryOptions, OptionsError>, r2: Result<LibraryOptions, OptionsError>)
    requires LibraryContract(call, quality, r1) && LibraryContract(call, quality, r2)
    ensures r1 == r2
  {
    if r1.Ok? {
      assert r1.value.limit == r2.value.limit;
    }
  }

  lemma PickContractDetermines(call: CallArgs, quality: Option<real>,
                               r1: Result<PickOptions, OptionsError>, r2: Result<PickOptions, OptionsError>)
    requires PickContract(call, quality, r1) && PickContract(call, quality, r2)
    ensures r1 == r2
  {
  }

  /** iOS and Android normalise identically every `getLibrary` call that does
      not give `thumbnailQuality` as a string. */
  lemma LibraryParsersAgree(call: CallArgs, parse: string -> Option<real>)
    requires "thumbnailQuality" !in call.strings
    ensures IosLibraryOptions(call, parse) == AndroidLibraryOptions(call)
  {
    LibraryContractDetermines(call, GetReal(call, "thumbnailQuality"), IosLibraryOptions(call, parse), AndroidLibraryOptions(call));
  }

  /** iOS and Android normalise identically every `pickMedia` call that does
      not give `thumbnailQuality` as a string. */
  lemma PickParsersAgree(call: CallArgs, parse: string -> Option<real>)
    requires "thumbnailQuality" !in call.strings
    ensures IosPickOptions(call, parse) == AndroidPickOptions(call)
  {
    PickContractDetermines(call, GetReal(call, "thumbnailQuality"), IosPickOptions(call, parse), AndroidPickOptions(call));
  }

  /** A `thumbnailQuality` given only as a string that `Double(string)` reads
      is honoured on iOS and ignored on Android, which keeps the default. */
  lemma StringQualityDisagrees(call: CallArgs, parse: string -> Option<real>, q: real)
    requires "thumbnailQuality" !in call.reals && "thumbnailQuality" in call.strings
    requires parse(call.strings["thumbnailQuality"]) == Some(q)
    ensures IosLibraryOptions(call, parse).Ok? ==>
      && IosLibraryOptions(call, parse).value.thumbnailQuality == Clamp01(q)
      && AndroidLibraryOptions(call).value.thumbnailQuality == DefaultThumbnailQuality
    ensures IosPickOptions(call, parse).Ok? ==>
      && IosPickOptions(call, parse).value.thumbnailQuality == Clamp01(q)
      && AndroidPickOptions(call).value.thumbnailQuality == PickThumbnailQuality
  {
  }

  /** A zero limit and an absent limit are the same request: unbounded. */
  lemma ZeroLimitIsUnbounded(call: CallArgs, parse: string -> Option<real>)
    requires !GivenNegative(call, "offset")
    requires GetInt(call, "limit") == Some(0) || GetInt(call, "limit") == None
    ensures IosLibraryOptions(call, parse).Ok? && AndroidLibraryOptions(call).Ok?
    ensures IosLibraryOptions(call, parse).value.limit == None && AndroidLibraryOptions(call).value.limit == None
  {
  }

  /** Asking for neither media type is the same request as asking for images
      only. */
  lemma NoMediaTypeMeansImages(call: CallArgs, parse: string -> Option<real>)
    requires GetBool(call, "includeImages", true) == false && GetBool(call, "includeVideos", false) == false
    requires IosLibraryOptions(call, parse).Ok?
    ensures IosLibraryOptions(call, parse).value.includeImages && !IosLibraryOptions(call, parse).value.includeVideos
    ensures IosLibraryOptions(call, parse) == IosLibraryOptions(call.(bools := call.bools["includeImages" := true]), parse)
  {
    var call' := call.(bools := call.bools["includeImages" := true]);
    assert call'.ints == call.ints && call'.reals == call.reals && call'.strings == call.strings;
    forall key | key != "includeImages"
      ensures GetBool(call', key, false) == GetBool(call, key, false)
      ensures GetBool(call', key, true) == GetBool(call, key, true)
    {
    }
    assert GetBool(call', "includeImages", true);
  }
}

=== FILE: paging.dfy ===
/** Turning `(offset, limit?, library rows)` into one page of assets plus a
    `hasMore` flag, as the iOS index window (`fetchLibrary` over a
    `PHFetchResult`) and the Android cursor loop (`fetchLibrary` over a
    `MediaStore` query) each do it.

    The library is a sequence of rows in sort order. Each platform turns a row
    into an asset descriptor or drops it (rows of a media type other than image
    or video); that per-row decision is the `convert` parameter, so both
    algorithms are pure functions of the rows. */
module Paging {
  import opened Results
  import Text

  datatype Page<A> = Page(assets: seq<A>, totalCount: nat, hasMore: bool)

  function Min(a: int, b: int): int {
    if a <= b then a else b
  }

  /** The converted rows that `convert` keeps, in row order. */
  function Collect<R, A>(rows: seq<R>, convert: R -> Option<A>): (out: seq<A>)
    ensures |out| <= |rows|
  {
    if |rows| == 0 then []
    else
      var last := rows[|rows| - 1];
      Collect(rows[..|rows| - 1], convert) + (if convert(last).Some? then [convert(last).value] else [])
  }

  /** `Collect` distributes over concatenation. */
  lemma {:induction false} CollectAppend<R, A>(a: seq<R>, b: seq<R>, convert: R -> Option<A>)
    ensures Collect(a + b, convert) == Collect(a, convert) + Collect(b, convert)
    decreases |b|
  {
    if |b| > 0 {
      var ab := a + b;
      assert ab[..|ab| - 1] == a + b[..|b| - 1];
      assert ab[|ab| - 1] == b[|b| - 1];
      CollectAppend(a, b[..|b| - 1], convert);
    } else {
      assert a + b == a;
    }
  }

  /** When `convert` keeps every row, nothing is dropped: asset i is the
      conversion of row i. */
  lemma {:induction false} CollectKeepsAll<R, A>(rows: seq<R>, convert: R -> Option<A>)
    requires forall i :: 0 <= i < |rows| ==> convert(rows[i]).Some?
    ensures |Collect(rows, convert)| == |rows|
    ensures forall i :: 0 <= i < |rows| ==> Collect(rows, convert)[i] == convert(rows[i]).value
    decreases |rows|
  {
    if |rows| > 0 {
      var init := rows[..|rows| - 1];
      assert forall i :: 0 <= i < |init| ==> init[i] == rows[i];
      CollectKeepsAll(init, convert);
    }
  }

  /** Kept assets keep source order: each output element comes from a row,
      and the rows they come from are strictly increasing. */
  lemma {:induction false} CollectOrigins<R, A>(rows: seq<R>, convert: R -> Option<A>) returns (origin: seq<nat>)
    ensures |origin| == |Collect(rows, convert)|
    ensures forall i :: 0 <= i < |origin| ==> origin[i] < |rows| && convert(rows[origin[i]]) == Some(Collect(rows, convert)[i])
    ensures forall i, j :: 0 <= i < j < |origin| ==> origin[i] < origin[j]
    decreases |rows|
  {
    if |rows| == 0 {
      origin := [];
    } else {
      var init := rows[..|rows| - 1];
      var prior := CollectOrigins(init, convert);
      if convert(rows[|rows| - 1]).Some? {
        origin := prior + [|rows| - 1];
      } else {
        origin := prior;
      }
    }
  }

  /** The rows after the first `k`. */
  function Drop<T>(s: seq<T>, k: nat): (r: seq<T>)
    ensures |r| == if k >= |s| then 0 else |s| - k
    ensures forall i :: 0 <= i < |r| ==> r[i] == s[k + i]
  {
    if k >= |s| then [] else s[k..]
  }

  /** At most `limit` leading rows; everything when there is no limit. */
  function Take<T>(s: seq<T>, limit: Option<nat>): (r: seq<T>)
    ensures |r| == if limit.Some? && limit.value < |s| then limit.value else |s|
    ensures forall i :: 0 <= i < |r| ==> r[i] == s[i]
  {
    if limit.Some? && limit.value < |s| then s[..limit.value] else s
  }

  /** The rows a page covers: skip `offset`, then take at most `limit`. */
  function Window<T>(rows: seq<T>, offset: nat, limit: Option<nat>): (w: seq<T>)
    ensures offset >= |rows| ==> w == []
    ensures limit.Some? ==> |w| <= limit.value
    ensures |w| <= |rows|
    ensures forall i :: 0 <= i < |w| ==> offset + i < |rows| && w[i] == rows[offset + i]
  {
    Take(Drop(rows, offset), limit)
  }

  /** The page iOS promises: the kept rows of the window, the full row count,
      and more rows iff the window is non-empty and ends before the last row. */
  function IosPage<R, A>(rows: seq<R>, offset: nat, limit: Option<nat>, convert: R -> Option<A>): Page<A> {
    var w := Window(rows, offset, limit);
    Page(Collect(w, convert), |rows|, |w| > 0 && offset + |w| < |rows|)
  }

  /** Appending one row to a slice appends its conversion, if kept. */
  lemma CollectStep<R, A>(rows: seq<R>, lo: nat, hi: nat, convert: R -> Option<A>)
    requires lo <= hi < |rows|
    ensures Collect(rows[lo..hi + 1], convert)
         == Collect(rows[lo..hi], convert) + (if convert(rows[hi]).Some? then [convert(rows[hi]).value] else [])
  {
    assert rows[lo..hi + 1][..hi - lo] == rows[lo..hi];
  }

  /** The index range iOS walks is exactly the window. */
  lemma IosBoundsAreWindow<R>(rows: seq<R>, offset: nat, limit: Option<nat>, start: nat, upperBound: nat)
    requires |rows| > 0
    requires start == Min(offset, |rows|)
    requires upperBound == if limit.Some? then Min(|rows|, start + limit.value) else |rows|
    ensures start <= upperBound ==> rows[start..upperBound] == Window(rows, offset, limit)
    ensures start >= upperBound ==> Window(rows, offset, limit) == []
    ensures start < upperBound ==> (upperBound < |rows| <==> offset + |Window(rows, offset, limit)| < |rows|)
  {
  }

  /** The counting facts every iOS page satisfies. */
  lemma IosPageBounds<R, A>(rows: seq<R>, offset: nat, limit: Option<nat>, convert: R -> Option<A>)
    ensures var page := IosPage(rows, offset, limit, convert);
      && (|rows| == 0 || offset >= |rows| ==> page.assets == [] && !page.hasMore)
      && |page.assets| <= |rows| - Min(offset, |rows|)
      && (limit.Some? ==> |page.assets| <= limit.value)
      && (limit.None? ==> !page.hasMore)
      && (limit.Some? && limit.value > 0 ==> (page.hasMore <==> offset + limit.value < |rows|))
  {
  }

  /** `fetchLibrary` on iOS: clamp the offset, compute the upper bound, visit
      exactly the indices in `[offset, upperBound)`. */
  method IosFetchLibrary<R, A>(rows: seq<R>, offset: nat, limit: Option<nat>, convert: R -> Option<A>) returns (page: Page<A>)
    ensures page == IosPage(rows, offset, limit, convert)
  {
    var totalCount := |rows|;
    if totalCount == 0 {
      return Page([], 0, false);
    }
    var start := Min(offset, totalCount);
    var upperBound := if limit.Some? then Min(totalCount, start + limit.value) else totalCount;
    IosBoundsAreWindow(rows, offset, limit, start, upperBound);
    if start >= upperBound {
      return Page([], totalCount, false);
    }
    var assets: seq<A> := [];
    var index := start;
    while index < upperBound
      invariant start <= index <= upperBound
      invariant assets == Collect(rows[start..index], convert)
    {
      CollectStep(rows, start, index, convert);
      var item := convert(rows[index]);
      if item.Some? {
        assets := assets + [item.value];
      }
      index := index + 1;
    }
    page := Page(assets, totalCount, upperBound < totalCount);
  }

  /** The `LIMIT`/`OFFSET` suffix Android appends to the sort order. */
  datatype SortOrder = SortOrder(limit: Option<nat>, offset: Option<nat>)

  /** `buildSortOrder`: newest first; a limit adds `LIMIT`, and only then a
      positive offset adds `OFFSET`. */
  function BuildSortOrder(offset: nat, limit: Option<nat>): (order: SortOrder)
    ensures order.limit == limit
    ensures order.offset.Some? <==> limit.Some? && offset > 0
    ensures order.offset.Some? ==> order.offset.value == offset
  {
    if limit.Some? then SortOrder(limit, if offset > 0 then Some(offset) else None)
    else SortOrder(None, None)
  }

  /** The sort-order text handed to the content resolver. */
  function RenderSortOrder(order: SortOrder): string {
    "date_added DESC"
    + (if order.limit.Some? then " LIMIT " + Text.NatToDecimal(order.limit.value) else "")
    + (if order.limit.Some? && order.offset.Some? then " OFFSET " + Text.NatToDecimal(order.offset.value) else "")
  }

  /** The rows a query with that sort order yields (SQL `LIMIT n OFFSET k`). */
  function Query<R>(rows: seq<R>, order: SortOrder): seq<R> {
    var afterOffset := if order.offset.Some? then Drop(rows, order.offset.value) else rows;
    if order.limit.Some? then Take(afterOffset, order.limit) else afterOffset
  }

  /** With a limit, the query already yields exactly the page window. */
  lemma QueryIsWindow<R>(rows: seq<R>, offset: nat, limit: Option<nat>)
    requires limit.Some?
    ensures Query(rows, BuildSortOrder(offset, limit)) == Window(rows, offset, limit)
  {
  }

  /** How many rows Android counts as consumed after collecting `collected`. */
  function Consumed(total: nat, offset: nat, limit: Option<nat>, collected: nat): nat {
    if limit.Some? then offset + collected else Min(total, offset) + collected
  }

  /** The page Android promises: the same assets as iOS, the full row count,
      and more rows iff fewer than all rows were consumed. */
  function AndroidPage<R, A>(rows: seq<R>, offset: nat, limit: Option<nat>, convert: R -> Option<A>): Page<A> {
    var assets := Collect(Window(rows, offset, limit), convert);
    Page(assets, |rows|, Consumed(|rows|, offset, limit, |assets|) < |rows|)
  }

  /** The counting facts every Android page satisfies. */
  lemma AndroidPageBounds<R, A>(rows: seq<R>, offset: nat, limit: Option<nat>, convert: R -> Option<A>)
    ensures var page := AndroidPage(rows, offset, limit, convert);
      && page.totalCount == |rows|
      && (limit.Some? ==> |page.assets| <= limit.value)
      && (limit.None? ==> page.assets == Collect(Drop(rows, offset), convert))
      && (offset >= |rows| ==> page.assets == [] && !page.hasMore)
  {
  }

  /** `fetchLibrary` on Android: run the query with the built sort order and
      walk the cursor, skipping `offset` rows itself only when there is no
      limit, and stopping once `limit` assets are collected. */
  method AndroidFetchLibrary<R, A>(rows: seq<R>, offset: nat, limit: Option<nat>, convert: R -> Option<A>) returns (page: Page<A>)
    ensures page == AndroidPage(rows, offset, limit, convert)
  {
    var totalCount := |rows|;
    var cursor := Query(rows, BuildSortOrder(offset, limit));
    if limit.Some? {
      QueryIsWindow(rows, offset, limit);
    }
    var assets: seq<A> := [];
    var collected := 0;
    var skipped := 0;
    var i := 0;
    while i < |cursor|
      invariant 0 <= skipped <= i <= |cursor|
      invariant limit.Some? ==> cursor == Window(rows, offset, limit) && skipped == 0
      invariant limit.None? ==> cursor == rows && skipped == Min(i, offset)
      invariant assets == Collect(cursor[skipped..i], convert)
      invariant collected == |assets|
    {
      if limit.None? && offset > 0 && skipped < offset {
        skipped := skipped + 1;
        i := i + 1;
        continue;
      }
      if limit.Some? && collected >= limit.value {
        break;
      }
      CollectStep(cursor, skipped, i, convert);
      var asset := convert(cursor[i]);
      if asset.Some? {
        assets := assets + [asset.value];
        collected := collected + 1;
      }
      i := i + 1;
    }
    assert i == |cursor|;
    CursorRestIsWindow(rows, offset, limit, cursor, skipped);
    assert cursor[skipped..i] == cursor[skipped..];
    assert assets == Collect(Window(rows, offset, limit), convert);
    var consumed := if limit.Some? then offset + collected else Min(totalCount, offset) + collected;
    page := Page(assets, totalCount, consumed < totalCount);
  }

  /** What the cursor loop keeps after skipping is the page window. */
  lemma CursorRestIsWindow<R>(rows: seq<R>, offset: nat, limit: Option<nat>, cursor: seq<R>, skipped: nat)
    requires limit.Some? ==> cursor == Window(rows, offset, limit) && skipped == 0
    requires limit.None? ==> cursor == rows && skipped == Min(|rows|, offset)
    ensures skipped <= |cursor| && cursor[skipped..] == Window(rows, offset, limit)
  {
    if limit.None? {
      assert cursor[skipped..] == Drop(rows, offset);
    }
  }

  /** The two platforms return the same assets and count on every input, and
      the same `hasMore` whenever no row in the window is dropped. */
  lemma PagesAgree<R, A>(rows: seq<R>, offset: nat, limit: Option<nat>, convert: R -> Option<A>)
    requires limit.None? || limit.value > 0
    ensures AndroidPage(rows, offset, limit, convert).assets == IosPage(rows, offset, limit, convert).assets
    ensures AndroidPage(rows, offset, limit, convert).totalCount == IosPage(rows, offset, limit, convert).totalCount
    ensures (forall i :: 0 <= i < |Window(rows, offset, limit)| ==> convert(Window(rows, offset, limit)[i]).Some?) ==>
              AndroidPage(rows, offset, limit, convert).hasMore == IosPage(rows, offset, limit, convert).hasMore
  {
    var w := Window(rows, offset, limit);
    if forall i :: 0 <= i < |w| ==> convert(w[i]).Some? {
      CollectKeepsAll(w, convert);
    }
  }

  /** When every row of the window converts, the iOS page is the whole
      window converted row by row. */
  lemma IosPageOfWindow<R, A>(rows: seq<R>, offset: nat, limit: Option<nat>, convert: R -> Option<A>)
    requires forall i :: 0 <= i < |Window(rows, offset, limit)| ==> convert(Window(rows, offset, limit)[i]).Some?
    ensures var w := Window(rows, offset, limit);
      var page := IosPage(rows, offset, limit, convert);
      && |page.assets| == |w|
      && (forall i :: 0 <= i < |w| ==> page.assets[i] == convert(w[i]).value)
      && page.totalCount == |rows|
      && page.hasMore == (|w| > 0 && offset + |w| < |rows|)
  {
    CollectKeepsAll(Window(rows, offset, limit), convert);
  }

  /** When every row of the window converts, the Android page is the whole
      window converted row by row, and more remain exactly when the window
      is non-empty and ends before the last row. */
  lemma AndroidPageOfWindow<R, A>(rows: seq<R>, offset: nat, limit: Option<nat>, convert: R -> Option<A>)
    requires limit.None? || limit.value > 0
    requires forall i :: 0 <= i < |Window(rows, offset, limit)| ==> convert(Window(rows, offset, limit)[i]).Some?
    ensures var w := Window(rows, offset, limit);
      var page := AndroidPage(rows, offset, limit, convert);
      && |page.assets| == |w|
      && (forall i :: 0 <= i < |w| ==> page.assets[i] == convert(w[i]).value)
      && page.totalCount == |rows|
      && page.hasMore == (|w| > 0 && offset + |w| < |rows|)
  {
    CollectKeepsAll(Window(rows, offset, limit), convert);
    PagesAgree(rows, offset, limit, convert);
  }

  /** On iOS, dropping rows changes neither the count nor `hasMore`: both are
      the same for any two per-row conversions. */
  lemma IosDroppingKeepsCounts<R, A>(rows: seq<R>, offset: nat, limit: Option<nat>, f: R -> Option<A>, g: R -> Option<A>)
    ensures IosPage(rows, offset, limit, f).totalCount == IosPage(rows, offset, limit, g).totalCount
    ensures IosPage(rows, offset, limit, f).hasMore == IosPage(rows, offset, limit, g).hasMore
  {
  }

  /** On Android a dropped row is still counted against `hasMore`: one
      unconvertible row, no limit, and the page claims more rows remain. */
  lemma AndroidDroppedRowLeavesHasMore<R>(row: R)
    ensures AndroidPage<R, R>([row], 0, None, (r: R) => None).hasMore
    ensures !IosPage<R, R>([row], 0, None, (r: R) => None).hasMore
  {
    assert Window([row], 0, None) == [row];
    assert Collect<R, R>([row], (r: R) => None) == [];
  }
}

=== FILE: results.dfy ===
/** Failure-carrying wrappers shared by every module of the model: `Option`
    stands for a nullable reference or a Swift optional, `Result` for a value
    that is either produced or rejected with an error. */
module Results {

  datatype Option<+T> = None | Some(value: T) {

    /** The value, or `default` when absent (Swift `??`, Java `x != null ? x : d`). */
    function GetOr(default: T): T {
      match this
      case Some(v) => v
      case None => default
    }
  }

  datatype Result<+T, +E> = Ok(value: T) | Err(error: E)
}

=== FILE: text.dfy ===
/** Character-level helpers the naming and parsing code relies on: decimal
    rendering of integers (`%d`, `String.valueOf`), ASCII lower-casing,
    `NSString.pathExtension`, and the fact that a separator that occurs in
    neither left part splits a concatenation uniquely. */
module Text {

  predicate IsDigit(c: char) {
    '0' <= c <= '9'
  }

  predicate AllDigits(s: string) {
    forall i :: 0 <= i < |s| ==> IsDigit(s[i])
  }

  function DigitChar(d: nat): (c: char)
    requires d < 10
    ensures IsDigit(c)
  {
    (48 + d) as char
  }

  function DigitValue(c: char): (d: nat)
    requires IsDigit(c)
    ensures d < 10
  {
    (c as int) - 48
  }

  /** Decimal rendering of a natural number, most significant digit first. */
  function NatToDecimal(n: nat): (s: string)
    ensures |s| >= 1
    ensures AllDigits(s)
    ensures n > 0 ==> s[0] != '0'
    decreases n
  {
    if n < 10 then [DigitChar(n)] else NatToDecimal(n / 10) + [DigitChar(n % 10)]
  }

  /** Decimal rendering of an integer as `%d` and `String.valueOf` produce it:
      a leading minus for negative values and digits otherwise. */
  function IntToDecimal(n: int): (s: string)
    ensures |s| >= 1
    ensures forall i :: 0 <= i < |s| ==> IsDigit(s[i]) || (i == 0 && s[i] == '-')
    ensures s[0] == '-' <==> n < 0
  {
    if n < 0 then "-" + NatToDecimal(-n) else NatToDecimal(n)
  }

  /** The value of a non-empty or empty string of ASCII digits. */
  function DigitsValue(s: string): nat
    requires AllDigits(s)
  {
    if |s| == 0 then 0 else 10 * DigitsValue(s[..|s| - 1]) + DigitValue(s[|s| - 1])
  }

  /** Reading back a rendered natural number gives the number. */
  lemma {:induction false} DigitsValueOfDecimal(n: nat)
    ensures DigitsValue(NatToDecimal(n)) == n
    decreases n
  {
    var s := NatToDecimal(n);
    if n >= 10 {
      var prefix := NatToDecimal(n / 10);
      assert s[..|s| - 1] == prefix;
      DigitsValueOfDecimal(n / 10);
    }
  }

  /** Distinct integers render to distinct decimal strings. */
  lemma IntToDecimalInjective(a: int, b: int)
    requires IntToDecimal(a) == IntToDecimal(b)
    ensures a == b
  {
    var s := IntToDecimal(a);
    if a < 0 {
      assert s[1..] == NatToDecimal(-a);
      assert s[1..] == NatToDecimal(-b);
      DigitsValueOfDecimal(-a);
      DigitsValueOfDecimal(-b);
    } else {
      DigitsValueOfDecimal(a);
      DigitsValueOfDecimal(b);
    }
  }

  /** Index of the last occurrence of `c` in `s`, or -1. */
  function LastIndexOf(s: string, c: char): (i: int)
    ensures -1 <= i < |s|
    ensures i >= 0 ==> s[i] == c
    ensures forall k :: i < k < |s| ==> s[k] != c
    decreases |s|
  {
    if |s| == 0 then -1
    else if s[|s| - 1] == c then |s| - 1
    else LastIndexOf(s[..|s| - 1], c)
  }

  /** The last path component: the text after the last `/`. */
  function LastComponent(path: string): (r: string)
    ensures '/' !in r
    ensures '/' !in path ==> r == path
  {
    var i := LastIndexOf(path, '/');
    path[i + 1..]
  }

  /** `NSString.pathExtension`: the text after the last `.` of the last path
      component; empty when that component has no dot or only a leading one. */
  function PathExtension(name: string): (ext: string)
    ensures '.' !in ext && '/' !in ext
  {
    var component := LastComponent(name);
    var i := LastIndexOf(component, '.');
    if i <= 0 then "" else component[i + 1..]
  }

  /** A name with no `/` and no `.` has no extension. */
  lemma NoDotNoExtension(name: string)
    requires '/' !in name && '.' !in name
    ensures PathExtension(name) == ""
  {
    assert LastComponent(name) == name;
  }

  /** A stem with no `/` joined to an extension by a dot has that extension. */
  lemma PathExtensionOfJoin(stem: string, ext: string)
    requires |stem| > 0 && '/' !in stem
    requires '/' !in ext && '.' !in ext
    ensures PathExtension(stem + "." + ext) == ext
  {
    var name := stem + "." + ext;
    assert forall k :: 0 <= k < |name| ==> name[k] != '/' by {
      forall k | 0 <= k < |name| ensures name[k] != '/' {
        if k < |stem| { assert name[k] == stem[k]; }
        else if k > |stem| { assert name[k] == ext[k - |stem| - 1]; }
      }
    }
    assert LastComponent(name) == name;
    assert forall k :: |stem| < k < |name| ==> name[k] != '.' by {
      forall k | |stem| < k < |name| ensures name[k] != '.' {
        assert name[k] == ext[k - |stem| - 1];
      }
    }
    assert name[|stem|] == '.';
    assert LastIndexOf(name, '.') == |stem|;
    assert name[|stem| + 1..] == ext;
  }

  function AsciiLowerChar(c: char): char {
    if 'A' <= c <= 'Z' then (c as int + 32) as char else c
  }

  /** ASCII lower-casing; characters outside `A`-`Z` are kept. */
  function AsciiLower(s: string): (r: string)
    ensures |r| == |s|
    ensures forall i :: 0 <= i < |s| ==> r[i] == AsciiLowerChar(s[i])
  {
    seq(|s|, i requires 0 <= i < |s| => AsciiLowerChar(s[i]))
  }

  /** In `a + [c] + b` with no `c` in `a`, the first `c` sits at `|a|`. */
  lemma SeparatorPosition(a: string, b: string, c: char)
    requires c !in a
    ensures (a + [c] + b)[|a|] == c
    ensures forall k :: 0 <= k < |a| ==> (a + [c] + b)[k] != c
  {
    var s := a + [c] + b;
    forall k | 0 <= k < |a| ensures s[k] != c {
      assert s[k] == a[k];
    }
  }

  /** A separator that occurs in neither left part splits a concatenation in
      exactly one way. */
  lemma SplitAtSeparator(a1: string, b1: string, a2: string, b2: string, c: char)
    requires c !in a1 && c !in a2
    requires a1 + [c] + b1 == a2 + [c] + b2
    ensures a1 == a2 && b1 == b2
  {
    var s := a1 + [c] + b1;
    SeparatorPosition(a1, b1, c);
    SeparatorPosition(a2, b2, c);
    assert |a1| == |a2|;
    assert a1 == s[..|a1|] == a2;
    assert b1 == s[|a1| + 1..] == b2;
  }
}
